=== FILE: README.md ===
# tap-fireflies, modelled in Dafny

This project models the core of tap-fireflies, a Singer tap that pulls users, transcripts and
meeting attendees out of the Fireflies GraphQL API. The model is written in Dafny 4.11 and
proves properties of that core. The core has six parts:

- **The skip/limit pagination engine.** `GraphQLHelper.execute_pagination` and
  `execute_pagination_with_cutoff` ask for windows of `step_size` records and advance `skip`
  by what they have merged. They concatenate the named result lists and stop on an empty page,
  a short page, or once past the record ceiling. The cutoff variant truncates every page at its
  first record below the cutoff.
- **The transcripts cursor.** `Transcripts.get_records` walks backwards in time, moving
  `toDate` to the lowest date seen on each page and skipping ids it has already yielded.
  `IncrementalStream.sync` keeps the bookmark high-water mark, `FullTableStream.sync` handles
  the users stream, and `generate_record_hash` adds the record hash.
- **The meeting-attendees stream.** `get_tap_data` computes the cutoff, keeps only customer
  meetings, records the largest meeting timestamp, and `data_processing` emits one row per
  attendee.
- **State translation and streams bookkeeping.** `translate_state`, `get_streams_to_sync` and
  the `currently_syncing` marker in `sync`.
- **The client.** The error-code table, `get_exception_for_error_code`, `raise_for_error`, the
  retry policy of the two backoff decorators, the request timeout, and the headers and url of
  `FirefliesClient.request`.
- **The tap's own `sync`.** It reads each stream's prior state, drains the stream's rows, and
  files the stream's final state under `Context.state["bookmarks"]`.

The package contains both a module `tap_fireflies/streams.py` and a package
`tap_fireflies/streams/`. The model covers both the `meeting_*` path (module `Tap`) and the
`users`/`transcripts` path (modules `Streams` and `Sync`).

Modules, one file each:

- `wrappers.dfy` (`Wrappers`): `Option` and `Result`.
- `json.dfy` (`Json`): decoded JSON values and Python truthiness.
- `exceptions.dfy` (`Exceptions`): the exceptions the code raises.
- `api.dfy` (`Api`): a decoded GraphQL reply.
- `client.dfy` (`Client`).
- `pagination.dfy` (`Pagination`).
- `singer_state.dfy` (`SingerState`): the three Singer state helpers the streams call.
- `streams.dfy` (`Streams`).
- `meeting_attendees.dfy` (`MeetingAttendees`).
- `sync.dfy` (`Sync`).
- `tap.dfy` (`Tap`).

The outside world becomes parameters:

- The HTTP round trip of the client is a function `send` from attempt number to a status and
  body.
- The GraphQL helper's `execute` is a function `execute` from a `limit`/`skip` window to an
  optional reply.
- The transcripts and users requests are a function `post` from window to reply.
- The current time and the configured start date are integer milliseconds.
- Python's dictionary iteration order is a parameter `order` that lists each key once.
- Exceptions are values of `Exceptions.Exception`. A Python exception ends an operation with
  `Failure(e)`, and generators keep what they yielded before it.

Where the code and its evident intent part, a parameter `variant` chooses between the code
`AsWritten` and the `Corrected` reading. The two are compared under "## Findings".

## Model

| member | source | states |
|---|---|---|
| Client.ErrorCodeTableBijective | tap_fireflies/client.py:73-126 | The error-code table is one-to-one: a code maps to an exception class exactly when that class is listed under that code. |
| Client.ErrorCodeTableRange | tap_fireflies/client.py:73-126 | No documented code maps to `Server5xxError`, plain `FirefliesError`, `FirefliesBadRequestError`, `FirefliesBadResponseError`, `ConnectionError`, `Timeout` or `ConnectTimeout`. |
| Client.AtLeast500 | tap_fireflies/client.py:132 | `status >= 500` is a boolean for an integer status, is false for a boolean (Python compares it as 0 or 1), and raises `TypeError` for any other type. |
| Client.GetExceptionForErrorCode | tap_fireflies/client.py:128-133 | A mapped code yields its own class. An unmapped or empty code yields `Server5xxError` when the status is at least 500, else `FirefliesError`. The only possible failure is `TypeError`. |
| Client.MappedCodeIgnoresStatus | tap_fireflies/client.py:130-131 | For a mapped code the status plays no part: any two statuses give the same class. |
| Client.RaiseForError | tap_fireflies/client.py:135-161 | The result is always an exception. It is `Server5xxError` for an undecodable body, for no or empty `errors`, and for more than one error. A body that is not an object gives `AttributeError`. |
| Client.RaiseForSingleError | tap_fireflies/client.py:150-159 | For a single error, the class is the one `get_exception_for_error_code` gives for that error's own code and `extensions.status`. |
| Client.RaiseForSingleErrorDefaultStatus | tap_fireflies/client.py:152-159 | A single error with an unmapped code and no status counts as status 502, so it yields `Server5xxError`. |
| Client.SingleErrorClass | tap_fireflies/client.py:150-159 | Classifying one error fails only with `AttributeError`, when the error or its `extensions` is not a dictionary, or with the `TypeError` of `get_exception_for_error_code`. |
| Client.HandleResponse | tap_fireflies/client.py:226-233 | A response succeeds exactly when the status is 200 and the body decodes, and then it returns that body. A 200 with an undecodable body raises `FirefliesBadResponseError`. Any other status raises what `raise_for_error` chooses. |
| Client.TriesBound | tap_fireflies/client.py:196-200 | The nested retry loop makes at most 4 × 5 attempts. |
| Client.NextTry | tap_fireflies/client.py:196-200 | After a retried attempt the loop moves either to the next inner try of the same outer try or to the first inner try of the next outer try. It never leaves the 4 × 5 tries. |
| Client.TriesRetried | tap_fireflies/client.py:196-200 | Every attempt before the last failed with an exception that one of the two decorators retries. |
| Client.TriesGiveUpOnlyWhenExhausted | tap_fireflies/client.py:197-200 | When the loop gives up on an exception of the inner decorator, the inner tries are spent (`n + inner >= 4`) and the last `min(n, 4)` attempts all failed with exceptions the inner decorator retries. |
| Client.Request | tap_fireflies/client.py:196-233 | The decorated request returns the outcome of its last attempt, after between 1 and 20 attempts. |
| Client.RequestRetriesOnlyRetryable | tap_fireflies/client.py:196-200 | Each attempt that was retried failed with `Server5xxError`, `ConnectionError`, `FirefliesBadResponseError`, `FirefliesRateLimitError`, `Timeout` or `ConnectTimeout`. |
| Client.RequestGivesUpOnlyWhenExhausted | tap_fireflies/client.py:197-200 | A request that ends on an exception of the inner decorator made at least 4 attempts, and its last 4 attempts all failed with exceptions the inner decorator retries. |
| Client.TriesTimeoutsBound | tap_fireflies/client.py:196 | For any mix of failures, at most as many attempts end in a plain `Timeout` as the outer decorator has tries left. A plain `Timeout` is retried only by the outer decorator. |
| Client.RequestTimeoutsBound | tap_fireflies/client.py:196 | A request makes at most 5 attempts that end in a plain `Timeout`, whatever its other attempts raise. |
| Client.RequestStopsOnFinalAnswer | tap_fireflies/client.py:196-200 | A first attempt that succeeds, or fails with an exception neither decorator retries, is the whole request. |
| Client.RateLimitsExhaustInner | tap_fireflies/client.py:197-200 | Under persistent rate limiting the inner decorator makes exactly its remaining tries. |
| Client.PersistentRateLimit | tap_fireflies/client.py:197-200 | Persistent rate limiting ends the request with `FirefliesRateLimitError` after exactly 4 attempts. The outer decorator does not retry it. |
| Client.TimeoutsExhaustOuter | tap_fireflies/client.py:196-200 | Under persistent timeouts every outer try is one attempt. |
| Client.PersistentTimeout | tap_fireflies/client.py:196-200 | Persistent timeouts end the request with `Timeout` after exactly 5 attempts. |
| Client.ConnectTimeoutsExhaustBoth | tap_fireflies/client.py:196-200 | `ConnectTimeout` is retried by both decorators, so under persistent connect timeouts every inner try of every remaining outer try is made. |
| Client.PersistentConnectTimeout | tap_fireflies/client.py:196-200 | Persistent connect timeouts end the request with `ConnectTimeout` after exactly 4 × 5 = 20 attempts. |
| Client.RequestTimeoutCodeNotRetried | tap_fireflies/client.py:196-200 | A `request_timeout` error code raises `FirefliesRequestTimeoutError` after one attempt. It is not retried. |
| Client.RequestTimeout | tap_fireflies/client.py:183-186 | A falsy configured timeout gives 300. A non-zero number or numeric string gives its value. A container or non-numeric string fails. The timeout is never 0. |
| Client.PrepareRequest | tap_fireflies/client.py:202-214 | `Authorization` is always `Bearer <token>`. `Content-Type: application/json` is added only for POST. The other caller headers are kept. The url becomes `base_url` only when neither url nor path is given. |
| Pagination.RequestSkipsCounted | tap_fireflies/custom_utils.py:71-74 | Request `i` asks for `limit = step_size` and `skip` = the sum of the counts of the pages before it. |
| Pagination.SumPrefixMonotone | tap_fireflies/custom_utils.py:94 | The skip of the requests never decreases. |
| Pagination.MergeSpec | tap_fireflies/custom_utils.py:89-93 | Merging a batch appends each named list after what was accumulated under that name. Other keys are unchanged. The keys are the old ones plus the schema names. |
| Pagination.CollectLookup | tap_fireflies/custom_utils.py:89-93 | The merged list of a schema is the in-order concatenation of its lists on every merged page. |
| Pagination.CollectDomain | tap_fireflies/custom_utils.py:89-93 | The merged result has exactly the schema names as keys, or none when no page was merged. |
| Pagination.CollectAfterMerge | tap_fireflies/custom_utils.py:89-93 | Merging one more page into the merged result equals merging all pages including it. |
| Pagination.FlattenLength | tap_fireflies/custom_utils.py:94 | The length of the merged lead list is the sum of the page counts. |
| Pagination.Step | tap_fireflies/custom_utils.py:78-97 | A reply is handled as follows. `None`, or no `data`, raises `ValueError`. An empty lead list ends the run. A reply missing a schema raises `KeyError` for that schema. Otherwise the whole batch is merged and counts the lead list's length. |
| Pagination.FirstBelow | tap_fireflies/custom_utils.py:135-141 | The cutoff index is the first record below the cutoff, with all records before it at or above. A record without the field raises `KeyError` on the field. With no record below, it reports none. |
| Pagination.CutoffStep | tap_fireflies/custom_utils.py:123-148 | The same errors and end condition as the plain step apply. A good page is every schema's list truncated to the cutoff index, and the count is that index. |
| Pagination.Tick | tap_fireflies/custom_utils.py:70-101 | A pass of the loop that continues started at or below the ceiling and strictly raised the count. |
| Pagination.TickRequests | tap_fireflies/custom_utils.py:70-94 | One pass keeps the window invariant. |
| Pagination.DriveRequests | tap_fireflies/custom_utils.py:70-94 | Every window skips exactly the records counted before it. No window skips past the ceiling. At most one extra request merges nothing. |
| Pagination.TickCounts | tap_fireflies/custom_utils.py:86-97 | One pass keeps the count invariant. |
| Pagination.DriveCounts | tap_fireflies/custom_utils.py:70-102 | The returned count is the sum of the page counts. Only the last page may be short. A run that merged its last request stopped on a short page or past the ceiling. |
| Pagination.TickFetched | tap_fireflies/custom_utils.py:76-88 | One pass keeps "page `i` came from request `i`". |
| Pagination.DriveFetched | tap_fireflies/custom_utils.py:76-88 | Every merged page is the reply to its own request. A run that did not merge its last request ended there on an empty page or on that request's exception. |
| Pagination.TickMerged | tap_fireflies/custom_utils.py:89-93 | One pass keeps the accumulated result equal to the merge of the pages so far. |
| Pagination.DriveMerged | tap_fireflies/custom_utils.py:89-102 | A successful run returns the merge of exactly the pages it fetched, when the schema names are distinct. |
| Pagination.TickPaced | tap_fireflies/custom_utils.py:98-101 | One pass keeps the request counter in step with the pauses. |
| Pagination.DrivePaced | tap_fireflies/custom_utils.py:98-101 | The counter reset (the pause) happens once after every 60 full pages. |
| Pagination.Paginate | tap_fireflies/custom_utils.py:66-102 | The `while` loop computes the same outcome as the recursive reference engine. |
| Pagination.Finished | tap_fireflies/custom_utils.py:66-102 | The outcome of the engine satisfies all of the window, count, fetch, pacing and merge properties. |
| Pagination.PlainStepSound | tap_fireflies/custom_utils.py:86-97 | A merged plain page holds every schema and at least one record, so each continuing pass advances. |
| Pagination.ExecutePagination | tap_fireflies/custom_utils.py:50-102 | An empty schema list raises `IndexError`. Otherwise the run satisfies all engine properties for the plain step. Its merged lists concatenate the fetched pages, and the count equals the merged lead list's length. |
| Pagination.CutoffStepSound | tap_fireflies/custom_utils.py:135-152 | A cutoff page that continues is full, so it advances. Every record of a merged cutoff-schema page is at or above the cutoff. |
| Pagination.FlattenAbove | tap_fireflies/custom_utils.py:144-148 | Concatenating pages that are all at or above the cutoff stays at or above it. |
| Pagination.ExecutePaginationWithCutoff | tap_fireflies/custom_utils.py:104-157 | The run satisfies the engine properties for the cutoff step. Every merged cutoff-schema record is at or above the cutoff. The count is the sum of the per-page cutoff indices. |
| Pagination.CutoffRunAbove | tap_fireflies/custom_utils.py:104-157 | A successful cutoff run with distinct schema names returns the merge of its fetched pages, and every record of its cutoff schema is at or above the cutoff. |
| SingerState.StreamBookmarks | tap_fireflies/streams.py:152 | A stream's bookmark object is the stored object, or `{}` when the stream or `bookmarks` is absent. The only failure is `AttributeError`. |
| SingerState.GetBookmark | tap_fireflies/streams.py:152 | Reading a bookmark fails exactly when the path is not dictionaries. Otherwise it is the stored value or the default. |
| SingerState.WriteThenGet | tap_fireflies/streams.py:117-121 | Writing a bookmark succeeds exactly when the path is absent, `None` or dictionaries. A written bookmark reads back. |
| SingerState.WriteBookmark | tap_fireflies/streams.py:117-121 | Writing a bookmark raises `AttributeError` when `bookmarks` is neither absent, `None` nor a dictionary. It raises `TypeError` when the stream's entry is neither absent, `None` nor a dictionary. |
| SingerState.WriteBookmarkFrame | tap_fireflies/streams.py:117-121 | Writing a bookmark changes only that bookmark. Other top-level keys, other streams and other keys of the stream keep their values. |
| SingerState.SetCurrentlySyncing | tap_fireflies/sync.py:78 | The marker becomes the stream name, or JSON `null` for none. Nothing else in the state changes. |
| Streams.StreamOf | tap_fireflies/streams.py:434-437 | `STREAMS` knows exactly `users` and `transcripts`. |
| Streams.RegistryRoundTrip | tap_fireflies/streams.py:434-437 | Looking up a stream class's id gives that class back. |
| Streams.PageRecords | tap_fireflies/streams.py:399-403 | A falsy `data` raises `FirefliesError`. A successful read returns exactly the objects of the schema's list, in order. |
| Streams.DedupAppend | tap_fireflies/streams.py:417-421 | Yielding a record whose id is not yet visited keeps the yielded list free of duplicate ids, with the visited set equal to its ids. |
| Streams.ScanPageSpec | tap_fireflies/streams.py:409-421 | Scanning a page adds all its ids to the visited set. It yields something new exactly when some id was unvisited. The low date is the page's fold. No id is yielded twice, even when the scan stops on an exception. A page scanned to its end had, on every record, a dictionary or absent `meeting_info`, an integer or absent date, and an id usable in a set (not a list or dictionary). |
| Streams.ScanPageYields | tap_fireflies/streams.py:409-421 | Scanning a page after the records seen so far yields the first-seen records of them all. A scan that stops on an exception yields a prefix of that. |
| Streams.MinDate | tap_fireflies/streams.py:412-415 | The minimum date of a page is one of its dates and is at most every one of them. |
| Streams.LowIsMinDate | tap_fireflies/streams.py:412-415 | For positive integer dates, the next `toDate` is the minimum date over the whole page (visited records included), bounded by the low so far. |
| Streams.ZeroDateIsForgotten | tap_fireflies/streams.py:412-415 | A zero date is falsy: after it the fold restarts from the next date, so `[0, 7]` yields 7. |
| Streams.StepWindowsMore | tap_fireflies/streams.py:384-428 | Every request keeps `fromDate` at the bookmark, `limit` 50 and `skip` 0. The first goes up to now and each later one up to the previous page's low date. |
| Streams.StepWindowsStop | tap_fireflies/streams.py:384-432 | The same window facts hold when the cursor stops. One page was scanned per request, except the one that raised. |
| Streams.StepDedup | tap_fireflies/streams.py:417-421 | No id is yielded twice across the run. The yielded ids are the ids of all scanned pages. A continuing pass strictly enlarges the visited set. |
| Streams.StepPaging | tap_fireflies/streams.py:430-432 | Every page before the last was full, had a new id and had a date. The last page of a run that ended normally lacked one of the three. |
| Streams.StepFirefliesError | tap_fireflies/streams.py:399-401 | A reply with falsy `data` ends the cursor with `FirefliesError`. |
| Streams.FewerUnvisited | tap_fireflies/streams.py:420-421 | A strictly larger visited set leaves strictly fewer unvisited ids: the termination measure. |
| Streams.StepKeeps | tap_fireflies/streams.py:391-432 | One pass keeps the cursor invariant and decreases the measure, or ends with all the run facts. |
| Streams.FirstSeenIds | tap_fireflies/streams.py:417-421 | The first-seen records, the reference for what the cursor yields, carry every id of the input once. |
| Streams.FirstSeenPrefix | tap_fireflies/streams.py:417-421 | The first-seen records of a sequence begin with those of any prefix of it. |
| Streams.SeenIdsConcat | tap_fireflies/streams.py:409-421 | The ids visited over the pages are the ids of the concatenated pages. |
| Streams.StepYields | tap_fireflies/streams.py:391-428 | One pass keeps every page tied to the reply to its request and what was yielded equal to the first-seen records of the pages. A stopping pass ends with the run's yield facts. |
| Streams.GetRecords | tap_fireflies/streams.py:295-432 | `get_records` terminates with the window facts, the no-duplicate-id property, the paging facts and the `FirefliesError` rule. Page `i` is the record list of the reply to request `i`. A finished run yields exactly the first-seen records of the concatenated pages. Every kept page was scanned to its end. A failed run yields a prefix of that sequence extended by the failing page. Its exception is the failing request's or read's. When the reply and its read succeeded, the exception is the one the record loop raised on that page, with exactly the records it yielded. |
| Streams.UsersGetRecords | tap_fireflies/streams.py:277-282 | A users request that fails propagates its exception. Otherwise the records are those of the `users` list, with falsy `data` raising `FirefliesError`. |
| Streams.FullTableSync | tap_fireflies/streams.py:216-242 | Full-table sync writes every record and returns the state it was given. |
| Streams.EmitWritten | tap_fireflies/streams.py:165-182 | The record loop fails exactly when a record lacks an integer date. Otherwise it writes exactly the records dated at or after the starting bookmark, in order. |
| Streams.FirstUndated | tap_fireflies/streams.py:165-171 | When some record lacks an integer date, the record loop meets the first such one at this position. Every earlier record is dated. |
| Streams.EmitUndated | tap_fireflies/streams.py:165-182 | The record loop stops at the first record without an integer date, after writing exactly the earlier records at or after the bookmark. It raises `KeyError('date')` when the date is absent and `TypeError` otherwise. |
| Streams.SyncRecords | tap_fireflies/streams.py:165-198 | The record loop over the cursor's output writes only records dated at or after the bookmark. It fails at the first undated record or with the cursor's error. When every record is dated and the cursor finished, the outcome is exactly the write of the formatted maximum of the bookmark and the written dates, whether that write succeeds or raises. No other case succeeds. |
| Streams.EmitMax | tap_fireflies/streams.py:173-182 | The maximum never falls below its start or below any written date. It is either the start or a written date. |
| Streams.WrittenFromEmitted | tap_fireflies/streams.py:173-182 | Every written record is one of the fetched records and is dated at or after the bookmark. |
| Streams.WriteIntermediateBookmark | tap_fireflies/streams.py:123-130 | With `to_write_intermediate_bookmark` false, the state is left unchanged. |
| Streams.BookmarkDate | tap_fireflies/streams.py:152-153 | `strptime_to_utc` of the bookmark succeeds exactly for a string the date parser accepts. A string it rejects raises `ValueError`, and a bookmark that is not a string raises `TypeError`. |
| Streams.SyncedRecordsUnique | tap_fireflies/streams.py:165-198 | The record loop and the final write admit exactly one outcome for what the cursor yielded and how it ended. |
| Streams.IncrementalSync | tap_fireflies/streams.py:135-198 | The bookmark defaults to the start date and is parsed by the date parser. An unreadable state raises `AttributeError`, and an unparsable bookmark raises the parse error. Otherwise the cursor runs from the parsed bookmark with all of `get_records`' facts. Only fetched records at or after the bookmark are written, all of them when every record is dated, and a cursor failure propagates. At the first record without an integer date, the sync fails with `KeyError('date')` (absent) or `TypeError`, after writing the qualifying earlier records. A success means every record was dated and the cursor finished. In that case the outcome is exactly the write of the formatted maximum of the bookmark and the written dates, so the stored bookmark never decreases. `IncrementallySynced` bundles these facts for the driver. |
| Streams.HashInputAppend | tap_fireflies/streams.py:64-67 | The hashed string is the in-order concatenation of the fields' strings. |
| Streams.HashInputSkipsMissing | tap_fireflies/streams.py:66-67 | A missing field contributes `''`. |
| Streams.GenerateRecordHash | tap_fireflies/streams.py:60-74 | The only change is to add `_sdc_record_hash`, which is the digest of the field string. Every other key keeps its value. |
| MeetingAttendees.CutoffTime | tap_fireflies/streams/meeting_attendees.py:56-57 | The cutoff is the prior `meeting_timestamp` or the start date, whichever is smaller. It is never above the start date, so it can fall below the prior state. A non-integer prior raises `TypeError`. |
| MeetingAttendees.MeetingTimestampOf | tap_fireflies/custom_utils.py:138 | A record without `meeting_timestamp` raises `KeyError` on that field. A present non-integer value raises the `TypeError` of the `<` comparison. Otherwise it is the integer. |
| MeetingAttendees.ContainsSpec | tap_fireflies/streams/meeting_attendees.py:87 | `in` on strings holds exactly when the substring occurs at some position. |
| MeetingAttendees.In | tap_fireflies/streams/meeting_attendees.py:87 | Python's `in` fails with `TypeError` exactly when the container is not a string, list or dictionary. On a list it tests whether some item is that string. |
| MeetingAttendees.Included | tap_fireflies/streams/meeting_attendees.py:87 | A meeting is a customer meeting exactly when its title contains `\| Vibe` or `<>`: as a substring of a string title, as a key of a dictionary title, or as an item of a list title. A missing title raises `KeyError`, and a title of any other type raises `TypeError`. |
| MeetingAttendees.RaiseMax | tap_fireflies/streams/meeting_attendees.py:88-90 | Only a truthy replication value moves the maximum, and the maximum never drops. A truthy non-integer raises. |
| MeetingAttendees.AttendeeRow | tap_fireflies/streams/meeting_attendees.py:102-113 | A row carries the meeting's `id` and `meeting_timestamp`, `phoneNumber` as `phone_number`, and `email`, `location` and `name` unchanged. A missing attendee field raises `KeyError` for it. |
| MeetingAttendees.AttendeeList | tap_fireflies/streams/meeting_attendees.py:101 | A list of attendees is iterated as it is. Any other value yields no attendees only when it is empty (falsy). |
| MeetingAttendees.RowsSpec | tap_fireflies/streams/meeting_attendees.py:98-115 | When every attendee converts, there is exactly one row per attendee, in input order. |
| MeetingAttendees.RowsFirstFailure | tap_fireflies/streams/meeting_attendees.py:101-105 | A failure is the exception of the first attendee that does not convert. |
| MeetingAttendees.DataProcessing | tap_fireflies/streams/meeting_attendees.py:97-115 | A missing `id`, `meeting_timestamp` or `meeting_attendees` raises `KeyError`, in that order. Otherwise the rows are the attendees' rows. |
| MeetingAttendees.ProcessMax | tap_fireflies/streams/meeting_attendees.py:84-95 | The final maximum is the cutoff or a customer meeting's timestamp. It is at least the cutoff and at least every non-zero timestamp of a customer meeting. |
| MeetingAttendees.ProcessRows | tap_fireflies/streams/meeting_attendees.py:84-93 | Every output row comes from a customer meeting. |
| MeetingAttendees.ProcessNoCustomerMeetings | tap_fireflies/streams/meeting_attendees.py:87-93 | Meetings that are not customer meetings produce nothing and leave the maximum alone. |
| MeetingAttendees.TranscriptRecords | tap_fireflies/streams/meeting_attendees.py:83 | The merged `transcripts` list when present. Absent, it raises `KeyError` as written and gives no meetings as corrected. |
| MeetingAttendees.EmptyFirstPageAsWritten | tap_fireflies/streams/meeting_attendees.py:83 | As written, a run whose first page is empty raises `KeyError('transcripts')`. |
| MeetingAttendees.EmptyFirstPageCorrected | tap_fireflies/streams/meeting_attendees.py:83-95 | As corrected, the same run yields no rows and stores the cutoff. |
| MeetingAttendees.FirstEmptyMergesNothing | tap_fireflies/custom_utils.py:130-133 | An empty first page means nothing was merged, so the helper returns `{}`. |
| MeetingAttendees.GetTapData | tap_fireflies/streams/meeting_attendees.py:47-95 | The generator computes exactly the stream outcome `TapData`. Its fetch is the cutoff pagination from the cutoff, and an empty first reply leaves no page. |
| MeetingAttendees.TapData | tap_fireflies/streams/meeting_attendees.py:47-95 | A bad prior timestamp raises `TypeError` before anything is fetched. Otherwise the fetch is the cutoff pagination from the cutoff, and its failure propagates with no rows. Every row is an attendee row of a fetched customer meeting at or above the cutoff. A stored `meeting_timestamp` is at or above the cutoff and at least every non-zero fetched customer meeting's timestamp, and nothing else in the state changes. With the transcripts list read, rows and state are exactly those of processing it. An empty first page gives each variant's outcome. |
| MeetingAttendees.TapDataFacts | tap_fireflies/streams/meeting_attendees.py:84-95 | Processing the fetched records yields only rows of customer meetings at or above the cutoff. The maximum is at least the cutoff and bounds every non-zero customer meeting's timestamp. |
| MeetingAttendees.FetchedAbove | tap_fireflies/custom_utils.py:135-148 | Every fetched transcript is at or above the cutoff. |
| Sync.ReplicationKeyOf | tap_fireflies/sync.py:38 | `STREAMS[stream].replication_key` is the stream's key, or `KeyError(stream)` for an unknown stream. |
| Sync.Translated | tap_fireflies/sync.py:34-39 | The reference translation keeps the set of streams. |
| Sync.TranslateState | tap_fireflies/sync.py:11-41 | A state without `bookmarks` is returned as is. A non-object `bookmarks` raises `AttributeError`. |
| Sync.TranslateEntryFrame | tap_fireflies/sync.py:37-39 | One step wraps a string bookmark as `{replication_key: old}` and touches no other stream. It fails only for an unknown stream with a string bookmark. |
| Sync.TranslateBookmarksFailure | tap_fireflies/sync.py:34-39 | The loop fails exactly when some string bookmark belongs to a stream absent from `STREAMS`. The error is `KeyError` for the first such stream in iteration order. |
| Sync.TranslateBookmarksValues | tap_fireflies/sync.py:34-39 | On success the streams are unchanged. Every string bookmark becomes `{replication_key: old string}`, and every other bookmark is unchanged. |
| Sync.TranslateBookmarksIsTranslated | tap_fireflies/sync.py:34-41 | The loop, in any iteration order, equals the order-free reference translation, or fails with a `KeyError` for an unknown legacy stream. |
| Sync.TranslatedIsFixed | tap_fireflies/sync.py:37-39 | The reference translation is idempotent. |
| Sync.TranslateStateIdempotent | tap_fireflies/sync.py:11-41 | Translating an already translated state changes nothing. |
| Sync.TranslateStateSpec | tap_fireflies/sync.py:11-41 | With `bookmarks` present, the state translates exactly when the reference can translate it, and the result is the state with the translated bookmarks. Otherwise it is a `KeyError` for an unknown legacy stream. |
| Sync.GetStreamsToSync | tap_fireflies/sync.py:43-53 | The selected streams come back unfiltered and in order. |
| Sync.SyncOne | tap_fireflies/sync.py:72-88 | A stream's `sync` is the full-table sync of `users` on the users reply, or the incremental sync of `transcripts`, with every fact of that sync for the run of `get_records` it made. |
| Sync.RunStream | tap_fireflies/sync.py:78-89 | One pass marks the stream `currently_syncing` and writes that state, then syncs from it. A failing sync writes nothing more and is recorded as that stream's failure. Otherwise the state it returned is written next, and one more stream is done. |
| Sync.SyncStreams | tap_fireflies/sync.py:70-92 | The loop ends at the first unknown stream with its `KeyError`, or at the first failing sync with that sync's outcome, or with every stream synced and the marker cleared. Every stream before the end synced from its marked state and returned the next written state. |
| Sync.Sync | tap_fireflies/sync.py:55-92 | A non-numeric `request_timeout` fails first, then a failed translation stops everything. Each synced stream was marked `currently_syncing` before its sync, and every stream synced is in `STREAMS`. A run that finishes ends with the marker cleared. An unknown stream raises `KeyError`. Every stream before the stop synced from its marked state and returned the next state written. A run that stops in a stream's sync carries the outcome of that stream's own full-table or incremental sync. |
| Tap.CreateStream | tap_fireflies/streams/__init__.py:4-10 | Only `meeting_info` and `meeting_attendees` create a stream. Any other id raises `AssertionError`. |
| Tap.CreateStreamRoundTrip | tap_fireflies/streams/__init__.py:4-10 | A stream is created from its own name, and a created stream carries the id it was created from. |
| Tap.Prior | tap_fireflies/__init__.py:70 | As written, the prior state is top-level `state[stream_id]` or `{}`. As corrected, it is `state["bookmarks"][stream_id]` or `{}`, with `AttributeError` on a non-object `bookmarks`. |
| Tap.EnsureBookmarks | tap_fireflies/__init__.py:61-62 | After the check, `bookmarks` exists. A context whose `bookmarks` is truthy is returned unchanged and a falsy one becomes `{}`. No other key is added. |
| Tap.EnsureBookmarksFrame | tap_fireflies/__init__.py:61-62 | Other keys keep their values, and the check is idempotent. |
| Tap.StoreState | tap_fireflies/__init__.py:79 | `.update` succeeds exactly when `bookmarks` is an object. Otherwise it raises `AttributeError`. |
| Tap.StoreStateFrame | tap_fireflies/__init__.py:79 | After the update, `bookmarks[stream_id]` is the stream's final state. Every other entry and every other top-level key is untouched. |
| Tap.StoredIsRead | tap_fireflies/__init__.py:79 | The corrected read of the prior state returns exactly what the update stored. |
| Tap.StoredIsForgotten | tap_fireflies/__init__.py:70 | The read as written finds `{}` instead of the stored state, so a non-empty stored state is lost. |
| Tap.ResumedCutoffDiffers | tap_fireflies/__init__.py:70 | A concrete resume: a stored `meeting_timestamp` of 7 with start 10 gives cutoff 10 as written but 7 as corrected. |
| Tap.StreamOutcome | tap_fireflies/__init__.py:69-79 | An unknown id raises `AssertionError` and `meeting_info` raises its error. `meeting_attendees` on a dictionary prior state gives exactly the rows and the state of `get_tap_data`, and `AttributeError` otherwise. A finished state has `meeting_timestamp` at or above the cutoff. |
| Tap.StreamError | tap_fireflies/__init__.py:69-73 | The error a failing stream raises is `AssertionError` for an unknown id and `meeting_info`'s own error for that stream. |
| Tap.SyncStream | tap_fireflies/__init__.py:69-79 | One stream computes exactly `StreamOutcome`. An unknown id raises `AssertionError`, and `meeting_info` raises its error. A `meeting_attendees` run yields the rows and the state of `get_tap_data` on its prior state, or `AttributeError` when that prior state is not a dictionary. A finished run leaves its prior state with `meeting_timestamp` at or above the cutoff. |
| Tap.WroteAt | tap_fireflies/__init__.py:58-80 | The state written after stream `i` is the previous state with `bookmarks` ensured and the final state stream `i` itself returned (its `StreamOutcome`) filed under its id. |
| Tap.WroteHas | tap_fireflies/__init__.py:79-80 | Each written state keeps the context's keys plus `bookmarks` and holds the entries of every stream processed so far. |
| Tap.WroteKeys | tap_fireflies/__init__.py:58-80 | The same facts, for all written states at once. |
| Tap.RowsOfAppend | tap_fireflies/__init__.py:73-78 | Appending the next stream's rows keeps "entry `i` of the rows is stream `i`'s rows". |
| Tap.ResumeFromWritten | tap_fireflies/__init__.py:70-80 | A later run resumed from a written state finds `{}` as written and the stored entry as corrected. |
| Tap.NextStream | tap_fireflies/__init__.py:59-80 | One stream yields exactly that stream's rows. A failing stream fails with its own error. A finished stream files its final state under `bookmarks` and extends the written states by one well-formed state. |
| Tap.SyncNext | tap_fireflies/__init__.py:58-80 | One pass of the loop keeps the rows per stream and the written states. It fails with the stream's own error when the stream failed, and otherwise its outcome is exactly storing the stream's final state into the bookmark-checked context. |
| Tap.Sync | tap_fireflies/__init__.py:55-80 | Streams are processed in selection order, with one state write after each stream's rows. Entry `i` of the rows is stream `i`'s rows. The run stops at the first failing stream with that stream's own error. It stops only when that stream raised or storing its final state raised. Every written state files the final state its stream returned, so a finished run means every stream returned one. A finished run leaves the last written state in the context. |

## Left out

- HTTP is left out: sessions, `requests`, `GraphQLHelper.execute` and `FirefliesClient.execute`. They are the oracles `send`, `execute` and `post`. `FirefliesClient.execute` also refers to attributes the client never sets.
- Timing and side effects are left out: backoff wait times, `utils.ratelimit`, `time.sleep`, metrics timers and logging. Only the retry classification, the try counts and the request counter reset are modelled.
- Date parsing and formatting are parameters. `strptime_to_utc` of a bookmark string is `parseDate`, which gives no value where Python raises `ValueError`. `strftime` of a date is `formatDate`. The record dates of the transcripts stream and the meeting timestamps are integer milliseconds, so `epoch_milliseconds_to_dt_str` and its reparse are the identity. The start-date arithmetic of `get_tap_data` (`datetime.now`, `strptime`, `round`) gives the parameter `start`.
- The SHA-256 of `generate_record_hash` is the parameter `sha`, and `str()` of a field is the parameter `show`.
- Singer calls are modelled only through their effect on the state: `transform`, `write_record`, `write_records`, `write_schema`, `write_state`, catalogs and metadata. Written records are the rows a run yields.
- `discover`, `load_schemas`, `main`, `setup.py` and the schema files are not modelled.
- Of `meeting_info.py`, only the effect of `get_tap_data` is modelled: it returns `None`, so iterating it raises.
- Config reads are parameters (`access_token`, `endpoint_url`, `start_date`, `request_timeout`).
- JSON floats are not modelled. A numeric timeout string is decoded by the parameter `parse`.
- The process-wide `Context.state` is an explicit parameter and result.
- Dictionary iteration order is the parameter `order`. The properties hold for every order.
- Streams.GetRecords, Streams.IncrementalSync, Sync.Sync: require that every id the server can return lies in a finite set. That is what termination of the backward walk rests on; the source loops forever against a server that invents new ids on full pages.
- Pagination.ExecutePaginationWithCutoff: requires `step_size` of at least 1. With 0, a page cut to nothing can repeat forever, and the only caller passes 50.
- Pagination.MergeSpec, Pagination.ExecutePagination: the merge facts assume distinct schema names. With a repeated name the source doubles that schema's data.
- Streams.GetRecords: a record date that is neither an integer nor absent (a string, float or boolean) raises `TypeError` at that record, before it is yielded. The source folds such a date into the low date without raising while the low date is falsy, and yields the record. It fails later: at `min` with `TypeError`, at `float(...)` after the page with `ValueError`, or not at all for numeric strings compared with strings. Modelling Python's mixed-type ordering and float parsing would be needed for this.
- Pagination.Step: a reply whose `data` is JSON `null` is treated like one without `data` and raises `ValueError`. The source subscripts `None` there and raises `TypeError`. Both are uncaught exceptions that end the sync. On the transcripts path, both are falsy and raise `FirefliesError`, as in the source.
- Streams.PageRecords: a records value that is not a list of dictionaries fails as `AttributeError`. The source fails at a later point with a `TypeError` or `AttributeError`.
- Streams.StreamOf: the users stream's replication key is Python `None`, modelled as the key `"null"`, the string `json.dumps` writes.
- MeetingAttendees.CutoffTime: a prior `meeting_timestamp` that is not an integer raises `TypeError`. `min` raises that for most such values, but not for booleans or floats.
- MeetingAttendees.MeetingTimestampOf: treats a boolean or float `meeting_timestamp` as a `TypeError`. Python compares those with `<` without raising.
- Tap.SyncStream, Tap.Sync: state a failing stream's exception through `Tap.StreamError` and `Tap.StreamOutcome`. They do not name each exception `get_tap_data` can raise; those are `MeetingAttendees.TapData`'s.
- The `Transformer` step of the tap's `sync` is not modelled: rows are taken as they are yielded.

## Findings

| source | as written | input that shows it | evidently intended | confidence | as-written member | corrected member |
|---|---|---|---|---|---|---|
| tap_fireflies/__init__.py:70 | A stream's prior state is read from top-level `state[stream_id]`, but line 79 files it under `state["bookmarks"][stream_id]`. | A run that wrote `{"bookmarks": {"meeting_attendees": {"meeting_timestamp": 7}}}`, resumed with start date 10: the stored state is never found, so the cutoff is 10 instead of 7. | Read the prior state from `state["bookmarks"][stream_id]`, where it was written. | high; not executed | Tap.StoredIsForgotten | Tap.StoredIsRead |
| tap_fireflies/streams/meeting_attendees.py:83 | `meeting_attendees_data['transcripts']` is read unconditionally. | The first page returns `{"data": {"transcripts": []}}`. Pagination stops before merging anything and returns `{}`, and line 83 raises `KeyError('transcripts')`. | Treat no transcripts as no meetings: yield nothing and store the cutoff. | high; not executed | MeetingAttendees.EmptyFirstPageAsWritten | MeetingAttendees.EmptyFirstPageCorrected |

=== FILE: api.dfy ===
/** A decoded GraphQL reply: the `data` object maps each queried field to its list of records. */
module Api {
  import opened Wrappers

  /** `data` is `None` when the reply has no `"data"` member. */
  datatype Response<R> = Response(data: Option<map<string, seq<R>>>)

  /** `not response.get("data")`: a missing `data` member or an empty object. */
  predicate DataIsFalsy<R>(resp: Response<R>) {
    resp.data.None? || resp.data.value == map[]
  }

  /** `response["data"].get(field, [])` for a reply whose `data` is present. */
  function RecordsOf<R>(resp: Response<R>, field: string): seq<R>
    requires resp.data.Some?
  {
    if field in resp.data.value then resp.data.value[field] else []
  }
}

=== FILE: client.dfy ===
/**
 * The REST/GraphQL client of the tap: the error-code table, `get_exception_for_error_code`,
 * `raise_for_error`, the retry policy of `FirefliesClient.request`, the request timeout and the
 * header and url selection of one request.
 *
 * The HTTP round trip is the oracle `send`: attempt `i` either fails in transport or delivers a
 * status code and the body, `None` when the body is not valid JSON.
 */
module Client {
  import opened Wrappers
  import opened Json
  import opened Exceptions

  /** `REQUEST_TIMEOUT`, in seconds. */
  const DefaultRequestTimeout: real := 300.0
  /** `FirefliesClient.base_url`. */
  const BaseUrl: string := "https://api.fireflies.ai/graphql"
  /** The status `raise_for_error` assumes when the reply does not name one. */
  const DefaultErrorStatus: int := 502
  /** `max_tries` of the inner and the outer backoff decorator. */
  const InnerMaxTries: nat := 4
  const OuterMaxTries: nat := 5

  /** `ERROR_CODE_EXCEPTION_MAPPING`: the exception class raised for each documented error code. */
  function ErrorCodeClass(code: string): Option<ClientError> {
    match code
    case "invalid_arguments" => Some(FirefliesInvalidArgumentError)
    case "object_not_found" => Some(FirefliesObjectNotFoundError)
    case "forbidden" => Some(FirefliesForbiddenError)
    case "paid_required" => Some(FirefliesPaidRequiredError)
    case "not_in_team" => Some(FirefliesNotInTeamError)
    case "require_elevated_privilege" => Some(FirefliesRequireElevatedPriviledgeError)
    case "account_cancelled" => Some(FirefliesAccountCancelledError)
    case "args_required" => Some(FirefliesArgumentRequiredError)
    case "too_many_requests" => Some(FirefliesRateLimitError)
    case "payload_too_small" => Some(FirefliesPayloadTooSmallError)
    case "request_timeout" => Some(FirefliesRequestTimeoutError)
    case "invalid_language_code" => Some(FirefliesInvalidLanguageCodeError)
    case "admin_must_exist" => Some(FirefliesAdminMustExistError)
    case _ => None
  }

  /** The classes the table can produce, with the one code that produces each. */
  function CodeOfClass(e: ClientError): Option<string> {
    match e
    case FirefliesInvalidArgumentError => Some("invalid_arguments")
    case FirefliesObjectNotFoundError => Some("object_not_found")
    case FirefliesForbiddenError => Some("forbidden")
    case FirefliesPaidRequiredError => Some("paid_required")
    case FirefliesNotInTeamError => Some("not_in_team")
    case FirefliesRequireElevatedPriviledgeError => Some("require_elevated_privilege")
    case FirefliesAccountCancelledError => Some("account_cancelled")
    case FirefliesArgumentRequiredError => Some("args_required")
    case FirefliesRateLimitError => Some("too_many_requests")
    case FirefliesPayloadTooSmallError => Some("payload_too_small")
    case FirefliesRequestTimeoutError => Some("request_timeout")
    case FirefliesInvalidLanguageCodeError => Some("invalid_language_code")
    case FirefliesAdminMustExistError => Some("admin_must_exist")
    case _ => None
  }

  /** The table is one-to-one: a code maps to a class exactly when that class maps back to it. */
  lemma ErrorCodeTableBijective(code: string, e: ClientError)
    ensures ErrorCodeClass(code) == Some(e) <==> CodeOfClass(e) == Some(code)
  {
  }

  /** The table never yields the generic, transport or 5xx classes. */
  lemma ErrorCodeTableRange(code: string)
    ensures ErrorCodeClass(code).Some? ==>
              var e := ErrorCodeClass(code).value;
              && e != Server5xxError && e != FirefliesError && e != FirefliesBadRequestError
              && e != FirefliesBadResponseError && e != ConnectionError && e != Timeout
              && e != ConnectTimeout
  {
  }

  /** Python's `status >= 500` on a decoded status value: booleans compare as 0 and 1, anything
      else but an integer raises `TypeError`. */
  function AtLeast500(status: Json): (r: Result<bool, Exception>)
    ensures r.Failure? <==> !(status.JInt? || status.JBool?)
    ensures status.JInt? ==> r == Success(status.i >= 500)
    ensures status.JBool? ==> r == Success(false)
  {
    match status
    case JInt(i) => Success(i >= 500)
    case JBool(b) => Success((if b then 1 else 0) >= 500)
    case _ => Failure(TypeError)
  }

  /**
   * `get_exception_for_error_code`: the class the table gives the code, otherwise `Server5xxError`
   * for a status of 500 or more and `FirefliesError` below.  A list or object used as the code is
   * unhashable (`TypeError`); a non-string code is simply absent from the table.
   */
  function GetExceptionForErrorCode(status: Json, code: Json): (r: Result<ClientError, Exception>)
    ensures code.JStr? && ErrorCodeClass(code.s).Some? ==> r == Success(ErrorCodeClass(code.s).value)
    ensures !(code.JArr? || code.JObj?) && !(code.JStr? && ErrorCodeClass(code.s).Some?) && status.JInt? ==>
              r == Success(if status.i >= 500 then Server5xxError else FirefliesError)
    ensures r.Failure? ==> r.error == TypeError
  {
    if code.JArr? || code.JObj? then Failure(TypeError)
    else if code.JStr? && ErrorCodeClass(code.s).Some? then Success(ErrorCodeClass(code.s).value)
    else
      var high :- AtLeast500(status);
      Success(if high then Server5xxError else FirefliesError)
  }

  /** A code in the table decides the class whatever the status. */
  lemma MappedCodeIgnoresStatus(code: string, status1: Json, status2: Json)
    requires ErrorCodeClass(code).Some?
    ensures GetExceptionForErrorCode(status1, JStr(code)) == GetExceptionForErrorCode(status2, JStr(code))
  {
  }

  /** Python's `len` on a decoded value; `None` where `len` raises `TypeError`. */
  function Len(j: Json): Option<nat> {
    match j
    case JStr(s) => Some(|s|)
    case JArr(items) => Some(|items|)
    case JObj(fields) => Some(|fields|)
    case _ => None
  }

  /** The one error `errors[0]` of an `errors` value of length one: indexing a dictionary with `0`
      raises `KeyError`. */
  function FirstError(errors: Json): Result<Json, Exception>
    requires Len(errors) == Some(1)
  {
    match errors
    case JArr(items) => Success(items[0])
    case JStr(s) => Success(JStr([s[0]]))
    case _ => Failure(KeyError("0"))
  }

  /** The class for a single error: its `code`, and the `status` under its `extensions` (502 when
      absent); `.get` on anything but a dictionary raises `AttributeError`. */
  function SingleErrorClass(error: Json): (r: Result<ClientError, Exception>)
    ensures r.Failure? ==> r.error == AttributeError || r.error == TypeError
  {
    if !error.JObj? then Failure(AttributeError)
    else
      var code := Get(error.fields, "code", JNull);
      var extensions := Get(error.fields, "extensions", JObj(map[]));
      if !extensions.JObj? then Failure(AttributeError)
      else GetExceptionForErrorCode(Get(extensions.fields, "status", JInt(DefaultErrorStatus)), code)
  }

  /** The class for the `errors` value of a decoded body. */
  function ErrorsClass(errors: Json): Result<ClientError, Exception> {
    if !Truthy(errors) then GetExceptionForErrorCode(JInt(DefaultErrorStatus), JStr(""))
    else match Len(errors)
      case None => Failure(TypeError)
      case Some(n) =>
        if n > 1 then GetExceptionForErrorCode(JInt(DefaultErrorStatus), JStr(""))
        else if n == 0 then Failure(TypeError)
        else match FirstError(errors)
          case Failure(e) => Failure(e)
          case Success(first) => SingleErrorClass(first)
  }

  /**
   * `raise_for_error`: always raises.  An undecodable body counts as `{}`.  Unless the body holds
   * exactly one error, the status is 502 and the code `""`; with one error, the code is its
   * `code` and the status its `extensions.status`, 502 when absent.
   */
  function RaiseForError(body: Option<Json>): (e: Exception)
    ensures body.None? ==> e == Client(Server5xxError)
    ensures body.Some? && body.value.JObj? && !Truthy(Get(body.value.fields, "errors", JArr([]))) ==> e == Client(Server5xxError)
    ensures (body.Some? && body.value.JObj? && Get(body.value.fields, "errors", JArr([])).JArr?
             && |Get(body.value.fields, "errors", JArr([])).items| > 1) ==> e == Client(Server5xxError)
    ensures body.Some? && !body.value.JObj? ==> e == AttributeError
    ensures e.Client? || e == TypeError || e == AttributeError || e == KeyError("0")
  {
    var json := if body.Some? then body.value else JObj(map[]);
    if !json.JObj? then AttributeError
    else match ErrorsClass(Get(json.fields, "errors", JArr([])))
      case Success(c) => Client(c)
      case Failure(err) => err
  }

  /** A single error in the usual shape is classified by its own code and status. */
  lemma RaiseForSingleError(code: string, status: int)
    ensures var error := JObj(map["code" := JStr(code), "extensions" := JObj(map["status" := JInt(status)])]);
            var e := RaiseForError(Some(JObj(map["errors" := JArr([error])])));
            e == Client(GetExceptionForErrorCode(JInt(status), JStr(code)).value)
  {
    var error := JObj(map["code" := JStr(code), "extensions" := JObj(map["status" := JInt(status)])]);
    assert Len(JArr([error])) == Some(1);
  }

  /** A single error without `extensions` is classified as if its status were 502. */
  lemma RaiseForSingleErrorDefaultStatus(code: string)
    requires ErrorCodeClass(code).None?
    ensures RaiseForError(Some(JObj(map["errors" := JArr([JObj(map["code" := JStr(code)])])]))) == Client(Server5xxError)
  {
    assert Len(JArr([JObj(map["code" := JStr(code)])])) == Some(1);
  }

  /**
   * The tail of `request`: a status other than 200 goes to `raise_for_error`; a 200 whose body is
   * not JSON raises `FirefliesBadResponseError`; otherwise the decoded body is returned.
   */
  function HandleResponse(status: int, body: Option<Json>): (r: Result<Json, Exception>)
    ensures r.Success? <==> status == 200 && body.Some?
    ensures r.Success? ==> r.value == body.value
    ensures status == 200 && body.None? ==> r == Failure(Client(FirefliesBadResponseError))
    ensures status != 200 ==> r == Failure(RaiseForError(body))
  {
    if status != 200 then Failure(RaiseForError(body))
    else if body.None? then Failure(Client(FirefliesBadResponseError))
    else Success(body.value)
  }

  /** The exceptions of the inner decorator: `Server5xxError`, `ConnectionError` (with its subclass
      `ConnectTimeout`), `FirefliesBadResponseError` and `FirefliesRateLimitError`. */
  predicate RetriedByInner(e: Exception) {
    e.Client? && (e.error.Server5xxError? || e.error.ConnectionError? || e.error.ConnectTimeout?
                  || e.error.FirefliesBadResponseError? || e.error.FirefliesRateLimitError?)
  }

  /** The exceptions of the outer decorator: the transport `Timeout` and its subclass
      `ConnectTimeout`. */
  predicate RetriedByOuter(e: Exception) {
    e == Client(Timeout) || e == Client(ConnectTimeout)
  }

  /** The result of one attempt: the transport failure, or the handled reply. */
  function Attempt(send: nat -> Result<(int, Option<Json>), Exception>, i: nat): Result<Json, Exception> {
    match send(i)
    case Failure(e) => Failure(e)
    case Success(reply) => HandleResponse(reply.0, reply.1)
  }

  /** An exception one of the decorators retries: the inner one's, and with `outerToo` also the
      outer one's. */
  predicate Retryable(e: Exception, outerToo: bool) {
    RetriedByInner(e) || (outerToo && RetriedByOuter(e))
  }

  /** Every attempt numbered from `lo` up to, not including, `hi` failed with a retried exception. */
  ghost predicate RetriedBetween<T>(attempt: nat -> Result<T, Exception>, lo: nat, hi: nat, outerToo: bool) {
    forall k: nat :: lo <= k < hi ==> attempt(k).Failure? && Retryable(attempt(k).error, outerToo)
  }

  /** The attempts of one request, numbered from 0. */
  function Attempts(send: nat -> Result<(int, Option<Json>), Exception>): (attempt: nat -> Result<Json, Exception>)
    ensures forall i :: attempt(i) == Attempt(send, i)
  {
    (i: nat) => Attempt(send, i)
  }

  /**
   * The two backoff decorators of `request` as one loop, from attempt `i`, made as try `inner` of
   * the inner decorator within try `outer` of the outer one.  The inner decorator repeats while the
   * attempt fails with an exception it retries, and re-raises once it has made `InnerMaxTries`
   * tries; a `Timeout` passes through it to the outer decorator, which calls it afresh (its count
   * back at 0) until it has made `OuterMaxTries` tries.  Yields the number of attempts made; the
   * result is that of the last one.
   */
  function Tries<T>(attempt: nat -> Result<T, Exception>, i: nat, inner: nat, outer: nat): (n: nat)
    requires inner < InnerMaxTries && outer < OuterMaxTries
    ensures n >= 1
    decreases OuterMaxTries - outer, InnerMaxTries - inner
  {
    match NextTry(attempt(i), inner, outer)
    case None => 1
    case Some(next) => 1 + Tries(attempt, i + 1, next.0, next.1)
  }

  /** The tries the decorators are at after an attempt with result `out`: the inner decorator's next
      try, or the outer decorator's next try with the inner count back at 0; `None` once the
      attempt is the last. */
  function NextTry<T>(out: Result<T, Exception>, inner: nat, outer: nat): (next: Option<(nat, nat)>)
    requires inner < InnerMaxTries && outer < OuterMaxTries
    ensures next.Some? ==> next.value == (inner + 1, outer) || next.value == (0, outer + 1)
    ensures next.Some? ==> next.value.0 < InnerMaxTries && next.value.1 < OuterMaxTries
  {
    if out.Failure? && RetriedByInner(out.error) && inner + 1 < InnerMaxTries then Some((inner + 1, outer))
    else if out.Failure? && RetriedByOuter(out.error) && outer + 1 < OuterMaxTries then Some((0, outer + 1))
    else None
  }

  /** At most `InnerMaxTries` attempts for each outer try left, less the inner tries already made. */
  lemma {:induction false} TriesBound<T>(attempt: nat -> Result<T, Exception>, i: nat, inner: nat, outer: nat)
    requires inner < InnerMaxTries && outer < OuterMaxTries
    ensures Tries(attempt, i, inner, outer) + inner <= InnerMaxTries * (OuterMaxTries - outer)
    decreases OuterMaxTries - outer, InnerMaxTries - inner
  {
    var out := attempt(i);
    if out.Failure? && RetriedByInner(out.error) && inner + 1 < InnerMaxTries {
      TriesBound(attempt, i + 1, inner + 1, outer);
    } else if out.Failure? && RetriedByOuter(out.error) && outer + 1 < OuterMaxTries {
      TriesBound(attempt, i + 1, 0, outer + 1);
      assert InnerMaxTries * (OuterMaxTries - outer) == InnerMaxTries * (OuterMaxTries - (outer + 1)) + InnerMaxTries;
    }
  }

  /** Every attempt but the last failed with an exception one of the decorators retries. */
  lemma {:induction false} TriesRetried<T>(attempt: nat -> Result<T, Exception>, i: nat, inner: nat, outer: nat)
    requires inner < InnerMaxTries && outer < OuterMaxTries
    ensures RetriedBetween(attempt, i, i + Tries(attempt, i, inner, outer) - 1, true)
    decreases OuterMaxTries - outer, InnerMaxTries - inner
  {
    var out := attempt(i);
    if out.Failure? && RetriedByInner(out.error) && inner + 1 < InnerMaxTries {
      TriesRetried(attempt, i + 1, inner + 1, outer);
    } else if out.Failure? && RetriedByOuter(out.error) && outer + 1 < OuterMaxTries {
      TriesRetried(attempt, i + 1, 0, outer + 1);
    }
  }

  /** Every attempt numbered from `lo` up to, not including, `hi` failed with an exception the inner
      decorator retries; no such attempt ends a try of the outer decorator. */
  ghost predicate InnerRetriedBetween<T>(attempt: nat -> Result<T, Exception>, lo: int, hi: int) {
    forall k: nat :: lo <= k < hi ==> attempt(k).Failure? && RetriedByInner(attempt(k).error)
  }

  function Min(a: int, b: int): int {
    if a <= b then a else b
  }

  /**
   * A last attempt that fails with an exception the inner decorator retries comes only after the
   * inner decorator has used up its tries: the last `InnerMaxTries` attempts (fewer, when they are
   * all the attempts made from try `inner` on) each failed with such an exception, so they belong
   * to one try of the outer decorator.
   */
  lemma TriesGiveUpOnlyWhenExhausted<T>(attempt: nat -> Result<T, Exception>, i: nat, inner: nat, outer: nat)
    requires inner < InnerMaxTries && outer < OuterMaxTries
    ensures var n := Tries(attempt, i, inner, outer);
            attempt(i + n - 1).Failure? && RetriedByInner(attempt(i + n - 1).error) ==>
              n + inner >= InnerMaxTries && InnerRetriedBetween(attempt, i + n - Min(n, InnerMaxTries), i + n)
  {
    GivesUp(attempt, i, inner, outer);
  }

  /** `GivesUpExhausted` by induction on the attempts. */
  lemma {:induction false} GivesUp<T>(attempt: nat -> Result<T, Exception>, i: nat, inner: nat, outer: nat)
    requires inner < InnerMaxTries && outer < OuterMaxTries
    ensures GivesUpExhausted(attempt, i, inner, outer)
    decreases OuterMaxTries - outer, InnerMaxTries - inner
  {
    var out := attempt(i);
    if out.Failure? && RetriedByInner(out.error) && inner + 1 < InnerMaxTries {
      GivesUp(attempt, i + 1, inner + 1, outer);
      GiveUpInnerStep(attempt, i, inner, outer);
    } else if out.Failure? && RetriedByOuter(out.error) && outer + 1 < OuterMaxTries {
      GivesUp(attempt, i + 1, 0, outer + 1);
      GiveUpOuterStep(attempt, i, inner, outer);
    } else {
      GiveUpLast(attempt, i, inner, outer);
    }
  }

  /** An attempt neither decorator retries any more is the last one; if the inner decorator
      would retry its exception, that decorator has used up its tries. */
  lemma GiveUpLast<T>(attempt: nat -> Result<T, Exception>, i: nat, inner: nat, outer: nat)
    requires inner < InnerMaxTries && outer < OuterMaxTries
    requires !(attempt(i).Failure? && RetriedByInner(attempt(i).error) && inner + 1 < InnerMaxTries)
    requires !(attempt(i).Failure? && RetriedByOuter(attempt(i).error) && outer + 1 < OuterMaxTries)
    ensures GivesUpExhausted(attempt, i, inner, outer)
  {
    assert Tries(attempt, i, inner, outer) == 1;
  }

  /** `TriesGiveUpOnlyWhenExhausted`'s promise for the attempts from `i` on. */
  ghost predicate GivesUpExhausted<T>(attempt: nat -> Result<T, Exception>, i: nat, inner: nat, outer: nat)
    requires inner < InnerMaxTries && outer < OuterMaxTries
  {
    var n := Tries(attempt, i, inner, outer);
    attempt(i + n - 1).Failure? && RetriedByInner(attempt(i + n - 1).error) ==>
      n + inner >= InnerMaxTries && InnerRetriedBetween(attempt, i + n - Min(n, InnerMaxTries), i + n)
  }

  /** An attempt the inner decorator retries extends the run of such attempts that follows it. */
  lemma GiveUpInnerStep<T>(attempt: nat -> Result<T, Exception>, i: nat, inner: nat, outer: nat)
    requires inner + 1 < InnerMaxTries && outer < OuterMaxTries
    requires attempt(i).Failure? && RetriedByInner(attempt(i).error)
    requires GivesUpExhausted(attempt, i + 1, inner + 1, outer)
    ensures GivesUpExhausted(attempt, i, inner, outer)
  {
    var m := Tries(attempt, i + 1, inner + 1, outer);
    assert Tries(attempt, i, inner, outer) == 1 + m;
  }

  /** An attempt the outer decorator retries starts the inner count afresh. */
  lemma GiveUpOuterStep<T>(attempt: nat -> Result<T, Exception>, i: nat, inner: nat, outer: nat)
    requires inner < InnerMaxTries && outer + 1 < OuterMaxTries
    requires !(attempt(i).Failure? && RetriedByInner(attempt(i).error) && inner + 1 < InnerMaxTries)
    requires attempt(i).Failure? && RetriedByOuter(attempt(i).error)
    requires GivesUpExhausted(attempt, i + 1, 0, outer + 1)
    ensures GivesUpExhausted(attempt, i, inner, outer)
  {
    var m := Tries(attempt, i + 1, 0, outer + 1);
    assert Tries(attempt, i, inner, outer) == 1 + m;
  }

  /** An attempt that failed with a plain transport `Timeout`. */
  predicate TimedOut<T>(out: Result<T, Exception>) {
    out.Failure? && out.error.Client? && out.error.error.Timeout?
  }

  /** The number of attempts numbered from `lo` up to, not including, `hi` that failed with a plain
      transport `Timeout`. */
  function TimeoutsBetween<T>(attempt: nat -> Result<T, Exception>, lo: nat, hi: nat): nat
    decreases hi - lo
  {
    if hi <= lo then 0
    else (if TimedOut(attempt(lo)) then 1 else 0) + TimeoutsBetween(attempt, lo + 1, hi)
  }

  /** A plain `Timeout` passes through the inner decorator and ends a try of the outer one, so no
      more attempts time out than the outer decorator has tries left. */
  lemma {:induction false} TriesTimeoutsBound<T>(attempt: nat -> Result<T, Exception>, i: nat, inner: nat, outer: nat)
    requires inner < InnerMaxTries && outer < OuterMaxTries
    ensures TimeoutsBetween(attempt, i, i + Tries(attempt, i, inner, outer)) <= OuterMaxTries - outer
    decreases OuterMaxTries - outer, InnerMaxTries - inner
  {
    var out := attempt(i);
    if out.Failure? && RetriedByInner(out.error) && inner + 1 < InnerMaxTries {
      TriesTimeoutsBound(attempt, i + 1, inner + 1, outer);
      TimeoutsInnerStep(attempt, i, inner, outer);
    } else if out.Failure? && RetriedByOuter(out.error) && outer + 1 < OuterMaxTries {
      TriesTimeoutsBound(attempt, i + 1, 0, outer + 1);
      TimeoutsOuterStep(attempt, i, inner, outer);
    } else {
      TimeoutsLast(attempt, i, inner, outer);
    }
  }

  /** An attempt neither decorator retries any more is the last one, at most one `Timeout`. */
  lemma TimeoutsLast<T>(attempt: nat -> Result<T, Exception>, i: nat, inner: nat, outer: nat)
    requires inner < InnerMaxTries && outer < OuterMaxTries
    requires !(attempt(i).Failure? && RetriedByInner(attempt(i).error) && inner + 1 < InnerMaxTries)
    requires !(attempt(i).Failure? && RetriedByOuter(attempt(i).error) && outer + 1 < OuterMaxTries)
    ensures TimeoutsBetween(attempt, i, i + Tries(attempt, i, inner, outer)) <= OuterMaxTries - outer
  {
    TimeoutsBetweenFirst(attempt, i, i + 1);
  }

  /** An attempt the inner decorator retries is no plain `Timeout`: the rest's bound carries over. */
  lemma TimeoutsInnerStep<T>(attempt: nat -> Result<T, Exception>, i: nat, inner: nat, outer: nat)
    requires inner + 1 < InnerMaxTries && outer < OuterMaxTries
    requires attempt(i).Failure? && RetriedByInner(attempt(i).error)
    requires TimeoutsBetween(attempt, i + 1, i + 1 + Tries(attempt, i + 1, inner + 1, outer)) <= OuterMaxTries - outer
    ensures TimeoutsBetween(attempt, i, i + Tries(attempt, i, inner, outer)) <= OuterMaxTries - outer
  {
    TimeoutsBetweenFirst(attempt, i, i + Tries(attempt, i, inner, outer));
  }

  /** An attempt the outer decorator retries adds at most one `Timeout` to the rest's count, and
      uses up one of the outer decorator's tries. */
  lemma TimeoutsOuterStep<T>(attempt: nat -> Result<T, Exception>, i: nat, inner: nat, outer: nat)
    requires inner < InnerMaxTries && outer + 1 < OuterMaxTries
    requires !(attempt(i).Failure? && RetriedByInner(attempt(i).error) && inner + 1 < InnerMaxTries)
    requires attempt(i).Failure? && RetriedByOuter(attempt(i).error)
    requires TimeoutsBetween(attempt, i + 1, i + 1 + Tries(attempt, i + 1, 0, outer + 1)) <= OuterMaxTries - (outer + 1)
    ensures TimeoutsBetween(attempt, i, i + Tries(attempt, i, inner, outer)) <= OuterMaxTries - outer
  {
    TimeoutsBetweenFirst(attempt, i, i + Tries(attempt, i, inner, outer));
  }

  /** The first attempt's share of a count. */
  lemma TimeoutsBetweenFirst<T>(attempt: nat -> Result<T, Exception>, lo: nat, hi: nat)
    requires lo < hi
    ensures TimeoutsBetween(attempt, lo, hi)
            == (if TimedOut(attempt(lo)) then 1 else 0) + TimeoutsBetween(attempt, lo + 1, hi)
  {
  }

  /** Attempts that all fail with `ConnectTimeout` use up the inner decorator's tries within every
      try of the outer one. */
  lemma {:induction false} ConnectTimeoutsExhaustBoth<T>(attempt: nat -> Result<T, Exception>, i: nat, inner: nat, outer: nat)
    requires inner < InnerMaxTries && outer < OuterMaxTries
    requires forall k :: attempt(k) == Failure(Client(ConnectTimeout))
    ensures Tries(attempt, i, inner, outer) + inner == InnerMaxTries * (OuterMaxTries - outer)
    decreases OuterMaxTries - outer, InnerMaxTries - inner
  {
    assert attempt(i) == Failure(Client(ConnectTimeout));
    if inner + 1 < InnerMaxTries {
      ConnectTimeoutsExhaustBoth(attempt, i + 1, inner + 1, outer);
      assert Tries(attempt, i, inner, outer) == 1 + Tries(attempt, i + 1, inner + 1, outer);
    } else if outer + 1 < OuterMaxTries {
      ConnectTimeoutsExhaustBoth(attempt, i + 1, 0, outer + 1);
      assert Tries(attempt, i, inner, outer) == 1 + Tries(attempt, i + 1, 0, outer + 1);
      assert InnerMaxTries * (OuterMaxTries - outer) == InnerMaxTries * (OuterMaxTries - (outer + 1)) + InnerMaxTries;
    } else {
      assert Tries(attempt, i, inner, outer) == 1;
    }
  }

  /** `FirefliesClient.request` under both decorators: the result of its last attempt and the
      number of attempts made. */
  function Request(send: nat -> Result<(int, Option<Json>), Exception>): (r: (Result<Json, Exception>, nat))
    ensures 1 <= r.1 <= OuterMaxTries * InnerMaxTries
    ensures r.0 == Attempt(send, r.1 - 1)
  {
    var attempt := Attempts(send);
    var n := Tries(attempt, 0, 0, 0);
    TriesBound(attempt, 0, 0, 0);
    assert InnerMaxTries * (OuterMaxTries - 0) == OuterMaxTries * InnerMaxTries == 20;
    (Attempt(send, n - 1), n)
  }

  /** Every attempt before the last failed with an exception one of the decorators retries. */
  lemma RequestRetriesOnlyRetryable(send: nat -> Result<(int, Option<Json>), Exception>, k: nat)
    requires k < Request(send).1 - 1
    ensures Attempt(send, k).Failure?
    ensures RetriedByInner(Attempt(send, k).error) || RetriedByOuter(Attempt(send, k).error)
  {
    var attempt := Attempts(send);
    TriesRetried(attempt, 0, 0, 0);
    assert attempt(k).Failure? && Retryable(attempt(k).error, true);
  }

  /** A request that ends on an exception the inner decorator retries made at least
      `InnerMaxTries` attempts, and its last `InnerMaxTries` attempts all failed that way. */
  lemma RequestGivesUpOnlyWhenExhausted(send: nat -> Result<(int, Option<Json>), Exception>)
    requires Request(send).0.Failure? && RetriedByInner(Request(send).0.error)
    ensures Request(send).1 >= InnerMaxTries
    ensures forall k: nat :: Request(send).1 - InnerMaxTries <= k < Request(send).1 ==>
              Attempt(send, k).Failure? && RetriedByInner(Attempt(send, k).error)
  {
    var attempt := Attempts(send);
    TriesGiveUpOnlyWhenExhausted(attempt, 0, 0, 0);
    assert attempt(Request(send).1 - 1) == Request(send).0;
  }

  /** However the attempts fail, at most `OuterMaxTries` of a request's attempts time out. */
  lemma RequestTimeoutsBound(send: nat -> Result<(int, Option<Json>), Exception>)
    ensures TimeoutsBetween(Attempts(send), 0, Request(send).1) <= OuterMaxTries
  {
    TriesTimeoutsBound(Attempts(send), 0, 0, 0);
  }

  /** A first attempt that succeeds, or fails with an exception neither decorator retries, is the
      only one. */
  lemma RequestStopsOnFinalAnswer(send: nat -> Result<(int, Option<Json>), Exception>)
    requires Attempt(send, 0).Success? || !(RetriedByInner(Attempt(send, 0).error) || RetriedByOuter(Attempt(send, 0).error))
    ensures Request(send) == (Attempt(send, 0), 1)
  {
  }

  /** Attempts that all fail with the rate limit use up the inner decorator's tries, and the outer
      one does not retry the re-raised error. */
  lemma {:induction false} RateLimitsExhaustInner<T>(attempt: nat -> Result<T, Exception>, i: nat, inner: nat, outer: nat)
    requires inner < InnerMaxTries && outer < OuterMaxTries
    requires forall k :: attempt(k) == Failure(Client(FirefliesRateLimitError))
    ensures Tries(attempt, i, inner, outer) == InnerMaxTries - inner
    decreases InnerMaxTries - inner
  {
    assert attempt(i) == Failure(Client(FirefliesRateLimitError));
    if inner + 1 < InnerMaxTries {
      RateLimitsExhaustInner(attempt, i + 1, inner + 1, outer);
    }
  }

  /** A rate limit that never lifts is given up after four attempts. */
  lemma PersistentRateLimit(send: nat -> Result<(int, Option<Json>), Exception>)
    requires forall i :: Attempt(send, i) == Failure(Client(FirefliesRateLimitError))
    ensures Request(send) == (Failure(Client(FirefliesRateLimitError)), InnerMaxTries)
  {
    var attempt := Attempts(send);
    RateLimitsExhaustInner(attempt, 0, 0, 0);
  }

  /** Attempts that all time out use up every try of the outer decorator, one attempt each. */
  lemma {:induction false} TimeoutsExhaustOuter<T>(attempt: nat -> Result<T, Exception>, i: nat, outer: nat)
    requires outer < OuterMaxTries
    requires forall k :: attempt(k) == Failure(Client(Timeout))
    ensures Tries(attempt, i, 0, outer) == OuterMaxTries - outer
    decreases OuterMaxTries - outer
  {
    assert attempt(i) == Failure(Client(Timeout));
    if outer + 1 < OuterMaxTries {
      TimeoutsExhaustOuter(attempt, i + 1, outer + 1);
    }
  }

  /** A transport timeout on every attempt is given up after five attempts. */
  lemma PersistentTimeout(send: nat -> Result<(int, Option<Json>), Exception>)
    requires forall i :: send(i) == Failure(Client(Timeout))
    ensures Request(send) == (Failure(Client(Timeout)), OuterMaxTries)
  {
    var attempt := Attempts(send);
    forall k ensures attempt(k) == Failure(Client(Timeout)) {
      assert send(k) == Failure(Client(Timeout));
    }
    TimeoutsExhaustOuter(attempt, 0, 0);
    assert Attempt(send, OuterMaxTries - 1) == Failure(Client(Timeout));
  }

  /** A connect timeout on every attempt is retried by both decorators: twenty attempts. */
  lemma PersistentConnectTimeout(send: nat -> Result<(int, Option<Json>), Exception>)
    requires forall i :: send(i) == Failure(Client(ConnectTimeout))
    ensures Request(send) == (Failure(Client(ConnectTimeout)), InnerMaxTries * OuterMaxTries)
  {
    var attempt := Attempts(send);
    forall k ensures attempt(k) == Failure(Client(ConnectTimeout)) {
      assert send(k) == Failure(Client(ConnectTimeout));
    }
    ConnectTimeoutsExhaustBoth(attempt, 0, 0, 0);
    assert Attempt(send, InnerMaxTries * OuterMaxTries - 1) == Failure(Client(ConnectTimeout));
  }

  /** The `request_timeout` error code raises a `FirefliesError` subclass that is never retried. */
  lemma RequestTimeoutCodeNotRetried(send: nat -> Result<(int, Option<Json>), Exception>, status: int)
    requires send(0) == Success((status, Some(JObj(map["errors" := JArr([JObj(map["code" := JStr("request_timeout")])])]))))
    requires status != 200
    ensures Request(send) == (Failure(Client(FirefliesRequestTimeoutError)), 1)
  {
    var error := JObj(map["code" := JStr("request_timeout")]);
    assert RaiseForError(Some(JObj(map["errors" := JArr([error])]))) == Client(FirefliesRequestTimeoutError) by {
      assert Len(JArr([error])) == Some(1);
      assert Get(error.fields, "code", JNull) == JStr("request_timeout");
    }
    assert Attempt(send, 0) == Failure(Client(FirefliesRequestTimeoutError));
    RequestStopsOnFinalAnswer(send);
  }

  /**
   * The timeout of `FirefliesClient.__init__`: the configured value converted with `float` when it
   * is truthy and converts to something non-zero, 300 otherwise.  `parse` is `float` on a string.
   */
  function RequestTimeout(config: Json, parse: string -> Option<real>): (r: Result<real, Exception>)
    ensures r.Success? ==> r.value != 0.0
    ensures !Truthy(config) ==> r == Success(DefaultRequestTimeout)
    ensures config.JInt? && config.i != 0 ==> r == Success(config.i as real)
    ensures config.JStr? && config.s != "" && parse(config.s).Some? && parse(config.s).value != 0.0 ==>
              r == Success(parse(config.s).value)
    ensures r.Failure? <==> Truthy(config) && (config.JArr? || config.JObj? || (config.JStr? && parse(config.s).None?))
  {
    if !Truthy(config) then Success(DefaultRequestTimeout)
    else
      match config
      case JInt(i) => Success(i as real)
      case JBool(_) => Success(1.0)
      case JStr(s) =>
        (match parse(s)
         case None => Failure(ValueError)
         case Some(x) => Success(if x != 0.0 then x else DefaultRequestTimeout))
      case _ => Failure(TypeError)
  }

  /** What `request` passes to the session: the url and the headers. */
  datatype Prepared = Prepared(url: Option<string>, headers: map<string, string>)

  /**
   * The start of `request`: the base url when neither a url nor a path is given (the path is not
   * used otherwise), the caller's headers with `Authorization` set and, for `POST`, `Content-Type`.
   */
  function PrepareRequest(httpMethod: string, path: Option<string>, url: Option<string>,
                          headers: Option<map<string, string>>, token: string): (p: Prepared)
    ensures "Authorization" in p.headers && p.headers["Authorization"] == "Bearer " + token
    ensures httpMethod == "POST" ==> "Content-Type" in p.headers && p.headers["Content-Type"] == "application/json"
    ensures p.headers.Keys == headers.GetOr(map[]).Keys + {"Authorization"} + (if httpMethod == "POST" then {"Content-Type"} else {})
    ensures forall k :: k in headers.GetOr(map[]) && k != "Authorization" && (k != "Content-Type" || httpMethod != "POST") ==>
              p.headers[k] == headers.GetOr(map[])[k]
    ensures p.url == (if (url.None? || url.value == "") && (path.None? || path.value == "") then Some(BaseUrl) else url)
  {
    var url' := if (url.None? || url.value == "") && (path.None? || path.value == "") then Some(BaseUrl) else url;
    var withAuth := headers.GetOr(map[])["Authorization" := "Bearer " + token];
    Prepared(url', if httpMethod == "POST" then withAuth["Content-Type" := "application/json"] else withAuth)
  }
}

=== FILE: exceptions.dfy ===
/** The exceptions the tap raises: the client's own classes and the Python built-ins reached by the core. */
module Exceptions {

  /** Exception classes of the Fireflies client, plus the transport exceptions of `requests`:
      `ConnectTimeout` derives from both `ConnectionError` and `Timeout`. */
  datatype ClientError =
    | Server5xxError
    | FirefliesError
    | FirefliesBadRequestError
    | FirefliesBadResponseError
    | FirefliesInvalidArgumentError
    | FirefliesObjectNotFoundError
    | FirefliesForbiddenError
    | FirefliesPaidRequiredError
    | FirefliesNotInTeamError
    | FirefliesRequireElevatedPriviledgeError
    | FirefliesAccountCancelledError
    | FirefliesArgumentRequiredError
    | FirefliesRateLimitError
    | FirefliesRequestTimeoutError
    | FirefliesInvalidLanguageCodeError
    | FirefliesPayloadTooSmallError
    | FirefliesAdminMustExistError
    | ConnectionError
    | Timeout
    | ConnectTimeout

  /** Subclasses of `FirefliesError`; the rate-limit error derives from `Server429Error` instead. */
  predicate IsFirefliesError(e: ClientError) {
    !(e.Server5xxError? || e.FirefliesRateLimitError? || e.ConnectionError? || e.Timeout? || e.ConnectTimeout?)
  }

  /** Anything that can escape an operation of the core. */
  datatype Exception =
    | Client(error: ClientError)
    | ValueError
    | KeyError(key: string)
    | IndexError
    | TypeError
    | AttributeError
    | AssertionError
}

=== FILE: json.dfy ===
/** Decoded JSON values, as the tap sees them after `response.json()` or when loading state. */
module Json {

  datatype Json =
    | JNull
    | JBool(b: bool)
    | JInt(i: int)
    | JStr(s: string)
    | JArr(items: seq<Json>)
    | JObj(fields: map<string, Json>)

  /** A JSON object, the shape of Singer state and of one record. */
  type Object = map<string, Json>

  /** Python truthiness of a decoded value: `None`, `False`, `0`, `""`, `[]` and `{}` are falsy. */
  predicate Truthy(j: Json) {
    match j
    case JNull => false
    case JBool(b) => b
    case JInt(i) => i != 0
    case JStr(s) => s != ""
    case JArr(items) => items != []
    case JObj(fields) => fields != map[]
  }

  /** `obj.get(key, default)` on an object. */
  function Get(obj: Object, key: string, default: Json): Json {
    if key in obj then obj[key] else default
  }
}

=== FILE: meeting_attendees.dfy ===
/**
 * The meeting-attendees stream: `MeetingAttendees.get_tap_data` and `data_processing`.
 *
 * The stream pages through every transcript with `execute_pagination_with_cutoff`, cut at the
 * earlier of the stored `meeting_timestamp` and the start date, keeps the customer meetings (titles
 * holding `| Vibe` or `<>`), flattens each into one row per attendee and stores the largest meeting
 * timestamp it saw.  Timestamps are integers of milliseconds; the start date is a parameter.
 */
module MeetingAttendees {
  import opened Wrappers
  import opened Json
  import opened Exceptions
  import opened Api
  import opened Pagination

  /** `SCHEMA_NAMES`. */
  const SchemaNames: seq<string> := ["transcripts"]
  /** `CUTOFF_SCHEMA_NAME`. */
  const CutoffSchemaName: string := "transcripts"
  /** `CUTOFF_FIELD_NAME`, also the stream's `replication_key`. */
  const CutoffFieldName: string := "meeting_timestamp"

  /** The two readings of the stream where the code and its evident intent part: as the code is
      written, or as corrected. */
  datatype Variant = AsWritten | Corrected

  /** `data[cutoff_field]` of one transcript, read for `data[cutoff_field] < cutoff_value`: `KeyError`
      when it is absent, and `TypeError` when it is present but not an integer (`None`, a string, a
      list or a dictionary does not compare with an integer). */
  function MeetingTimestampOf(r: Object): (t: Result<int, Exception>)
    ensures CutoffFieldName !in r ==> t == Failure(KeyError(CutoffFieldName))
    ensures CutoffFieldName in r ==> t == (if r[CutoffFieldName].JInt? then Success(r[CutoffFieldName].i) else Failure(TypeError))
  {
    if CutoffFieldName !in r then Failure(KeyError(CutoffFieldName))
    else if r[CutoffFieldName].JInt? then Success(r[CutoffFieldName].i)
    else Failure(TypeError)
  }

  /** `min(state.get('meeting_timestamp', start), start)`: comparing anything but an integer with the
      start date raises `TypeError`. */
  function CutoffTime(state: Object, start: int): (r: Result<int, Exception>)
    ensures r.Failure? <==> CutoffFieldName in state && !state[CutoffFieldName].JInt?
    ensures r.Failure? ==> r.error == TypeError
    ensures r.Success? ==> r.value <= start
    ensures r.Success? && CutoffFieldName in state ==> r.value <= state[CutoffFieldName].i
    ensures r.Success? ==> r.value == start || (CutoffFieldName in state && r.value == state[CutoffFieldName].i)
  {
    var prior := Get(state, CutoffFieldName, JInt(start));
    if !prior.JInt? then Failure(TypeError)
    else Success(if start < prior.i then start else prior.i)
  }

  /** `sub in s` for strings, as a scan of the suffixes. */
  function Contains(s: string, sub: string): bool
    decreases |s|
  {
    sub <= s || (s != [] && Contains(s[1..], sub))
  }

  /** `Contains` holds exactly when `sub` starts at some position of `s`. */
  lemma {:induction false} ContainsSpec(s: string, sub: string)
    ensures Contains(s, sub) <==> exists i :: 0 <= i <= |s| && sub <= s[i..]
    decreases |s|
  {
    assert s[0..] == s;
    if s != [] {
      ContainsSpec(s[1..], sub);
      if exists i :: 0 <= i <= |s| && sub <= s[i..] {
        var i :| 0 <= i <= |s| && sub <= s[i..];
        if i > 0 {
          assert s[1..][i - 1..] == s[i..];
        }
      }
      if exists i :: 0 <= i <= |s[1..]| && sub <= s[1..][i..] {
        var i :| 0 <= i <= |s[1..]| && sub <= s[1..][i..];
        assert s[i + 1..] == s[1..][i..];
      }
    } else {
      assert forall i :: 0 <= i <= |s| ==> s[i..] == [];
    }
  }

  /** Python's `x in container` for a string `x`: a substring of a string, an item of a list, a key
      of a dictionary; `None`, a boolean or a number is not a container and raises `TypeError`. */
  function In(x: string, container: Json): (r: Result<bool, Exception>)
    ensures r.Failure? <==> !(container.JStr? || container.JArr? || container.JObj?)
    ensures r.Failure? ==> r.error == TypeError
    ensures container.JArr? ==> r == Success(exists k :: 0 <= k < |container.items| && container.items[k] == JStr(x))
  {
    match container
    case JStr(s) => Success(Contains(s, x))
    case JArr(items) => Success(JStr(x) in items)
    case JObj(fields) => Success(x in fields)
    case _ => Failure(TypeError)
  }

  /** A customer meeting: `"| Vibe" in title or "<>" in title`.  A missing title raises `KeyError`;
      a title that is not a container raises `TypeError`. */
  function Included(rec: Object): (r: Result<bool, Exception>)
    ensures "title" !in rec ==> r == Failure(KeyError("title"))
    ensures "title" in rec && !(rec["title"].JStr? || rec["title"].JArr? || rec["title"].JObj?) ==> r == Failure(TypeError)
    ensures "title" in rec && rec["title"].JStr? ==>
              r == Success(Contains(rec["title"].s, "| Vibe") || Contains(rec["title"].s, "<>"))
    ensures "title" in rec && rec["title"].JObj? ==>
              r == Success("| Vibe" in rec["title"].fields || "<>" in rec["title"].fields)
  {
    if "title" !in rec then Failure(KeyError("title"))
    else
      var vibe :- In("| Vibe", rec["title"]);
      if vibe then Success(true) else In("<>", rec["title"])
  }

  /** `if rep_key and rep_key > max_rep_key: max_rep_key = rep_key`; a truthy value that is not an
      integer raises `TypeError` in the comparison. */
  function RaiseMax(rec: Object, max: int): (r: Result<int, Exception>)
    ensures r.Failure? <==> Truthy(Get(rec, CutoffFieldName, JNull)) && !Get(rec, CutoffFieldName, JNull).JInt?
    ensures r.Success? ==> r.value >= max
    ensures r.Success? ==> r.value == max || (Get(rec, CutoffFieldName, JNull).JInt? && r.value == Get(rec, CutoffFieldName, JNull).i)
    ensures r.Success? && Truthy(Get(rec, CutoffFieldName, JNull)) ==> r.value >= Get(rec, CutoffFieldName, JNull).i
  {
    var rep := Get(rec, CutoffFieldName, JNull);
    if !Truthy(rep) then Success(max)
    else if !rep.JInt? then Failure(TypeError)
    else Success(if rep.i > max then rep.i else max)
  }

  /** The keys of one attendee row. */
  const RowKeys: set<string> := {"id", "meeting_timestamp", "email", "phone_number", "location", "name"}

  /** The attendee fields read, in the order they are read. */
  const AttendeeFields: seq<string> := ["email", "phoneNumber", "location", "name"]

  /** One attendee row: `attendee[...]` of the four fields in order (`KeyError` for the first one
      missing, `TypeError` when the attendee is not a dictionary), under the meeting's id and
      timestamp. */
  function AttendeeRow(meetingId: Json, timestamp: Json, a: Json): (r: Result<Object, Exception>)
    ensures !a.JObj? ==> r == Failure(TypeError)
    ensures a.JObj? && (exists k :: 0 <= k < |AttendeeFields| && AttendeeFields[k] !in a.fields) ==>
              r.Failure? && r.error.KeyError? && r.error.key in AttendeeFields && r.error.key !in a.fields
    ensures r.Success? ==>
              && a.JObj? && r.value.Keys == RowKeys
              && (forall k :: k in AttendeeFields ==> k in a.fields)
              && r.value["id"] == meetingId && r.value["meeting_timestamp"] == timestamp
              && r.value["email"] == a.fields["email"] && r.value["phone_number"] == a.fields["phoneNumber"]
              && r.value["location"] == a.fields["location"] && r.value["name"] == a.fields["name"]
  {
    if !a.JObj? then Failure(TypeError)
    else if "email" !in a.fields then Failure(KeyError("email"))
    else if "phoneNumber" !in a.fields then Failure(KeyError("phoneNumber"))
    else if "location" !in a.fields then Failure(KeyError("location"))
    else if "name" !in a.fields then Failure(KeyError("name"))
    else
      Success(map["id" := meetingId, "meeting_timestamp" := timestamp, "email" := a.fields["email"],
                  "phone_number" := a.fields["phoneNumber"], "location" := a.fields["location"],
                  "name" := a.fields["name"]])
  }

  /** `for attendee in meeting_attendees`: a list iterates its items; an empty dictionary or string
      iterates nothing; a non-empty one yields strings that the row's `attendee['email']` rejects,
      and anything else is not iterable, so all of those raise `TypeError`. */
  function AttendeeList(v: Json): (r: Result<seq<Json>, Exception>)
    ensures v.JArr? ==> r == Success(v.items)
    ensures !v.JArr? && r.Success? ==> r.value == [] && !Truthy(v)
  {
    match v
    case JArr(items) => Success(items)
    case JObj(fields) => if fields == map[] then Success([]) else Failure(TypeError)
    case JStr(s) => if s == "" then Success([]) else Failure(TypeError)
    case _ => Failure(TypeError)
  }

  /** The rows of a list of attendees, in order; the first attendee that fails ends it. */
  function Rows(meetingId: Json, timestamp: Json, attendees: seq<Json>): Result<seq<Object>, Exception>
    decreases |attendees|
  {
    if attendees == [] then Success([])
    else
      var row :- AttendeeRow(meetingId, timestamp, attendees[0]);
      var rest :- Rows(meetingId, timestamp, attendees[1..]);
      Success([row] + rest)
  }

  /** The rows are one per attendee, each built from its own attendee; the list succeeds exactly
      when every attendee does. */
  lemma {:induction false} RowsSpec(meetingId: Json, timestamp: Json, attendees: seq<Json>)
    ensures var r := Rows(meetingId, timestamp, attendees);
            && (r.Success? <==> forall k :: 0 <= k < |attendees| ==> AttendeeRow(meetingId, timestamp, attendees[k]).Success?)
            && (r.Success? ==>
                  |r.value| == |attendees|
                  && forall k :: 0 <= k < |attendees| ==> r.value[k] == AttendeeRow(meetingId, timestamp, attendees[k]).value)
    decreases |attendees|
  {
    if attendees != [] {
      var tail := attendees[1..];
      RowsSpec(meetingId, timestamp, tail);
      assert forall k :: 1 <= k < |attendees| ==> attendees[k] == tail[k - 1];
      var r := Rows(meetingId, timestamp, attendees);
      if r.Success? {
        var rest := Rows(meetingId, timestamp, tail).value;
        assert r.value == [AttendeeRow(meetingId, timestamp, attendees[0]).value] + rest;
      }
    }
  }

  /** A failing list fails with the error of its first failing attendee. */
  lemma {:induction false} RowsFirstFailure(meetingId: Json, timestamp: Json, attendees: seq<Json>)
    ensures var r := Rows(meetingId, timestamp, attendees);
            r.Failure? ==>
              exists k :: 0 <= k < |attendees| && AttendeeRow(meetingId, timestamp, attendees[k]) == Failure(r.error)
                          && forall j :: 0 <= j < k ==> AttendeeRow(meetingId, timestamp, attendees[j]).Success?
    decreases |attendees|
  {
    if attendees != [] {
      var tail := attendees[1..];
      RowsFirstFailure(meetingId, timestamp, tail);
      var r := Rows(meetingId, timestamp, attendees);
      if AttendeeRow(meetingId, timestamp, attendees[0]).Failure? {
        assert AttendeeRow(meetingId, timestamp, attendees[0]) == Failure(r.error);
      } else if r.Failure? {
        var k :| 0 <= k < |tail| && AttendeeRow(meetingId, timestamp, tail[k]) == Failure(r.error)
                 && forall j :: 0 <= j < k ==> AttendeeRow(meetingId, timestamp, tail[j]).Success?;
        assert forall j :: 1 <= j < k + 1 ==> attendees[j] == tail[j - 1];
        assert attendees[k + 1] == tail[k];
      }
    }
  }

  /** `data_processing`: `record['id']`, `record['meeting_timestamp']` and
      `record['meeting_attendees']` in that order (`KeyError` when missing), then one row per
      attendee.  The list is built before anything is yielded, so a failing record yields nothing. */
  function DataProcessing(rec: Object): (r: Result<seq<Object>, Exception>)
    ensures "id" !in rec ==> r == Failure(KeyError("id"))
    ensures "id" in rec && CutoffFieldName !in rec ==> r == Failure(KeyError(CutoffFieldName))
    ensures "id" in rec && CutoffFieldName in rec && "meeting_attendees" !in rec ==> r == Failure(KeyError("meeting_attendees"))
    ensures r.Success? ==>
              && "id" in rec && CutoffFieldName in rec && "meeting_attendees" in rec
              && AttendeeList(rec["meeting_attendees"]).Success?
              && r == Rows(rec["id"], rec[CutoffFieldName], AttendeeList(rec["meeting_attendees"]).value)
  {
    if "id" !in rec then Failure(KeyError("id"))
    else if CutoffFieldName !in rec then Failure(KeyError(CutoffFieldName))
    else if "meeting_attendees" !in rec then Failure(KeyError("meeting_attendees"))
    else
      var attendees :- AttendeeList(rec["meeting_attendees"]);
      Rows(rec["id"], rec[CutoffFieldName], attendees)
  }

  /** What the record loop produced: the rows yielded, the running maximum, and the exception
      that stopped it, if any. */
  datatype Scan = Scan(rows: seq<Object>, max: int, error: Option<Exception>)

  /** The loop over the fetched transcripts: skip what is not a customer meeting; for one that is,
      raise the maximum and yield its rows. */
  function Process(records: seq<Object>, max: int): Scan
    decreases |records|
  {
    if records == [] then Scan([], max, None)
    else match Included(records[0])
      case Failure(e) => Scan([], max, Some(e))
      case Success(included) =>
        if !included then Process(records[1..], max)
        else match RaiseMax(records[0], max)
          case Failure(e) => Scan([], max, Some(e))
          case Success(max') =>
            match DataProcessing(records[0])
            case Failure(e) => Scan([], max', Some(e))
            case Success(rows) =>
              var rest := Process(records[1..], max');
              Scan(rows + rest.rows, rest.max, rest.error)
  }

  /** A customer meeting that the loop reads without error. */
  predicate Counted(rec: Object) {
    Included(rec) == Success(true)
  }

  /**
   * The maximum never drops below its start; a scan without error ends at the start or at the
   * timestamp of a customer meeting, and no customer meeting's non-zero integer timestamp lies above
   * it (a zero timestamp is falsy and skipped).
   */
  lemma {:induction false} ProcessMax(records: seq<Object>, max: int)
    ensures Process(records, max).max >= max
    ensures var s := Process(records, max);
            s.error.None? ==>
              && (forall r :: r in records && Counted(r) && MeetingTimestampOf(r).Success? && MeetingTimestampOf(r).value != 0 ==>
                    MeetingTimestampOf(r).value <= s.max)
              && (s.max == max || exists r :: r in records && Counted(r) && MeetingTimestampOf(r) == Success(s.max))
    decreases |records|
  {
    if records != [] && Included(records[0]).Success? {
      var rec := records[0];
      var tail := records[1..];
      assert forall r :: r in records ==> r == rec || r in tail;
      if !Included(rec).value {
        ProcessMax(tail, max);
      } else if RaiseMax(rec, max).Success? {
        var max' := RaiseMax(rec, max).value;
        ProcessMax(tail, max');
        if DataProcessing(rec).Success? {
          var s := Process(records, max);
          if s.error.None? && s.max != max && s.max == max' {
            assert MeetingTimestampOf(rec) == Success(s.max);
          }
        }
      }
    }
  }

  /** Every row comes from a customer meeting of the list, one of that meeting's own rows. */
  lemma {:induction false} ProcessRows(records: seq<Object>, max: int)
    ensures forall row :: row in Process(records, max).rows ==>
              exists r :: r in records && Counted(r) && DataProcessing(r).Success? && row in DataProcessing(r).value
    decreases |records|
  {
    if records != [] && Included(records[0]).Success? {
      var rec := records[0];
      var tail := records[1..];
      assert forall r :: r in tail ==> r in records;
      if !Included(rec).value {
        ProcessRows(tail, max);
      } else if RaiseMax(rec, max).Success? && DataProcessing(rec).Success? {
        ProcessRows(tail, RaiseMax(rec, max).value);
      }
    }
  }

  /** A list of transcripts none of which is a customer meeting yields no rows and leaves the
      maximum where it was. */
  lemma {:induction false} ProcessNoCustomerMeetings(records: seq<Object>, max: int)
    requires forall k :: 0 <= k < |records| ==> Included(records[k]) == Success(false)
    ensures Process(records, max) == Scan([], max, None)
    decreases |records|
  {
    if records != [] {
      assert forall k :: 0 <= k < |records[1..]| ==> records[1..][k] == records[k + 1];
      ProcessNoCustomerMeetings(records[1..], max);
    }
  }

  /** `meeting_attendees_data[CUTOFF_SCHEMA_NAME]` as written, and the lookup that treats a missing
      list as empty. */
  function TranscriptRecords(variant: Variant, merged: Batch<Object>): (r: Result<seq<Object>, Exception>)
    ensures CutoffSchemaName in merged ==> r == Success(merged[CutoffSchemaName])
    ensures CutoffSchemaName !in merged ==>
              r == (if variant == AsWritten then Failure(KeyError(CutoffSchemaName)) else Success([]))
  {
    if CutoffSchemaName in merged then Success(merged[CutoffSchemaName])
    else if variant == AsWritten then Failure(KeyError(CutoffSchemaName))
    else Success([])
  }

  /** With no transcript at all, the first page is empty, nothing is merged, and the lookup as written
      raises `KeyError('transcripts')`. */
  lemma EmptyFirstPageAsWritten()
    ensures TranscriptRecords(AsWritten, Collect<Object>([], SchemaNames)) == Failure(KeyError("transcripts"))
  {
  }

  /** The corrected lookup yields no transcripts, so the stream yields no rows and stores the
      cutoff. */
  lemma EmptyFirstPageCorrected(cutoff: int)
    ensures TranscriptRecords(Corrected, Collect<Object>([], SchemaNames)) == Success([])
    ensures Process([], cutoff) == Scan([], cutoff, None)
  {
  }

  /** What `get_tap_data` did: the rows it yielded, the state it left (or the exception that ended
      it), the cutoff it used and the pagination run, when it got that far. */
  datatype AttendeesRun = AttendeesRun(rows: seq<Object>, state: Result<Object, Exception>,
                                       fetched: Option<Outcome<Object>>)

  /** The classification of one reply by the cutoff pagination of this stream. */
  function Classify(execute: Window -> Option<Response<Object>>, cutoff: int): Window -> StepResult<Object> {
    CutoffStepOf(execute, SchemaNames, CutoffSchemaName, MeetingTimestampOf, cutoff)
  }

  /** The pagination run of `get_tap_data` from the cutoff `c`. */
  function Fetch(execute: Window -> Option<Response<Object>>, c: int): Outcome<Object> {
    CutoffRun(execute, SchemaNames, CutoffSchemaName, MeetingTimestampOf, c, DefaultStepSize, DefaultRecordCeiling)
  }

  /** The transcripts a run merged, none when it merged no list of them. */
  function Fetched(o: Outcome<Object>): seq<Object> {
    var merged := Collect(o.pages, SchemaNames);
    if CutoffSchemaName in merged then merged[CutoffSchemaName] else []
  }

  /**
   * What `get_tap_data` yields and leaves.  Its rows are those the record loop makes of the
   * fetched transcripts: only customer meetings at or after the cutoff produce rows, each one of
   * that meeting's own rows; the stored `meeting_timestamp` is at or above the cutoff and no
   * customer meeting read has a larger non-zero timestamp; the cutoff's `TypeError`, the
   * pagination's exception and the record loop's exception end it.
   */
  function TapData(variant: Variant, execute: Window -> Option<Response<Object>>, state: Object, start: int): (r: AttendeesRun)
    ensures CutoffTime(state, start).Failure? ==> r == AttendeesRun([], Failure(TypeError), None)
    ensures CutoffTime(state, start).Success? ==> r.fetched == Some(Fetch(execute, CutoffTime(state, start).value))
    ensures r.fetched.Some? && r.fetched.value.result.Failure? ==>
              r.rows == [] && r.state == Failure(r.fetched.value.result.error)
    ensures CutoffTime(state, start).Success? ==>
              var c := CutoffTime(state, start).value;
              && (forall row :: row in r.rows ==>
                    exists t :: && t in Fetched(r.fetched.value) && Counted(t) && AtOrAbove(MeetingTimestampOf, c, t)
                                && DataProcessing(t).Success? && row in DataProcessing(t).value)
              && (r.state.Success? ==>
                    exists m: int :: && m >= c && r.state.value == state[CutoffFieldName := JInt(m)]
                                     && forall t :: (t in Fetched(r.fetched.value) && Counted(t) && MeetingTimestampOf(t).Success?
                                                       && MeetingTimestampOf(t).value != 0) ==> MeetingTimestampOf(t).value <= m)
    ensures var fetched := r.fetched;
            fetched.Some? && fetched.value.result.Success? && TranscriptRecords(variant, Collect(fetched.value.pages, SchemaNames)).Success? ==>
              var recs := TranscriptRecords(variant, Collect(fetched.value.pages, SchemaNames)).value;
              var scan := Process(recs, CutoffTime(state, start).value);
              && r.rows == scan.rows
              && r.state == (if scan.error.Some? then Failure(scan.error.value) else Success(state[CutoffFieldName := JInt(scan.max)]))
    ensures r.fetched.Some? && r.fetched.value.result.Success? && r.fetched.value.pages == [] ==>
              r.rows == []
              && r.state == (if variant == AsWritten then Failure(KeyError("transcripts"))
                             else Success(state[CutoffFieldName := JInt(CutoffTime(state, start).value)]))
  {
    match CutoffTime(state, start)
    case Failure(e) => AttendeesRun([], Failure(e), None)
    case Success(c) =>
      var fetched := Fetch(execute, c);
      if fetched.result.Failure? then AttendeesRun([], Failure(fetched.result.error), Some(fetched))
      else match TranscriptRecords(variant, Collect(fetched.pages, SchemaNames))
        case Failure(e) => AttendeesRun([], Failure(e), Some(fetched))
        case Success(recs) =>
          TapDataFacts(execute, c, recs);
          var scan := Process(recs, c);
          AttendeesRun(scan.rows, if scan.error.Some? then Failure(scan.error.value) else Success(state[CutoffFieldName := JInt(scan.max)]),
                       Some(fetched))
  }

  /** The record loop over a successful run's transcripts: every row from a customer meeting at or
      after the cutoff, and the maximum bounding every customer meeting's timestamp. */
  lemma TapDataFacts(execute: Window -> Option<Response<Object>>, c: int, recs: seq<Object>)
    requires Fetch(execute, c).result.Success? && recs == Fetched(Fetch(execute, c))
    ensures forall row :: row in Process(recs, c).rows ==>
              exists t :: && t in recs && Counted(t) && AtOrAbove(MeetingTimestampOf, c, t)
                          && DataProcessing(t).Success? && row in DataProcessing(t).value
    ensures Process(recs, c).max >= c
    ensures Process(recs, c).error.None? ==>
              forall t :: t in recs && Counted(t) && MeetingTimestampOf(t).Success? && MeetingTimestampOf(t).value != 0 ==>
                            MeetingTimestampOf(t).value <= Process(recs, c).max
  {
    FetchedAbove(execute, c);
    ProcessRows(recs, c);
    ProcessMax(recs, c);
  }

  /** Every transcript a successful run fetched is at or after the cutoff. */
  lemma FetchedAbove(execute: Window -> Option<Response<Object>>, c: int)
    requires Fetch(execute, c).result.Success?
    ensures forall t :: t in Fetched(Fetch(execute, c)) ==> AtOrAbove(MeetingTimestampOf, c, t)
  {
    var o := Fetch(execute, c);
    CutoffRunAbove(execute, SchemaNames, CutoffSchemaName, MeetingTimestampOf, c, DefaultStepSize, DefaultRecordCeiling);
    assert NoDup(SchemaNames);
    var recs := Fetched(o);
    forall t | t in recs ensures AtOrAbove(MeetingTimestampOf, c, t) {
      var k :| 0 <= k < |recs| && recs[k] == t;
    }
  }

  /**
   * `get_tap_data`: computes the cutoff, fetches the transcripts at or after it, yields the rows of
   * the customer meetings and sets `meeting_timestamp` of a copy of the state to the largest
   * timestamp it saw, starting from the cutoff.
   */
  method GetTapData(variant: Variant, execute: Window -> Option<Response<Object>>, state: Object, start: int)
    returns (o: AttendeesRun)
    ensures o == TapData(variant, execute, state, start)
    ensures o.fetched.Some? && CutoffTime(state, start).Success? ==>
              var c := CutoffTime(state, start).value;
              && OutcomeFetched(Classify(execute, c), o.fetched.value)
              && (Classify(execute, c)(Window(DefaultStepSize, 0)).Empty? ==> o.fetched.value.pages == [])
  {
    var cutoff := CutoffTime(state, start);
    if cutoff.Failure? {
      return AttendeesRun([], Failure(cutoff.error), None);
    }
    var c := cutoff.value;
    var fetched := ExecutePaginationWithCutoff(execute, SchemaNames, CutoffSchemaName,
                                               MeetingTimestampOf, c, DefaultStepSize, DefaultRecordCeiling);
    FirstEmptyMergesNothing(execute, c, fetched);
    if fetched.result.Failure? {
      return AttendeesRun([], Failure(fetched.result.error), Some(fetched));
    }
    var records := TranscriptRecords(variant, fetched.result.value.0);
    if records.Failure? {
      return AttendeesRun([], Failure(records.error), Some(fetched));
    }
    var scan := Process(records.value, c);
    if scan.error.Some? {
      return AttendeesRun(scan.rows, Failure(scan.error.value), Some(fetched));
    }
    o := AttendeesRun(scan.rows, Success(state[CutoffFieldName := JInt(scan.max)]), Some(fetched));
  }

  /** A run whose first request found no transcript merged no page, so its result is `{}`. */
  lemma FirstEmptyMergesNothing(execute: Window -> Option<Response<Object>>, c: int, o: Outcome<Object>)
    requires OutcomeRequests(DefaultStepSize, DefaultRecordCeiling, o) && OutcomeFetched(Classify(execute, c), o)
    requires o.result.Success? ==> o.result.value.0 == Collect(o.pages, SchemaNames)
    ensures Classify(execute, c)(Window(DefaultStepSize, 0)).Empty? ==> o.pages == []
    ensures o.result.Success? && o.pages == [] ==> o.result.value.0 == map[]
  {
    if o.pages != [] {
      RequestSkipsCounted(o.sizes, DefaultStepSize, 0);
      assert o.requests[0] == Window(DefaultStepSize, 0) by {
        assert o.sizes[..0] == [];
      }
      assert Classify(execute, c)(o.requests[0]).Good?;
    }
  }
}

=== FILE: pagination.dfy ===
/**
 * Skip/limit pagination over the GraphQL endpoint: `GraphQLHelper.execute_pagination` and
 * `GraphQLHelper.execute_pagination_with_cutoff`.
 *
 * The HTTP call `GraphQLHelper.execute` is the oracle `execute`: it maps the `limit`/`skip`
 * window of one request to the decoded reply, or to `None` when the call failed (the helper
 * swallows every transport and GraphQL error and returns `None`).
 */
module Pagination {
  import opened Wrappers
  import opened Exceptions
  import opened Api

  /** Requests after which the engine pauses for a minute. */
  const FirefliesLimitPerMinute: nat := 60
  /** `num_of_record_ceiling` of a helper built without one. */
  const DefaultRecordCeiling: int := 5000
  /** `step_size` when the caller gives none: the `limit` of every request. */
  const DefaultStepSize: int := 50

  /** The `limit` and `skip` variables of one request. */
  datatype Window = Window(limit: int, skip: int)

  /** The `data` object of one reply: a record list per schema name. */
  type Batch<R> = map<string, seq<R>>

  /** What one request contributes: an exception, the end of the data, or a batch together with
      the number of records the engine counts for it (`batch_size`). */
  datatype StepResult<R> = Bad(error: Exception) | Empty | Good(batch: Batch<R>, size: nat)

  predicate NoDup(names: seq<string>) {
    forall i, j :: 0 <= i < j < |names| ==> names[i] != names[j]
  }

  function NameSet(names: seq<string>): set<string> {
    set n | n in names
  }

  /** The list held under `n`, or the empty list when there is none. */
  function Lookup<R>(b: Batch<R>, n: string): seq<R> {
    if n in b then b[n] else []
  }

  /** Python's `s[:k]` for a non-negative `k`: a prefix, the whole list when `k` is past its end. */
  function Take<R>(s: seq<R>, k: nat): (r: seq<R>)
    ensures |r| == if k <= |s| then k else |s|
    ensures r <= s
  {
    if k <= |s| then s[..k] else s
  }

  /** Every list of a batch cut to its first `k` records (`batch_data[schema][:cutoff_index]`). */
  function Truncate<R>(b: Batch<R>, k: nat): (r: Batch<R>)
    ensures r.Keys == b.Keys
    ensures forall n :: n in r ==> r[n] == Take(b[n], k)
  {
    map n | n in b :: Take(b[n], k)
  }

  /** Some schema name the batch lacks, if any (the `KeyError` the merge loop would raise). */
  function Missing<R>(names: seq<string>, b: Batch<R>): (m: Option<string>)
    ensures m.None? <==> forall i :: 0 <= i < |names| ==> names[i] in b
    ensures m.Some? ==> m.value in names && m.value !in b
    decreases |names|
  {
    if names == [] then None
    else if names[0] !in b then Some(names[0])
    else Missing(names[1..], b)
  }

  /** Sum of the per-page counts. */
  function Sum(s: seq<nat>): nat {
    if s == [] then 0 else Sum(s[..|s| - 1]) + s[|s| - 1]
  }

  lemma SumAppend(s: seq<nat>, x: nat)
    ensures Sum(s + [x]) == Sum(s) + x
  {
    assert (s + [x])[..|s|] == s;
  }

  /** The windows requested for pages whose counts are `sizes`: `limit` is always `stepSize` and
      `skip` is what the earlier pages counted. */
  function Requests(sizes: seq<nat>, stepSize: int): (ws: seq<Window>)
    ensures |ws| == |sizes|
  {
    if sizes == [] then []
    else Requests(sizes[..|sizes| - 1], stepSize) + [Window(stepSize, Sum(sizes[..|sizes| - 1]))]
  }

  lemma RequestsAppend(sizes: seq<nat>, x: nat, stepSize: int)
    ensures Requests(sizes + [x], stepSize) == Requests(sizes, stepSize) + [Window(stepSize, Sum(sizes))]
  {
    assert (sizes + [x])[..|sizes|] == sizes;
  }

  /** Request `i` asks for `stepSize` records and skips exactly those counted on the pages before it. */
  lemma {:induction false} RequestSkipsCounted(sizes: seq<nat>, stepSize: int, i: nat)
    requires i < |sizes|
    ensures Requests(sizes, stepSize)[i] == Window(stepSize, Sum(sizes[..i]))
    decreases |sizes|
  {
    var init := sizes[..|sizes| - 1];
    if i < |init| {
      RequestSkipsCounted(init, stepSize, i);
      assert init[..i] == sizes[..i];
    } else {
      assert init == sizes[..i];
    }
  }

  /** Counting never goes backwards, so no request skips less than an earlier one. */
  lemma {:induction false} SumPrefixMonotone(sizes: seq<nat>, i: nat, j: nat)
    requires i <= j <= |sizes|
    ensures Sum(sizes[..i]) <= Sum(sizes[..j])
    decreases j - i
  {
    if i < j {
      SumPrefixMonotone(sizes, i, j - 1);
      assert sizes[..j] == sizes[..j - 1] + [sizes[j - 1]];
      SumAppend(sizes[..j - 1], sizes[j - 1]);
    }
  }

  /** In-order concatenation of the lists every page holds under `n`. */
  function Flatten<R>(pages: seq<Batch<R>>, n: string): seq<R> {
    if pages == [] then [] else Flatten(pages[..|pages| - 1], n) + Lookup(pages[|pages| - 1], n)
  }

  /** The result dictionary expected after merging `pages`: empty when no page was merged,
      otherwise one entry per schema name holding that schema's lists of all pages, in order. */
  function Collect<R>(pages: seq<Batch<R>>, names: seq<string>): Batch<R> {
    if pages == [] then map[] else map n | n in NameSet(names) :: Flatten(pages, n)
  }

  /** Appends one batch to the result dictionary, schema by schema (`copy()` on first sight,
      `extend` afterwards). */
  function Merge<R>(acc: Batch<R>, names: seq<string>, batch: Batch<R>): Batch<R>
    requires forall i :: 0 <= i < |names| ==> names[i] in batch
    decreases |names|
  {
    if names == [] then acc
    else Merge(acc[names[0] := Lookup(acc, names[0]) + batch[names[0]]], names[1..], batch)
  }

  lemma NoDupTail(names: seq<string>)
    requires names != [] && NoDup(names)
    ensures NoDup(names[1..]) && names[0] !in names[1..]
  {
    forall k | 0 <= k < |names[1..]| ensures names[1..][k] != names[0] {
      assert names[1..][k] == names[k + 1];
    }
  }

  /** Merging adds an entry for every schema name, leaves other entries alone and, with distinct
      names, extends each named list by the batch's list. */
  lemma {:induction false} MergeSpec<R>(acc: Batch<R>, names: seq<string>, batch: Batch<R>)
    requires forall i :: 0 <= i < |names| ==> names[i] in batch
    ensures var r := Merge(acc, names, batch);
            && r.Keys == acc.Keys + NameSet(names)
            && (forall n :: n in acc && n !in names ==> r[n] == acc[n])
            && (NoDup(names) ==> forall i :: 0 <= i < |names| ==> r[names[i]] == Lookup(acc, names[i]) + batch[names[i]])
    decreases |names|
  {
    if names != [] {
      var acc' := acc[names[0] := Lookup(acc, names[0]) + batch[names[0]]];
      MergeSpec(acc', names[1..], batch);
      assert NameSet(names) == {names[0]} + NameSet(names[1..]);
      if NoDup(names) {
        NoDupTail(names);
        var r := Merge(acc, names, batch);
        forall i | 0 <= i < |names| ensures r[names[i]] == Lookup(acc, names[i]) + batch[names[i]] {
          if i > 0 {
            assert names[i] == names[1..][i - 1];
          }
        }
      }
    }
  }

  lemma CollectLookup<R>(pages: seq<Batch<R>>, names: seq<string>, n: string)
    requires n in names
    ensures Lookup(Collect(pages, names), n) == Flatten(pages, n)
  {
  }

  lemma CollectDomain<R>(pages: seq<Batch<R>>, names: seq<string>)
    ensures Collect(pages, names).Keys == if pages == [] then {} else NameSet(names)
  {
  }

  lemma MergeCollectValues<R>(pages: seq<Batch<R>>, names: seq<string>, batch: Batch<R>)
    requires NoDup(names)
    requires forall i :: 0 <= i < |names| ==> names[i] in batch
    ensures var m := Merge(Collect(pages, names), names, batch);
            var c := Collect(pages + [batch], names);
            forall n | n in names :: n in m && n in c && m[n] == c[n]
  {
    var m := Merge(Collect(pages, names), names, batch);
    var ps := pages + [batch];
    assert ps[..|ps| - 1] == pages;
    var c := Collect(ps, names);
    MergeSpec(Collect(pages, names), names, batch);
    forall n | n in names ensures n in m && n in c && m[n] == c[n] {
      var i :| 0 <= i < |names| && names[i] == n;
      CollectLookup(pages, names, n);
      assert m[n] == Flatten(pages, n) + batch[n];
      assert c[n] == Flatten(ps, n) == Flatten(pages, n) + Lookup(batch, n);
    }
  }

  /** Merging page after page builds exactly the in-order concatenation of every schema's lists. */
  lemma {:induction false} CollectAfterMerge<R>(pages: seq<Batch<R>>, names: seq<string>, batch: Batch<R>)
    requires NoDup(names)
    requires forall i :: 0 <= i < |names| ==> names[i] in batch
    ensures Merge(Collect(pages, names), names, batch) == Collect(pages + [batch], names)
  {
    MergeSpec(Collect(pages, names), names, batch);
    MergeCollectValues(pages, names, batch);
    CollectDomain(pages, names);
    CollectDomain(pages + [batch], names);
  }

  /** The merged list of a schema every page holds is as long as the records counted for it. */
  lemma {:induction false} FlattenLength<R>(pages: seq<Batch<R>>, sizes: seq<nat>, n: string)
    requires |pages| == |sizes|
    requires forall i :: 0 <= i < |pages| ==> n in pages[i] && |pages[i][n]| == sizes[i]
    ensures |Flatten(pages, n)| == Sum(sizes)
    decreases |pages|
  {
    if pages != [] {
      FlattenLength(pages[..|pages| - 1], sizes[..|sizes| - 1], n);
    }
  }

  /** Classifies the reply to one request of `execute_pagination`. */
  function Step<R>(reply: Option<Response<R>>, names: seq<string>): (s: StepResult<R>)
    requires names != []
    ensures s.Bad? && s.error == ValueError <==> reply.None? || reply.value.data.None?
    ensures s.Bad? && s.error != ValueError ==>
              s.error.KeyError? && s.error.key in names && s.error.key !in reply.value.data.value
    ensures s.Empty? <==> reply.Some? && reply.value.data.Some? && names[0] in reply.value.data.value
                          && reply.value.data.value[names[0]] == []
    ensures s.Good? <==> reply.Some? && reply.value.data.Some?
                         && (forall i :: 0 <= i < |names| ==> names[i] in reply.value.data.value)
                         && reply.value.data.value[names[0]] != []
    ensures s.Good? ==> reply.value.data.value == s.batch && s.size == |s.batch[names[0]]|
  {
    if reply.None? || reply.value.data.None? then Bad(ValueError)
    else
      var batch := reply.value.data.value;
      if names[0] !in batch then Bad(KeyError(names[0]))
      else if |batch[names[0]]| == 0 then Empty
      else match Missing(names, batch)
        case Some(n) => Bad(KeyError(n))
        case None => Good(batch, |batch[names[0]]|)
  }


  /** Whether a record carries a cutoff value at or above `value`.  `cutoffOf` reads the cutoff
      field of a record as an integer for the comparison, or gives the exception reading or
      comparing it raises. */
  predicate AtOrAbove<R>(cutoffOf: R -> Result<int, Exception>, value: int, x: R) {
    cutoffOf(x).Success? && cutoffOf(x).value >= value
  }

  /** Every record of a list is at or above the cutoff. */
  predicate AllAbove<R>(s: seq<R>, cutoffOf: R -> Result<int, Exception>, value: int) {
    forall k :: 0 <= k < |s| ==> AtOrAbove(cutoffOf, value, s[k])
  }

  /**
   * The scan `for index, data in enumerate(...)`: the index of the first record whose cutoff field
   * is below `value`, `None` when every record is at or above it, and the exception raised by the
   * first scanned record whose field is missing or not comparable.
   */
  function FirstBelow<R>(records: seq<R>, cutoffOf: R -> Result<int, Exception>, value: int): (r: Result<Option<nat>, Exception>)
    ensures r.Success? && r.value.Some? ==>
              r.value.value < |records| && cutoffOf(records[r.value.value]).Success?
              && cutoffOf(records[r.value.value]).value < value
              && AllAbove(records[..r.value.value], cutoffOf, value)
    ensures r.Success? && r.value.None? ==> AllAbove(records, cutoffOf, value)
    ensures r.Failure? ==>
              exists k :: 0 <= k < |records| && cutoffOf(records[k]) == Failure(r.error) && AllAbove(records[..k], cutoffOf, value)
    decreases |records|
  {
    if records == [] then Success(None)
    else match cutoffOf(records[0])
      case Failure(e) =>
        assert records[..0] == [];
        Failure(e)
      case Success(v) =>
        if v < value then Success(Some(0))
        else match FirstBelow(records[1..], cutoffOf, value)
          case Failure(e) =>
            ghost var k :| 0 <= k < |records[1..]| && cutoffOf(records[1..][k]) == Failure(e) && AllAbove(records[1..][..k], cutoffOf, value);
            assert records[..k + 1] == [records[0]] + records[1..][..k];
            assert records[k + 1] == records[1..][k];
            Failure(e)
          case Success(None) =>
            assert records == [records[0]] + records[1..];
            Success(None)
          case Success(Some(i)) =>
            assert records[..i + 1] == [records[0]] + records[1..][..i];
            assert records[i + 1] == records[1..][i];
            Success(Some(i + 1))
  }

  /** `k` is where a cutoff page is cut: the first record below `value`, or the lead page length
      when no record of the cutoff schema is below it. */
  predicate IsCutoffIndex<R>(records: seq<R>, leadSize: nat, cutoffOf: R -> Result<int, Exception>, value: int, k: nat) {
    || (k < |records| && cutoffOf(records[k]).Success? && cutoffOf(records[k]).value < value
        && AllAbove(records[..k], cutoffOf, value))
    || (k == leadSize && AllAbove(records, cutoffOf, value))
  }

  /**
   * Classifies the reply to one request of `execute_pagination_with_cutoff`.  A good reply yields
   * the batch cut at the cutoff index, counted as that index.
   */
  function CutoffStep<R>(reply: Option<Response<R>>, names: seq<string>, cutoffSchema: string,
                         cutoffOf: R -> Result<int, Exception>, cutoffValue: int): (s: StepResult<R>)
    requires names != []
    ensures reply.None? || reply.value.data.None? ==> s == Bad(ValueError)
    ensures s.Empty? <==> reply.Some? && reply.value.data.Some? && names[0] in reply.value.data.value
                          && reply.value.data.value[names[0]] == []
    ensures s.Good? ==>
              reply.Some? && reply.value.data.Some?
              && var data := reply.value.data.value;
              && (forall i :: 0 <= i < |names| ==> names[i] in data)
              && data[names[0]] != [] && cutoffSchema in data
              && IsCutoffIndex(data[cutoffSchema], |data[names[0]]|, cutoffOf, cutoffValue, s.size)
              && s.batch == Truncate(data, s.size)
    ensures s.Bad? && reply.Some? && reply.value.data.Some? ==>
              var data := reply.value.data.value;
              || (cutoffSchema in data && FirstBelow(data[cutoffSchema], cutoffOf, cutoffValue) == Failure(s.error))
              || (s.error.KeyError? && s.error.key in names + [cutoffSchema] && s.error.key !in data)
  {
    if reply.None? || reply.value.data.None? then Bad(ValueError)
    else
      var data := reply.value.data.value;
      if names[0] !in data then Bad(KeyError(names[0]))
      else if |data[names[0]]| == 0 then Empty
      else if cutoffSchema !in data then Bad(KeyError(cutoffSchema))
      else match FirstBelow(data[cutoffSchema], cutoffOf, cutoffValue)
        case Failure(e) => Bad(e)
        case Success(below) =>
          var k := if below.Some? then below.value else |data[names[0]]|;
          match Missing(names, data)
          case Some(n) => Bad(KeyError(n))
          case None => Good(Truncate(data, k), k)
  }

  /** Every good classification holds a list for every schema name, so the merge never fails. */
  ghost predicate Complete<R>(classify: Window -> StepResult<R>, names: seq<string>) {
    forall w :: classify(w).Good? ==> forall i :: 0 <= i < |names| ==> names[i] in classify(w).batch
  }

  /** A page that does not end the run adds at least one record to the count. */
  ghost predicate Advances<R>(classify: Window -> StepResult<R>, stepSize: int) {
    forall w :: classify(w).Good? && classify(w).size >= stepSize ==> classify(w).size > 0
  }

  /** The loop variables of the engine: the windows requested, the merged pages with their counts,
      the result dictionary, `num_of_record_read`, `request_count` and the pauses taken. */
  datatype Run<R> = Run(requests: seq<Window>, pages: seq<Batch<R>>, sizes: seq<nat>, merged: Batch<R>,
                        count: nat, requestCount: nat, pauses: nat)

  /** What a finished run leaves: the returned pair (or the exception raised), and the trace. */
  datatype Outcome<R> = Outcome(result: Result<(Batch<R>, nat), Exception>, requests: seq<Window>,
                                pages: seq<Batch<R>>, sizes: seq<nat>, pauses: nat)

  function Start<R>(): Run<R> {
    Run([], [], [], map[], 0, 0, 0)
  }

  /** A run that returns `(result_dict, num_of_record_read)`. */
  function Done<R>(st: Run<R>): Outcome<R> {
    Outcome(Success((st.merged, st.count)), st.requests, st.pages, st.sizes, st.pauses)
  }

  /** One pass of the loop body: the outcome when the loop ends there, or the loop variables for the
      next pass. */
  datatype Move<R> = Stop(outcome: Outcome<R>) | Continue(next: Run<R>)

  /**
   * One pass of the pagination loop: request the next window while the count is at most `ceiling`;
   * stop on an exception, on an empty lead list or after a page counted below `stepSize`; otherwise
   * merge the page and pause after every `FirefliesLimitPerMinute` requests.
   */
  function Tick<R>(classify: Window -> StepResult<R>, names: seq<string>, stepSize: int, ceiling: int, st: Run<R>): (m: Move<R>)
    requires Complete(classify, names) && Advances(classify, stepSize)
    ensures m.Continue? ==> st.count <= ceiling && m.next.count > st.count
  {
    if st.count > ceiling then Stop(Done(st))
    else
      var w := Window(stepSize, st.count);
      var requests := st.requests + [w];
      match classify(w)
      case Bad(e) => Stop(Outcome(Failure(e), requests, st.pages, st.sizes, st.pauses))
      case Empty => Stop(Done(st.(requests := requests)))
      case Good(batch, size) =>
        var next := Run(requests, st.pages + [batch], st.sizes + [size], Merge(st.merged, names, batch),
                        st.count + size, st.requestCount + 1, st.pauses);
        if size < stepSize then Stop(Done(next))
        else if next.requestCount >= FirefliesLimitPerMinute then Continue(next.(requestCount := 0, pauses := next.pauses + 1))
        else Continue(next)
  }

  /** The whole loop, from the given loop variables to the return or the exception. */
  function Drive<R>(classify: Window -> StepResult<R>, names: seq<string>, stepSize: int, ceiling: int, st: Run<R>): Outcome<R>
    requires Complete(classify, names) && Advances(classify, stepSize)
    decreases ceiling - st.count
  {
    match Tick(classify, names, stepSize, ceiling, st)
    case Stop(o) => o
    case Continue(next) => Drive(classify, names, stepSize, ceiling, next)
  }

  /** The loop variables agree: one window per merged page, each skipping what was counted before
      it, and no window past the ceiling. */
  ghost predicate RunRequests<R>(stepSize: int, ceiling: int, st: Run<R>) {
    && |st.pages| == |st.sizes|
    && st.requests == Requests(st.sizes, stepSize)
    && st.count == Sum(st.sizes)
    && (st.requests != [] ==> st.requests[|st.requests| - 1].skip <= ceiling)
  }

  /** A finished run asked for one window per merged page, plus possibly one more that merged
      nothing; each skips exactly the records counted before it, and none skips past the ceiling. */
  ghost predicate OutcomeRequests<R>(stepSize: int, ceiling: int, o: Outcome<R>) {
    && |o.pages| == |o.sizes|
    && (o.requests == Requests(o.sizes, stepSize) || o.requests == Requests(o.sizes, stepSize) + [Window(stepSize, Sum(o.sizes))])
    && (o.requests != [] ==> o.requests[|o.requests| - 1].skip <= ceiling)
  }

  lemma TickRequests<R>(classify: Window -> StepResult<R>, names: seq<string>, stepSize: int, ceiling: int, st: Run<R>)
    requires Complete(classify, names) && Advances(classify, stepSize)
    requires RunRequests(stepSize, ceiling, st)
    ensures match Tick(classify, names, stepSize, ceiling, st)
            case Stop(o) => OutcomeRequests(stepSize, ceiling, o)
            case Continue(next) => RunRequests(stepSize, ceiling, next)
  {
    if st.count <= ceiling {
      var w := Window(stepSize, st.count);
      match classify(w)
      case Bad(_) =>
      case Empty =>
      case Good(_, size) =>
        RequestsAppend(st.sizes, size, stepSize);
        SumAppend(st.sizes, size);
        assert st.requests + [w] == Requests(st.sizes + [size], stepSize);
        assert st.count + size == Sum(st.sizes + [size]);
    }
  }

  lemma {:induction false} DriveRequests<R>(classify: Window -> StepResult<R>, names: seq<string>, stepSize: int, ceiling: int, st: Run<R>)
    requires Complete(classify, names) && Advances(classify, stepSize)
    requires RunRequests(stepSize, ceiling, st)
    ensures OutcomeRequests(stepSize, ceiling, Drive(classify, names, stepSize, ceiling, st))
    decreases ceiling - st.count
  {
    TickRequests(classify, names, stepSize, ceiling, st);
    var m := Tick(classify, names, stepSize, ceiling, st);
    if m.Continue? {
      DriveRequests(classify, names, stepSize, ceiling, m.next);
    }
  }

  /** The loop variables agree: the count is the sum of the page counts and every merged page was
      full. */
  ghost predicate RunCounts<R>(stepSize: int, st: Run<R>) {
    && |st.pages| == |st.sizes| == |st.requests|
    && st.count == Sum(st.sizes)
    && forall i :: 0 <= i < |st.sizes| ==> st.sizes[i] >= stepSize
  }

  /** A finished run returns the sum of the page counts; only its last page may be short; and a run
      that merged its last request stopped after a short page or once the count passed the ceiling. */
  ghost predicate OutcomeCounts<R>(stepSize: int, ceiling: int, o: Outcome<R>) {
    && (forall i :: 0 <= i < |o.sizes| - 1 ==> o.sizes[i] >= stepSize)
    && (o.result.Success? ==> o.result.value.1 == Sum(o.sizes))
    && (o.result.Success? && |o.requests| == |o.pages| ==>
          (o.sizes != [] && o.sizes[|o.sizes| - 1] < stepSize) || Sum(o.sizes) > ceiling)
  }

  lemma TickCounts<R>(classify: Window -> StepResult<R>, names: seq<string>, stepSize: int, ceiling: int, st: Run<R>)
    requires Complete(classify, names) && Advances(classify, stepSize)
    requires RunCounts(stepSize, st)
    ensures match Tick(classify, names, stepSize, ceiling, st)
            case Stop(o) => OutcomeCounts(stepSize, ceiling, o)
            case Continue(next) => RunCounts(stepSize, next)
  {
    if st.count <= ceiling {
      var w := Window(stepSize, st.count);
      match classify(w)
      case Bad(_) =>
      case Empty =>
      case Good(_, size) =>
        SumAppend(st.sizes, size);
        var sizes := st.sizes + [size];
        assert st.count + size == Sum(sizes);
        assert forall i :: 0 <= i < |sizes| - 1 ==> sizes[i] >= stepSize;
        if size >= stepSize {
          assert forall i :: 0 <= i < |sizes| ==> sizes[i] >= stepSize;
        }
    }
  }

  lemma {:induction false} DriveCounts<R>(classify: Window -> StepResult<R>, names: seq<string>, stepSize: int, ceiling: int, st: Run<R>)
    requires Complete(classify, names) && Advances(classify, stepSize)
    requires RunCounts(stepSize, st)
    ensures OutcomeCounts(stepSize, ceiling, Drive(classify, names, stepSize, ceiling, st))
    decreases ceiling - st.count
  {
    TickCounts(classify, names, stepSize, ceiling, st);
    var m := Tick(classify, names, stepSize, ceiling, st);
    if m.Continue? {
      DriveCounts(classify, names, stepSize, ceiling, m.next);
    }
  }

  /** Page `i` is what the classification of request `i` delivered. */
  ghost predicate Fetched<R>(classify: Window -> StepResult<R>, requests: seq<Window>, pages: seq<Batch<R>>, sizes: seq<nat>) {
    && |pages| == |sizes| <= |requests|
    && forall i :: 0 <= i < |pages| ==> classify(requests[i]) == Good(pages[i], sizes[i])
  }

  /** Every merged page comes from the reply to its own request; a run that did not merge its last
      request ended there on an empty page or on the exception that request raised. */
  ghost predicate OutcomeFetched<R>(classify: Window -> StepResult<R>, o: Outcome<R>) {
    && Fetched(classify, o.requests, o.pages, o.sizes)
    && |o.requests| <= |o.pages| + 1
    && (o.result.Success? && |o.requests| == |o.pages| + 1 ==> classify(o.requests[|o.pages|]) == Empty)
    && (o.result.Failure? ==> |o.requests| == |o.pages| + 1 && classify(o.requests[|o.pages|]) == Bad(o.result.error))
  }

  lemma TickFetched<R>(classify: Window -> StepResult<R>, names: seq<string>, stepSize: int, ceiling: int, st: Run<R>)
    requires Complete(classify, names) && Advances(classify, stepSize)
    requires Fetched(classify, st.requests, st.pages, st.sizes) && |st.requests| == |st.pages|
    ensures match Tick(classify, names, stepSize, ceiling, st)
            case Stop(o) => OutcomeFetched(classify, o)
            case Continue(next) => Fetched(classify, next.requests, next.pages, next.sizes) && |next.requests| == |next.pages|
  {
  }

  lemma {:induction false} DriveFetched<R>(classify: Window -> StepResult<R>, names: seq<string>, stepSize: int, ceiling: int, st: Run<R>)
    requires Complete(classify, names) && Advances(classify, stepSize)
    requires Fetched(classify, st.requests, st.pages, st.sizes) && |st.requests| == |st.pages|
    ensures OutcomeFetched(classify, Drive(classify, names, stepSize, ceiling, st))
    decreases ceiling - st.count
  {
    TickFetched(classify, names, stepSize, ceiling, st);
    var m := Tick(classify, names, stepSize, ceiling, st);
    if m.Continue? {
      DriveFetched(classify, names, stepSize, ceiling, m.next);
    }
  }

  lemma TickMerged<R>(classify: Window -> StepResult<R>, names: seq<string>, stepSize: int, ceiling: int, st: Run<R>)
    requires Complete(classify, names) && Advances(classify, stepSize)
    requires NoDup(names) && st.merged == Collect(st.pages, names)
    ensures match Tick(classify, names, stepSize, ceiling, st)
            case Stop(o) => o.result.Success? ==> o.result.value.0 == Collect(o.pages, names)
            case Continue(next) => next.merged == Collect(next.pages, names)
  {
    if st.count <= ceiling {
      var w := Window(stepSize, st.count);
      if classify(w).Good? {
        CollectAfterMerge(st.pages, names, classify(w).batch);
      }
    }
  }

  /** With distinct schema names, the returned dictionary is the in-order merge of every page. */
  lemma {:induction false} DriveMerged<R>(classify: Window -> StepResult<R>, names: seq<string>, stepSize: int, ceiling: int, st: Run<R>)
    requires Complete(classify, names) && Advances(classify, stepSize)
    requires NoDup(names) && st.merged == Collect(st.pages, names)
    ensures var o := Drive(classify, names, stepSize, ceiling, st);
            o.result.Success? ==> o.result.value.0 == Collect(o.pages, names)
    decreases ceiling - st.count
  {
    TickMerged(classify, names, stepSize, ceiling, st);
    var m := Tick(classify, names, stepSize, ceiling, st);
    if m.Continue? {
      DriveMerged(classify, names, stepSize, ceiling, m.next);
    }
  }

  /** The loop variables agree: every merged page was full, and `request_count` is what remains of the
      page count after the pauses taken. */
  ghost predicate RunPaced<R>(stepSize: int, st: Run<R>) {
    && |st.pages| == |st.sizes|
    && (forall i :: 0 <= i < |st.sizes| ==> st.sizes[i] >= stepSize)
    && st.requestCount < FirefliesLimitPerMinute
    && |st.pages| == FirefliesLimitPerMinute * st.pauses + st.requestCount
  }

  /** A finished run paused once after every `FirefliesLimitPerMinute` full pages. */
  ghost predicate OutcomePaced<R>(stepSize: int, o: Outcome<R>) {
    o.pauses == (|o.pages| - (if o.sizes != [] && o.sizes[|o.sizes| - 1] < stepSize then 1 else 0)) / FirefliesLimitPerMinute
  }

  lemma TickPaced<R>(classify: Window -> StepResult<R>, names: seq<string>, stepSize: int, ceiling: int, st: Run<R>)
    requires Complete(classify, names) && Advances(classify, stepSize)
    requires RunPaced(stepSize, st)
    ensures match Tick(classify, names, stepSize, ceiling, st)
            case Stop(o) => OutcomePaced(stepSize, o)
            case Continue(next) => RunPaced(stepSize, next)
  {
  }

  lemma {:induction false} DrivePaced<R>(classify: Window -> StepResult<R>, names: seq<string>, stepSize: int, ceiling: int, st: Run<R>)
    requires Complete(classify, names) && Advances(classify, stepSize)
    requires RunPaced(stepSize, st)
    ensures OutcomePaced(stepSize, Drive(classify, names, stepSize, ceiling, st))
    decreases ceiling - st.count
  {
    TickPaced(classify, names, stepSize, ceiling, st);
    var m := Tick(classify, names, stepSize, ceiling, st);
    if m.Continue? {
      DrivePaced(classify, names, stepSize, ceiling, m.next);
    }
  }

  /**
   * The loop shared by both pagination functions, written as the source writes it; `classify`
   * stands for the request, the checks on the reply and, with a cutoff, the cut.
   */
  method Paginate<R>(classify: Window -> StepResult<R>, names: seq<string>, stepSize: int, ceiling: int) returns (o: Outcome<R>)
    requires Complete(classify, names) && Advances(classify, stepSize)
    ensures o == Drive(classify, names, stepSize, ceiling, Start())
  {
    var requests: seq<Window> := [];
    var pages: seq<Batch<R>> := [];
    var sizes: seq<nat> := [];
    var merged: Batch<R> := map[];
    var count: nat := 0;
    var requestCount: nat := 0;
    var pauses: nat := 0;
    ghost var run := Drive(classify, names, stepSize, ceiling, Start());
    while count <= ceiling
      invariant requestCount < FirefliesLimitPerMinute
      invariant run == Drive(classify, names, stepSize, ceiling, Run(requests, pages, sizes, merged, count, requestCount, pauses))
      decreases ceiling - count
    {
      var w := Window(stepSize, count);
      ghost var before := Run(requests, pages, sizes, merged, count, requestCount, pauses);
      requests := requests + [w];
      requestCount := requestCount + 1;
      var s := classify(w);
      if s.Bad? {
        return Outcome(Failure(s.error), requests, pages, sizes, pauses);
      }
      if s.Empty? {
        return Outcome(Success((merged, count)), requests, pages, sizes, pauses);
      }
      merged := Merge(merged, names, s.batch);
      pages := pages + [s.batch];
      sizes := sizes + [s.size];
      count := count + s.size;
      if s.size < stepSize {
        return Outcome(Success((merged, count)), requests, pages, sizes, pauses);
      }
      if requestCount >= FirefliesLimitPerMinute {
        requestCount := 0;
        pauses := pauses + 1;
      }
      assert Tick(classify, names, stepSize, ceiling, before) == Continue(Run(requests, pages, sizes, merged, count, requestCount, pauses));
    }
    return Outcome(Success((merged, count)), requests, pages, sizes, pauses);
  }

  /** A run from the start keeps every promise of the loop. */
  lemma Finished<R>(classify: Window -> StepResult<R>, names: seq<string>, stepSize: int, ceiling: int)
    requires Complete(classify, names) && Advances(classify, stepSize)
    ensures var o := Drive(classify, names, stepSize, ceiling, Start());
            && OutcomeRequests(stepSize, ceiling, o) && OutcomeCounts(stepSize, ceiling, o)
            && OutcomeFetched(classify, o) && OutcomePaced(stepSize, o)
            && (NoDup(names) && o.result.Success? ==> o.result.value.0 == Collect(o.pages, names))
  {
    DriveRequests(classify, names, stepSize, ceiling, Start());
    DriveCounts(classify, names, stepSize, ceiling, Start());
    DriveFetched(classify, names, stepSize, ceiling, Start());
    DrivePaced(classify, names, stepSize, ceiling, Start());
    if NoDup(names) {
      DriveMerged(classify, names, stepSize, ceiling, Start());
    }
  }

  /** The request and the checks of `execute_pagination`, for a non-empty list of schema names. */
  function PlainStep<R>(execute: Window -> Option<Response<R>>, names: seq<string>): Window -> StepResult<R>
    requires names != []
  {
    w => Step(execute(w), names)
  }

  /** A good reply holds every schema name and at least one lead record. */
  lemma PlainStepSound<R>(execute: Window -> Option<Response<R>>, names: seq<string>, stepSize: int)
    requires names != []
    ensures Complete(PlainStep(execute, names), names) && Advances(PlainStep(execute, names), stepSize)
  {
    var classify := PlainStep(execute, names);
    forall w | classify(w).Good? ensures (forall i :: 0 <= i < |names| ==> names[i] in classify(w).batch) && classify(w).size > 0 {
      assert classify(w) == Step(execute(w), names);
    }
  }

  /**
   * `execute_pagination`: `IndexError` when there is no lead schema; otherwise requests
   * `limit = stepSize`, `skip = records counted so far` while the count is at most `ceiling`,
   * stopping at a page without lead records or a page shorter than `stepSize`, and merges the
   * named lists of every page in order.
   */
  method ExecutePagination<R>(execute: Window -> Option<Response<R>>, names: seq<string>, stepSize: int, ceiling: int)
    returns (o: Outcome<R>)
    ensures names == [] ==> o == Outcome(Failure(IndexError), [], [], [], 0)
    ensures names != [] ==>
              && OutcomeRequests(stepSize, ceiling, o) && OutcomeCounts(stepSize, ceiling, o)
              && OutcomeFetched(PlainStep(execute, names), o) && OutcomePaced(stepSize, o)
    ensures o.result.Success? && NoDup(names) ==> o.result.value.0 == Collect(o.pages, names)
    ensures o.result.Success? && NoDup(names) && o.pages != [] ==> |o.result.value.0[names[0]]| == o.result.value.1
  {
    if names == [] {
      return Outcome(Failure(IndexError), [], [], [], 0);
    }
    var classify := PlainStep(execute, names);
    PlainStepSound(execute, names, stepSize);
    o := Paginate(classify, names, stepSize, ceiling);
    Finished(classify, names, stepSize, ceiling);
    if o.result.Success? && NoDup(names) && o.pages != [] {
      forall i | 0 <= i < |o.pages| ensures names[0] in o.pages[i] && |o.pages[i][names[0]]| == o.sizes[i] {
        assert classify(o.requests[i]) == Good(o.pages[i], o.sizes[i]);
      }
      FlattenLength(o.pages, o.sizes, names[0]);
    }
  }

  /** The request, the checks and the cut of `execute_pagination_with_cutoff`. */
  function CutoffStepOf<R>(execute: Window -> Option<Response<R>>, names: seq<string>, cutoffSchema: string,
                           cutoffOf: R -> Result<int, Exception>, cutoffValue: int): Window -> StepResult<R>
    requires names != []
  {
    w => CutoffStep(execute(w), names, cutoffSchema, cutoffOf, cutoffValue)
  }

  /** A good reply holds every schema name, its cut cutoff list is at or above the cutoff, and a
      positive step size makes every page that does not end the run count at least one record. */
  lemma CutoffStepSound<R>(execute: Window -> Option<Response<R>>, names: seq<string>, cutoffSchema: string,
                           cutoffOf: R -> Result<int, Exception>, cutoffValue: int, stepSize: int)
    requires names != [] && stepSize >= 1
    ensures var classify := CutoffStepOf(execute, names, cutoffSchema, cutoffOf, cutoffValue);
            && Complete(classify, names) && Advances(classify, stepSize)
            && forall w :: classify(w).Good? ==>
                 cutoffSchema in classify(w).batch && AllAbove(classify(w).batch[cutoffSchema], cutoffOf, cutoffValue)
  {
    var classify := CutoffStepOf(execute, names, cutoffSchema, cutoffOf, cutoffValue);
    forall w | classify(w).Good?
      ensures (forall i :: 0 <= i < |names| ==> names[i] in classify(w).batch)
      ensures cutoffSchema in classify(w).batch && AllAbove(classify(w).batch[cutoffSchema], cutoffOf, cutoffValue)
    {
      var s := CutoffStep(execute(w), names, cutoffSchema, cutoffOf, cutoffValue);
      assert classify(w) == s;
      var data := execute(w).value.data.value;
      assert s.batch[cutoffSchema] == Take(data[cutoffSchema], s.size);
    }
  }

  /** Concatenating lists that are all at or above the cutoff keeps them so. */
  lemma {:induction false} FlattenAbove<R>(pages: seq<Batch<R>>, n: string, cutoffOf: R -> Result<int, Exception>, value: int)
    requires forall i :: 0 <= i < |pages| ==> n in pages[i] && AllAbove(pages[i][n], cutoffOf, value)
    ensures AllAbove(Flatten(pages, n), cutoffOf, value)
    decreases |pages|
  {
    if pages != [] {
      FlattenAbove(pages[..|pages| - 1], n, cutoffOf, value);
      var init := Flatten(pages[..|pages| - 1], n);
      var last := pages[|pages| - 1][n];
      assert Flatten(pages, n) == init + last;
      forall k | 0 <= k < |init + last| ensures AtOrAbove(cutoffOf, value, (init + last)[k]) {
        if k < |init| {
          assert (init + last)[k] == init[k];
        } else {
          assert (init + last)[k] == last[k - |init|];
        }
      }
    }
  }

  /** The run of `execute_pagination_with_cutoff` as the engine computes it. */
  function CutoffRun<R>(execute: Window -> Option<Response<R>>, names: seq<string>, cutoffSchema: string,
                        cutoffOf: R -> Result<int, Exception>, cutoffValue: int, stepSize: int, ceiling: int): Outcome<R>
    requires names != [] && stepSize >= 1
  {
    CutoffStepSound(execute, names, cutoffSchema, cutoffOf, cutoffValue, stepSize);
    Drive(CutoffStepOf(execute, names, cutoffSchema, cutoffOf, cutoffValue), names, stepSize, ceiling, Start())
  }

  /** A successful cutoff run's dictionary is the merge of its pages, and every record it merges
      into the cutoff schema is at or above the cutoff. */
  lemma CutoffRunAbove<R>(execute: Window -> Option<Response<R>>, names: seq<string>, cutoffSchema: string,
                          cutoffOf: R -> Result<int, Exception>, cutoffValue: int, stepSize: int, ceiling: int)
    requires names != [] && stepSize >= 1
    ensures var o := CutoffRun(execute, names, cutoffSchema, cutoffOf, cutoffValue, stepSize, ceiling);
            o.result.Success? && NoDup(names) ==>
              && o.result.value.0 == Collect(o.pages, names)
              && (cutoffSchema in o.result.value.0 ==> AllAbove(o.result.value.0[cutoffSchema], cutoffOf, cutoffValue))
  {
    var classify := CutoffStepOf(execute, names, cutoffSchema, cutoffOf, cutoffValue);
    CutoffStepSound(execute, names, cutoffSchema, cutoffOf, cutoffValue, stepSize);
    var o := Drive(classify, names, stepSize, ceiling, Start());
    Finished(classify, names, stepSize, ceiling);
    if o.result.Success? && NoDup(names) && cutoffSchema in o.result.value.0 {
      forall i | 0 <= i < |o.pages| ensures cutoffSchema in o.pages[i] && AllAbove(o.pages[i][cutoffSchema], cutoffOf, cutoffValue) {
        assert classify(o.requests[i]) == Good(o.pages[i], o.sizes[i]);
      }
      FlattenAbove(o.pages, cutoffSchema, cutoffOf, cutoffValue);
    }
  }

  /**
   * `execute_pagination_with_cutoff`: `execute_pagination` where every page is cut before the first
   * record of the cutoff schema whose cutoff field is below `cutoffValue`, the cut is what the loop
   * counts, and a cut below `stepSize` ends the run.
   */
  method ExecutePaginationWithCutoff<R>(execute: Window -> Option<Response<R>>, names: seq<string>, cutoffSchema: string,
                                        cutoffOf: R -> Result<int, Exception>, cutoffValue: int,
                                        stepSize: int, ceiling: int)
    returns (o: Outcome<R>)
    requires stepSize >= 1
    ensures names == [] ==> o == Outcome(Failure(IndexError), [], [], [], 0)
    ensures names != [] ==>
              && o == CutoffRun(execute, names, cutoffSchema, cutoffOf, cutoffValue, stepSize, ceiling)
              && OutcomeRequests(stepSize, ceiling, o) && OutcomeCounts(stepSize, ceiling, o)
              && OutcomeFetched(CutoffStepOf(execute, names, cutoffSchema, cutoffOf, cutoffValue), o)
              && OutcomePaced(stepSize, o)
    ensures o.result.Success? && NoDup(names) ==> o.result.value.0 == Collect(o.pages, names)
    ensures o.result.Success? && NoDup(names) && cutoffSchema in o.result.value.0 ==>
              AllAbove(o.result.value.0[cutoffSchema], cutoffOf, cutoffValue)
  {
    if names == [] {
      return Outcome(Failure(IndexError), [], [], [], 0);
    }
    var classify := CutoffStepOf(execute, names, cutoffSchema, cutoffOf, cutoffValue);
    CutoffStepSound(execute, names, cutoffSchema, cutoffOf, cutoffValue, stepSize);
    o := Paginate(classify, names, stepSize, ceiling);
    Finished(classify, names, stepSize, ceiling);
    CutoffRunAbove(execute, names, cutoffSchema, cutoffOf, cutoffValue, stepSize, ceiling);
  }
}

=== FILE: singer_state.dfy ===
/**
 * The three Singer state helpers the streams call: `get_bookmark`, `write_bookmark` and
 * `set_currently_syncing`.  State is the decoded JSON object; bookmarks live under
 * `state["bookmarks"][stream][key]`.  Python's `.get` on a value that is not a dictionary raises
 * `AttributeError`; so does the path walk of `write_bookmark` on a `bookmarks` value that is not a
 * dictionary, while its final assignment into a stream entry that is not one raises `TypeError`.
 */
module SingerState {
  import opened Wrappers
  import opened Json
  import opened Exceptions

  /** `state.get('bookmarks', {}).get(stream, {})`: the bookmark object of one stream. */
  function StreamBookmarks(state: Object, stream: string): (r: Result<Object, Exception>)
    ensures r.Failure? ==> r.error == AttributeError
    ensures r.Success? && "bookmarks" in state && state["bookmarks"].JObj? && stream in state["bookmarks"].fields ==>
              state["bookmarks"].fields[stream] == JObj(r.value)
    ensures ("bookmarks" !in state || (state["bookmarks"].JObj? && stream !in state["bookmarks"].fields)) ==>
              r == Success(map[])
  {
    match Get(state, "bookmarks", JObj(map[]))
    case JObj(bookmarks) =>
      (match Get(bookmarks, stream, JObj(map[]))
       case JObj(entry) => Success(entry)
       case _ => Failure(AttributeError))
    case _ => Failure(AttributeError)
  }

  /** `singer.get_bookmark(state, stream, key, default)`. */
  function GetBookmark(state: Object, stream: string, key: string, default: Json): (r: Result<Json, Exception>)
    ensures r.Failure? <==> StreamBookmarks(state, stream).Failure?
    ensures r.Success? ==> r.value == Get(StreamBookmarks(state, stream).value, key, default)
  {
    var entry :- StreamBookmarks(state, stream);
    Success(Get(entry, key, default))
  }

  /** One component of the bookmark path: a missing or `None` component becomes `{}`; any other
      value that is not a dictionary fails with `error`, the exception of the next use of it. */
  function EnsureObject(parent: Object, key: string, error: Exception): (r: Result<Object, Exception>)
    ensures r.Success? <==> key !in parent || parent[key] == JNull || parent[key].JObj?
    ensures r.Success? && key in parent && parent[key].JObj? ==> r.value == parent[key].fields
    ensures r.Success? && (key !in parent || parent[key] == JNull) ==> r.value == map[]
    ensures r.Failure? ==> r.error == error
  {
    if key !in parent || parent[key] == JNull then Success(map[])
    else if parent[key].JObj? then Success(parent[key].fields)
    else Failure(error)
  }

  /** The `bookmarks` object as `ensure_bookmark_path` leaves it: its `.get(stream)` raises
      `AttributeError` on anything but a dictionary. */
  function PathBookmarks(state: Object): Result<Object, Exception> {
    EnsureObject(state, "bookmarks", AttributeError)
  }

  /** The stream's entry as `ensure_bookmark_path` leaves it: the assignment
      `state['bookmarks'][stream][key] = value` raises `TypeError` on anything but a dictionary. */
  function PathEntry(bookmarks: Object, stream: string): Result<Object, Exception> {
    EnsureObject(bookmarks, stream, TypeError)
  }

  /** `singer.write_bookmark(state, stream, key, value)`: creates the path, then sets the key.  A
      `bookmarks` value in the way raises `AttributeError`; a stream entry in the way, `TypeError`. */
  function WriteBookmark(state: Object, stream: string, key: string, value: Json): (r: Result<Object, Exception>)
    ensures PathBookmarks(state).Failure? ==> r == Failure(AttributeError)
    ensures PathBookmarks(state).Success? && PathEntry(PathBookmarks(state).value, stream).Failure? ==>
              r == Failure(TypeError)
  {
    var bookmarks :- PathBookmarks(state);
    var entry :- PathEntry(bookmarks, stream);
    Success(state["bookmarks" := JObj(bookmarks[stream := JObj(entry[key := value])])])
  }

  /** The path exists in usable shape: the write succeeds. */
  predicate Writable(state: Object, stream: string) {
    PathBookmarks(state).Success? && PathEntry(PathBookmarks(state).value, stream).Success?
  }

  /** `write_bookmark` fails exactly when a component on the path is neither absent, `None`, nor a
      dictionary; a written bookmark is read back by `get_bookmark`. */
  lemma WriteThenGet(state: Object, stream: string, key: string, value: Json, default: Json)
    ensures WriteBookmark(state, stream, key, value).Success? <==> Writable(state, stream)
    ensures WriteBookmark(state, stream, key, value).Success? ==>
              GetBookmark(WriteBookmark(state, stream, key, value).value, stream, key, default) == Success(value)
  {
  }

  /** `write_bookmark` changes nothing but the one bookmark: the other top-level keys, the other
      streams' entries and the other keys of the stream's entry keep their values (a `None` on the
      path has become `{}`). */
  lemma WriteBookmarkFrame(state: Object, stream: string, key: string, value: Json)
    requires Writable(state, stream)
    ensures var s' := WriteBookmark(state, stream, key, value).value;
            var bookmarks := PathBookmarks(state).value;
            var entry := PathEntry(bookmarks, stream).value;
            && s'.Keys == state.Keys + {"bookmarks"}
            && (forall k :: k in state && k != "bookmarks" ==> s'[k] == state[k])
            && s'["bookmarks"].JObj? && s'["bookmarks"].fields.Keys == bookmarks.Keys + {stream}
            && (forall other :: other in bookmarks && other != stream ==> s'["bookmarks"].fields[other] == bookmarks[other])
            && s'["bookmarks"].fields[stream].JObj? && s'["bookmarks"].fields[stream].fields.Keys == entry.Keys + {key}
            && (forall k :: k in entry && k != key ==> s'["bookmarks"].fields[stream].fields[k] == entry[k])
  {
  }

  /** `singer.set_currently_syncing(state, stream)`: `None` clears the marker to JSON `null`. */
  function SetCurrentlySyncing(state: Object, stream: Option<string>): (r: Object)
    ensures "currently_syncing" in r
    ensures r["currently_syncing"] == (if stream.Some? then JStr(stream.value) else JNull)
    ensures r.Keys == state.Keys + {"currently_syncing"}
    ensures forall k :: k in state && k != "currently_syncing" ==> r[k] == state[k]
  {
    state["currently_syncing" := if stream.Some? then JStr(stream.value) else JNull]
  }
}

=== FILE: streams.dfy ===
/**
 * The stream classes of the `streams.py` path: the `STREAMS` registry, the manual paging of
 * `Transcripts.get_records` (a cursor that walks `toDate` backwards and skips visited ids),
 * `Users.get_records`, the incremental and full-table `sync` loops and `generate_record_hash`.
 *
 * Datetimes are integers of milliseconds.  The GraphQL round trip is the oracle `post`, which
 * yields the decoded reply or the client's exception.
 */
module Streams {
  import opened Wrappers
  import opened Json
  import opened Exceptions
  import opened SingerState

  /** `MAX_PAGE_SIZE`: the record count at which the incremental loop would write an
      intermediate bookmark. */
  const MaxPageSize: nat := 50
  /** `FIREFLIES_MAX_NUM_OF_RECORDS`: the page size of the transcripts query. */
  const FirefliesMaxNumOfRecords: nat := 50
  /** `IncrementalStream.to_write_intermediate_bookmark`. */
  const ToWriteIntermediateBookmark: bool := false
  /** The key `generate_record_hash` adds. */
  const RecordHashKey: string := "_sdc_record_hash"

  /** The stream classes of `STREAMS`. */
  datatype Kind = Users | Transcripts

  /** The `STREAMS` dictionary. */
  function StreamOf(id: string): (k: Option<Kind>)
    ensures k == Some(Users) <==> id == "users"
    ensures k == Some(Transcripts) <==> id == "transcripts"
    ensures k.None? <==> id != "users" && id != "transcripts"
  {
    if id == "users" then Some(Users)
    else if id == "transcripts" then Some(Transcripts)
    else None
  }

  /** `tap_stream_id` of each class. */
  function StreamId(k: Kind): string {
    match k
    case Users => "users"
    case Transcripts => "transcripts"
  }

  /** The registry maps each class's own id back to it. */
  lemma RegistryRoundTrip(k: Kind)
    ensures StreamOf(StreamId(k)) == Some(k)
  {
  }

  /** `replication_key` of each class; the users stream has none (`None`, written `"null"` once the
      state is serialised). */
  function ReplicationKey(k: Kind): string {
    match k
    case Users => "null"
    case Transcripts => "date"
  }

  /** The `schema_key` of each class: the field of `data` that holds the records. */
  function SchemaKey(k: Kind): string {
    match k
    case Users => "users"
    case Transcripts => "transcripts"
  }

  /** `record.get("id")`. */
  function IdOf(r: Object): Json {
    Get(r, "id", JNull)
  }

  /** `record.get("date")`. */
  function DateOf(r: Object): Json {
    Get(r, "date", JNull)
  }

  /** The ids of a list of records. */
  function IdsOf(records: seq<Object>): set<Json> {
    set r | r in records :: IdOf(r)
  }

  /** No two records of the list share an id. */
  predicate NoDupIds(records: seq<Object>) {
    forall i, j :: 0 <= i < j < |records| ==> IdOf(records[i]) != IdOf(records[j])
  }

  /**
   * The records of one reply, `response.get(data_key).get(schema_key, [])`: a falsy `data` raises
   * `FirefliesError`; `.get` on something that is not a dictionary raises `AttributeError`, and so,
   * in this model, does a records value that is not a list of dictionaries.
   */
  function PageRecords(response: Json, schema: string): (r: Result<seq<Object>, Exception>)
    ensures response.JObj? && !Truthy(Get(response.fields, "data", JNull)) ==> r == Failure(Client(FirefliesError))
    ensures r.Failure? ==> r.error == AttributeError || r.error == Client(FirefliesError)
    ensures r.Success? ==>
              response.JObj? && var data := Get(response.fields, "data", JNull);
              && data.JObj? && data.fields != map[]
              && var records := Get(data.fields, schema, JArr([]));
              && records.JArr? && |r.value| == |records.items|
              && forall i :: 0 <= i < |r.value| ==> records.items[i] == JObj(r.value[i])
  {
    if !response.JObj? then Failure(AttributeError)
    else
      var data := Get(response.fields, "data", JNull);
      if !Truthy(data) then Failure(Client(FirefliesError))
      else if !data.JObj? then Failure(AttributeError)
      else
        var records := Get(data.fields, schema, JArr([]));
        if records.JArr? && forall i :: 0 <= i < |records.items| ==> records.items[i].JObj? then
          Success(seq(|records.items|, i requires 0 <= i < |records.items| => records.items[i].fields))
        else Failure(AttributeError)
  }

  // ---------------------------------------------------------------------------------------------
  // Transcripts.get_records
  // ---------------------------------------------------------------------------------------------

  /** The variables of one transcripts request. */
  datatype TranscriptsWindow = TranscriptsWindow(fromDate: int, toDate: int, limit: int, skip: int)

  /** What the record loop has gathered: every yielded record, the visited ids, the running low
      date of this page and whether this page yielded anything. */
  datatype Scan = Scan(emitted: seq<Object>, visited: set<Json>, low: Json, hasNew: bool)

  /** The end of the record loop over one page: all records scanned, or the exception raised at a
      record, with what had been yielded before it. */
  datatype PageEnd = Scanned(scan: Scan) | Broke(emitted: seq<Object>, error: Exception)

  /** A date as this model takes it: an integer, or absent / `None`. */
  predicate DateShaped(d: Json) {
    d.JInt? || d == JNull
  }

  /** `min(low, date)` while `low` is truthy, otherwise `date` itself: a zero low counts as unset. */
  function NextLow(low: Json, date: Json): Json {
    if !Truthy(low) then date
    else if low.JInt? && date.JInt? then JInt(if date.i < low.i then date.i else low.i)
    else JNull
  }

  /** Whether that `min` raises: `min` of an integer and `None` is a `TypeError`. */
  predicate LowFails(low: Json, date: Json) {
    Truthy(low) && !(low.JInt? && date.JInt?)
  }

  /** Whether a value can be a member of a Python `set`: lists and dictionaries are unhashable. */
  predicate Hashable(j: Json) {
    !(j.JArr? || j.JObj?)
  }

  /** The low date of a page, had it been scanned to the end from `low`. */
  function LowFrom(records: seq<Object>, low: Json): Json
    decreases |records|
  {
    if records == [] then low else LowFrom(records[1..], NextLow(low, DateOf(records[0])))
  }

  /**
   * The loop `for record in records` of one page: reads `meeting_info` (its `.get` raises
   * `AttributeError` on a non-dictionary), folds the record's date into the low, then skips a
   * visited id or yields the record and marks its id visited; testing an unhashable id against the
   * visited set raises `TypeError`.
   */
  function ScanPage(records: seq<Object>, acc: Scan): (e: PageEnd)
    ensures e.Scanned? && DateShaped(acc.low) ==> DateShaped(e.scan.low)
    decreases |records|
  {
    if records == [] then Scanned(acc)
    else
      var rec := records[0];
      if !Get(rec, "meeting_info", JObj(map[])).JObj? then Broke(acc.emitted, AttributeError)
      else if !DateShaped(DateOf(rec)) || LowFails(acc.low, DateOf(rec)) then Broke(acc.emitted, TypeError)
      else if !Hashable(IdOf(rec)) then Broke(acc.emitted, TypeError)
      else
        var low := NextLow(acc.low, DateOf(rec));
        if IdOf(rec) in acc.visited then ScanPage(records[1..], acc.(low := low))
        else ScanPage(records[1..], Scan(acc.emitted + [rec], acc.visited + {IdOf(rec)}, low, true))
  }

  /** A record the loop gets past whatever the low date: `meeting_info` absent or a dictionary, an
      integer or absent date, and a hashable id. */
  predicate ScannableRecord(rec: Object) {
    Get(rec, "meeting_info", JObj(map[])).JObj? && DateShaped(DateOf(rec)) && Hashable(IdOf(rec))
  }

  /** The yielded records and the visited set agree: each visited id was yielded exactly once. */
  ghost predicate Dedup(emitted: seq<Object>, visited: set<Json>) {
    NoDupIds(emitted) && IdsOf(emitted) == visited
  }

  /** Appending a record with an unvisited id keeps `Dedup`. */
  lemma DedupAppend(emitted: seq<Object>, visited: set<Json>, rec: Object)
    requires Dedup(emitted, visited) && IdOf(rec) !in visited
    ensures Dedup(emitted + [rec], visited + {IdOf(rec)})
  {
    var e' := emitted + [rec];
    forall i, j | 0 <= i < j < |e'| ensures IdOf(e'[i]) != IdOf(e'[j]) {
      if j == |emitted| {
        assert e'[i] in emitted;
      }
    }
    assert IdsOf(e') == IdsOf(emitted) + {IdOf(rec)} by {
      forall x ensures x in IdsOf(e') <==> x in IdsOf(emitted) + {IdOf(rec)} {
        if x in IdsOf(e') {
          var r :| r in e' && IdOf(r) == x;
          if r != rec {
            assert r in emitted;
          }
        }
        if x in IdsOf(emitted) {
          var r :| r in emitted && IdOf(r) == x;
          assert r in e';
        }
      }
    }
  }

  /** The ids of a list with one more record at its front. */
  lemma IdsOfCons(records: seq<Object>)
    requires records != []
    ensures IdsOf(records) == {IdOf(records[0])} + IdsOf(records[1..])
  {
    assert records == [records[0]] + records[1..];
    forall x ensures x in IdsOf(records) <==> x in {IdOf(records[0])} + IdsOf(records[1..]) {
      if x in IdsOf(records) {
        var r :| r in records && IdOf(r) == x;
        if r != records[0] {
          assert r in records[1..];
        }
      }
      if x in IdsOf(records[1..]) {
        var r :| r in records[1..] && IdOf(r) == x;
        assert r in records;
      }
    }
  }

  /**
   * A page scanned to the end has visited every id on it, yielded something exactly when it
   * held an unvisited id, kept the yielded records free of repeated ids, and carries the low date
   * of the whole page; every record on it had a usable `meeting_info`, date and id.  A broken scan
   * still yielded no id twice.
   */
  lemma {:induction false} ScanPageSpec(records: seq<Object>, acc: Scan)
    requires Dedup(acc.emitted, acc.visited)
    ensures var e := ScanPage(records, acc);
            && (e.Scanned? ==>
                  && e.scan.visited == acc.visited + IdsOf(records)
                  && (e.scan.hasNew <==> acc.hasNew || !(IdsOf(records) <= acc.visited))
                  && e.scan.low == LowFrom(records, acc.low)
                  && Dedup(e.scan.emitted, e.scan.visited)
                  && forall i :: 0 <= i < |records| ==> ScannableRecord(records[i]))
            && (e.Broke? ==> NoDupIds(e.emitted))
    decreases |records|
  {
    if records != [] {
      var rec := records[0];
      IdsOfCons(records);
      if Get(rec, "meeting_info", JObj(map[])).JObj? && DateShaped(DateOf(rec)) && !LowFails(acc.low, DateOf(rec))
         && Hashable(IdOf(rec)) {
        var low := NextLow(acc.low, DateOf(rec));
        if IdOf(rec) in acc.visited {
          ScanPageSpec(records[1..], acc.(low := low));
        } else {
          DedupAppend(acc.emitted, acc.visited, rec);
          ScanPageSpec(records[1..], Scan(acc.emitted + [rec], acc.visited + {IdOf(rec)}, low, true));
        }
      }
    }
  }

  /** The smallest date of a non-empty page whose dates are all integers. */
  function MinDate(records: seq<Object>): (m: int)
    requires records != [] && forall i :: 0 <= i < |records| ==> DateOf(records[i]).JInt?
    ensures exists i :: 0 <= i < |records| && DateOf(records[i]) == JInt(m)
    ensures forall i :: 0 <= i < |records| ==> m <= DateOf(records[i]).i
    decreases |records|
  {
    if |records| == 1 then DateOf(records[0]).i
    else
      var rest := MinDate(records[1..]);
      assert forall i :: 1 <= i < |records| ==> records[i] == records[1..][i - 1];
      if DateOf(records[0]).i < rest then DateOf(records[0]).i else rest
  }

  /** With positive integer dates the low of a page is its smallest date, visited records
      included. */
  lemma {:induction false} LowIsMinDate(records: seq<Object>, low: Json)
    requires records != [] && forall i :: 0 <= i < |records| ==> DateOf(records[i]).JInt? && DateOf(records[i]).i > 0
    requires low == JNull || (low.JInt? && low.i > 0)
    ensures LowFrom(records, low) == JInt(if low == JNull || MinDate(records) < low.i then MinDate(records) else low.i)
    decreases |records|
  {
    var low' := NextLow(low, DateOf(records[0]));
    if |records| > 1 {
      assert forall i :: 0 <= i < |records[1..]| ==> records[1..][i] == records[i + 1];
      LowIsMinDate(records[1..], low');
    }
  }

  /** A date of 0 is falsy, so the next record's date replaces it instead of staying the minimum. */
  lemma ZeroDateIsForgotten()
    ensures LowFrom([map["date" := JInt(0)], map["date" := JInt(7)]], JNull) == JInt(7)
  {
    var records: seq<Object> := [map["date" := JInt(0)], map["date" := JInt(7)]];
    assert records[1..] == [map["date" := JInt(7)]];
  }

  /** The ids seen on a list of pages. */
  function SeenIds(pages: seq<seq<Object>>): set<Json>
    decreases |pages|
  {
    if pages == [] then {} else SeenIds(pages[..|pages| - 1]) + IdsOf(pages[|pages| - 1])
  }

  /** The pages one after another. */
  function Concat(pages: seq<seq<Object>>): seq<Object>
    decreases |pages|
  {
    if pages == [] then [] else Concat(pages[..|pages| - 1]) + pages[|pages| - 1]
  }

  /** The records of a list whose id does not occur earlier in it, in order: the list with repeated
      ids dropped, keeping the first. */
  function FirstSeen(records: seq<Object>): seq<Object>
    decreases |records|
  {
    if records == [] then []
    else
      var init := records[..|records| - 1];
      var last := records[|records| - 1];
      FirstSeen(init) + (if IdOf(last) in IdsOf(init) then [] else [last])
  }

  /** The ids of two lists one after the other. */
  lemma IdsOfAppend(a: seq<Object>, b: seq<Object>)
    ensures IdsOf(a + b) == IdsOf(a) + IdsOf(b)
  {
    forall x ensures x in IdsOf(a + b) <==> x in IdsOf(a) + IdsOf(b) {
      if x in IdsOf(a + b) {
        var r :| r in a + b && IdOf(r) == x;
        if r in a {
          assert x in IdsOf(a);
        } else {
          assert r in b;
        }
      }
      if x in IdsOf(a) {
        var r :| r in a && IdOf(r) == x;
        assert r in a + b;
      }
      if x in IdsOf(b) {
        var r :| r in b && IdOf(r) == x;
        assert r in a + b;
      }
    }
  }

  /** The ids seen on the pages are the ids of their concatenation. */
  lemma {:induction false} SeenIdsConcat(pages: seq<seq<Object>>)
    ensures SeenIds(pages) == IdsOf(Concat(pages))
    decreases |pages|
  {
    if pages != [] {
      SeenIdsConcat(pages[..|pages| - 1]);
      IdsOfAppend(Concat(pages[..|pages| - 1]), pages[|pages| - 1]);
    }
  }

  /** `Concat` of the pages with one more appended. */
  lemma ConcatAppend(pages: seq<seq<Object>>, page: seq<Object>)
    ensures Concat(pages + [page]) == Concat(pages) + page
  {
    assert (pages + [page])[..|pages|] == pages;
  }

  /** `FirstSeen` of a list with one more record appended. */
  lemma FirstSeenAppend(records: seq<Object>, rec: Object)
    ensures FirstSeen(records + [rec]) == FirstSeen(records) + (if IdOf(rec) in IdsOf(records) then [] else [rec])
  {
    assert (records + [rec])[..|records|] == records;
  }

  /** Dropping repeated ids keeps every id and repeats none. */
  lemma {:induction false} FirstSeenIds(records: seq<Object>)
    ensures IdsOf(FirstSeen(records)) == IdsOf(records)
    ensures NoDupIds(FirstSeen(records))
    decreases |records|
  {
    if records != [] {
      var init := records[..|records| - 1];
      var last := records[|records| - 1];
      assert records == init + [last];
      FirstSeenIds(init);
      IdsOfAppend(init, [last]);
      assert IdsOf([last]) == {IdOf(last)};
      if IdOf(last) !in IdsOf(init) {
        DedupAppend(FirstSeen(init), IdsOf(init), last);
      }
    }
  }

  /** What is kept of a list is a prefix of what is kept of any longer list. */
  lemma {:induction false} FirstSeenPrefix(a: seq<Object>, b: seq<Object>)
    ensures FirstSeen(a) <= FirstSeen(a + b)
    decreases |b|
  {
    if b != [] {
      var b' := b[..|b| - 1];
      FirstSeenPrefix(a, b');
      assert a + b == (a + b') + [b[|b| - 1]];
      FirstSeenAppend(a + b', b[|b| - 1]);
      PrefixTrans(FirstSeen(a), FirstSeen(a + b'), FirstSeen(a + b));
    } else {
      assert a + b == a;
    }
  }

  lemma PrefixTrans(x: seq<Object>, y: seq<Object>, z: seq<Object>)
    requires x <= y && y <= z
    ensures x <= z
  {
    assert z[..|y|][..|x|] == z[..|x|];
  }

  /** Scanning one more record, when it is not rejected, keeps the yielded records equal to
      `FirstSeen` of the records scanned and the visited ids equal to their ids. */
  lemma ScanOneYields(prev: seq<Object>, rec: Object, acc: Scan, low: Json)
    requires acc.emitted == FirstSeen(prev) && acc.visited == IdsOf(prev)
    ensures var acc' := if IdOf(rec) in acc.visited then acc.(low := low)
                        else Scan(acc.emitted + [rec], acc.visited + {IdOf(rec)}, low, true);
            acc'.emitted == FirstSeen(prev + [rec]) && acc'.visited == IdsOf(prev + [rec])
  {
    FirstSeenAppend(prev, rec);
    IdsOfSnoc(prev, rec);
  }

  /** The ids of a list with one more record at its end. */
  lemma IdsOfSnoc(records: seq<Object>, rec: Object)
    ensures IdsOf(records + [rec]) == IdsOf(records) + {IdOf(rec)}
  {
    forall x ensures x in IdsOf(records + [rec]) <==> x in IdsOf(records) || x == IdOf(rec) {
      if x in IdsOf(records + [rec]) {
        var r :| r in records + [rec] && IdOf(r) == x;
        if r != rec {
          assert r in records;
        }
      }
      if x in IdsOf(records) {
        var r :| r in records && IdOf(r) == x;
        assert r in records + [rec];
      }
      if x == IdOf(rec) {
        assert rec in records + [rec];
      }
    }
  }

  /**
   * The scan of a page continues the deduplication of everything before it: from the records
   * `prev` already scanned, the yielded records of a completed scan are `FirstSeen(prev + records)`,
   * and those of a broken scan lie between `FirstSeen(prev)` and that.
   */
  lemma {:induction false} ScanPageYields(prev: seq<Object>, records: seq<Object>, acc: Scan)
    requires acc.emitted == FirstSeen(prev) && acc.visited == IdsOf(prev)
    ensures var e := ScanPage(records, acc);
            && (e.Scanned? ==> e.scan.emitted == FirstSeen(prev + records))
            && (e.Broke? ==> FirstSeen(prev) <= e.emitted <= FirstSeen(prev + records))
    decreases |records|
  {
    if records == [] {
      assert prev + records == prev;
    } else {
      var rec := records[0];
      FirstSeenPrefix(prev, records);
      if Get(rec, "meeting_info", JObj(map[])).JObj? && DateShaped(DateOf(rec)) && !LowFails(acc.low, DateOf(rec))
         && Hashable(IdOf(rec)) {
        var low := NextLow(acc.low, DateOf(rec));
        var prev' := prev + [rec];
        var acc' := if IdOf(rec) in acc.visited then acc.(low := low)
                    else Scan(acc.emitted + [rec], acc.visited + {IdOf(rec)}, low, true);
        assert ScanPage(records, acc) == ScanPage(records[1..], acc');
        assert prev' + records[1..] == prev + records;
        ScanOneYields(prev, rec, acc, low);
        ScanPageYields(prev', records[1..], acc');
        FirstSeenPrefix(prev, [rec]);
        var e := ScanPage(records[1..], acc');
        if e.Broke? {
          PrefixTrans(FirstSeen(prev), FirstSeen(prev'), e.emitted);
        }
      }
    }
  }

  /** Whether a page leads `get_records` to request another: a full page, a new id and a date. */
  predicate KeepsPaging(page: seq<Object>, seenBefore: set<Json>) {
    |page| >= FirefliesMaxNumOfRecords && !(IdsOf(page) <= seenBefore) && Truthy(LowFrom(page, JNull))
  }

  /** What `get_records` did: the records it yielded, the windows it requested, the pages it
      scanned to the end, and the exception that ended it, if any. */
  datatype TranscriptsRun = TranscriptsRun(emitted: seq<Object>, windows: seq<TranscriptsWindow>,
                                           pages: seq<seq<Object>>, error: Option<Exception>)

  /** Every id the server can return lies in `universe`. */
  ghost predicate IdsWithin(post: TranscriptsWindow -> Result<Json, Exception>, universe: set<Json>) {
    forall w :: post(w).Success? && PageRecords(post(w).value, "transcripts").Success? ==>
                  IdsOf(PageRecords(post(w).value, "transcripts").value) <= universe
  }

  /** The windows requested so far: all from the bookmark with `limit` 50 and `skip` 0, the first up
      to `now`, each later one up to the low date of the page before it. */
  ghost predicate WindowsWalk(bookmark: int, now: int, windows: seq<TranscriptsWindow>, pages: seq<seq<Object>>) {
    && |pages| <= |windows|
    && (forall i :: 0 <= i < |windows| ==>
          windows[i].fromDate == bookmark && windows[i].limit == FirefliesMaxNumOfRecords && windows[i].skip == 0)
    && (|windows| > 0 ==> windows[0].toDate == now)
    && (forall i :: 0 <= i < |windows| - 1 && i < |pages| ==> LowFrom(pages[i], JNull) == JInt(windows[i + 1].toDate))
  }

  /** Every page scanned so far went on paging. */
  ghost predicate AllKeptPaging(pages: seq<seq<Object>>) {
    forall i :: 0 <= i < |pages| ==> KeepsPaging(pages[i], SeenIds(pages[..i]))
  }

  /** Page `i` is the records of the reply to window `i`. */
  ghost predicate Replied(post: TranscriptsWindow -> Result<Json, Exception>, windows: seq<TranscriptsWindow>,
                          pages: seq<seq<Object>>) {
    && |pages| <= |windows|
    && forall i :: 0 <= i < |pages| ==>
         post(windows[i]).Success? && PageRecords(post(windows[i]).value, "transcripts") == Success(pages[i])
  }

  /** The records of the reply to a window, or none when the request or the reading of its records
      fails. */
  function ReadPage(post: TranscriptsWindow -> Result<Json, Exception>, window: TranscriptsWindow): seq<Object> {
    match post(window)
    case Failure(_) => []
    case Success(response) =>
      match PageRecords(response, "transcripts")
      case Failure(_) => []
      case Success(page) => page
  }

  /** The record loop's state at the start of a page, once the pages before it were scanned to the
      end: their records with repeated ids dropped, their ids, no low date and nothing new. */
  function ScanBefore(pages: seq<seq<Object>>): Scan {
    Scan(FirstSeen(Concat(pages)), SeenIds(pages), JNull, false)
  }

  /** Every page was scanned to its end: no record on it raised. */
  ghost predicate ScansComplete(pages: seq<seq<Object>>) {
    forall i :: 0 <= i < |pages| ==> ScanPage(pages[i], ScanBefore(pages[..i])).Scanned?
  }

  /** A page scanned to its end extends `ScansComplete`. */
  lemma ScansCompleteAppend(pages: seq<seq<Object>>, page: seq<Object>)
    requires ScansComplete(pages) && ScanPage(page, ScanBefore(pages)).Scanned?
    ensures ScansComplete(pages + [page])
  {
    var pages' := pages + [page];
    assert pages'[..|pages|] == pages;
    forall i | 0 <= i < |pages| ensures pages'[..i] == pages[..i] && pages'[i] == pages[i] {
    }
  }

  /** What an ended cursor yielded, against the server's replies: every scanned page is the reply to
      its window; a completed walk yielded the records of all pages with repeated ids dropped; a
      walk ended by an exception yielded at least that for the pages before the failing window and
      at most that with the failing window's records added; a failing request or reply is what
      raised, and otherwise the record loop over the failing window's page raised it. Every page
      kept was scanned to its end. */
  ghost predicate Yielded(post: TranscriptsWindow -> Result<Json, Exception>, run: TranscriptsRun) {
    && |run.windows| >= 1
    && Replied(post, run.windows, run.pages) && ScansComplete(run.pages)
    && (run.error.None? ==> run.emitted == FirstSeen(Concat(run.pages)))
    && (run.error.Some? ==>
          var last := run.windows[|run.windows| - 1];
          && FirstSeen(Concat(run.pages)) <= run.emitted <= FirstSeen(Concat(run.pages) + ReadPage(post, last))
          && (post(last).Failure? ==> run.error == Some(post(last).error))
          && (post(last).Success? && PageRecords(post(last).value, "transcripts").Failure? ==>
                run.error == Some(PageRecords(post(last).value, "transcripts").error))
          && (post(last).Success? && PageRecords(post(last).value, "transcripts").Success? ==>
                ScanPage(PageRecords(post(last).value, "transcripts").value, ScanBefore(run.pages))
                == Broke(run.emitted, run.error.value)))
  }

  /** The cursor between two requests: the window to request next, what has been yielded and
      visited, and the windows and pages so far. */
  datatype Walk = Walk(window: TranscriptsWindow, emitted: seq<Object>, visited: set<Json>,
                       windows: seq<TranscriptsWindow>, pages: seq<seq<Object>>)

  /** One request of the cursor: another request to make, or the end of `get_records`. */
  datatype Next = More(walk: Walk) | Stop(run: TranscriptsRun)

  /** The cursor before its first request. */
  function StartWalk(bookmark: int, now: int): Walk {
    Walk(TranscriptsWindow(bookmark, now, FirefliesMaxNumOfRecords, 0), [], {}, [], [])
  }

  /**
   * One pass of the `while paging` loop: request the window, scan the page, move `toDate` to the
   * page's low date when it has one, and stop after a short page, a page with nothing new or a
   * page without a date.
   */
  function Step(post: TranscriptsWindow -> Result<Json, Exception>, w: Walk): Next {
    var windows := w.windows + [w.window];
    var response := post(w.window);
    if response.Failure? then Stop(TranscriptsRun(w.emitted, windows, w.pages, Some(response.error)))
    else match PageRecords(response.value, "transcripts")
      case Failure(e) => Stop(TranscriptsRun(w.emitted, windows, w.pages, Some(e)))
      case Success(page) =>
        match ScanPage(page, Scan(w.emitted, w.visited, JNull, false))
        case Broke(emitted, e) => Stop(TranscriptsRun(emitted, windows, w.pages, Some(e)))
        case Scanned(s) =>
          var pages := w.pages + [page];
          var window := if s.low.JInt? && Truthy(s.low) then w.window.(toDate := s.low.i) else w.window;
          if |page| < FirefliesMaxNumOfRecords || !s.hasNew || !Truthy(s.low) then
            Stop(TranscriptsRun(s.emitted, windows, pages, None))
          else More(Walk(window, s.emitted, s.visited, windows, pages))
  }

  /** What the cursor keeps between requests. */
  ghost predicate WalkInv(post: TranscriptsWindow -> Result<Json, Exception>, universe: set<Json>, bookmark: int, now: int, w: Walk) {
    && Dedup(w.emitted, w.visited) && w.visited == SeenIds(w.pages) && w.visited <= universe
    && Replied(post, w.windows, w.pages) && w.emitted == FirstSeen(Concat(w.pages)) && ScansComplete(w.pages)
    && |w.windows| == |w.pages| && WindowsWalk(bookmark, now, w.windows, w.pages)
    && w.window.fromDate == bookmark && w.window.limit == FirefliesMaxNumOfRecords && w.window.skip == 0
    && (w.pages == [] ==> w.window.toDate == now)
    && (w.pages != [] ==> LowFrom(w.pages[|w.pages| - 1], JNull) == JInt(w.window.toDate))
    && AllKeptPaging(w.pages)
  }

  /** The part of `WalkInv` about the windows requested so far. */
  ghost predicate WindowsSoFar(bookmark: int, now: int, w: Walk) {
    && |w.windows| == |w.pages| && WindowsWalk(bookmark, now, w.windows, w.pages)
    && w.window.fromDate == bookmark && w.window.limit == FirefliesMaxNumOfRecords && w.window.skip == 0
    && (w.pages == [] ==> w.window.toDate == now)
    && (w.pages != [] ==> LowFrom(w.pages[|w.pages| - 1], JNull) == JInt(w.window.toDate))
  }

  /** What `get_records` promises once it has ended. */
  ghost predicate RunFacts(post: TranscriptsWindow -> Result<Json, Exception>, bookmark: int, now: int, run: TranscriptsRun) {
    && NoDupIds(run.emitted) && Yielded(post, run)
    && WindowsWalk(bookmark, now, run.windows, run.pages) && |run.windows| >= 1
    && (run.error.None? ==> |run.pages| == |run.windows| && IdsOf(run.emitted) == SeenIds(run.pages))
    && (run.error.None? ==>
          AllKeptPaging(run.pages[..|run.pages| - 1])
          && !KeepsPaging(run.pages[|run.pages| - 1], SeenIds(run.pages[..|run.pages| - 1])))
    && (run.error.Some? ==> |run.pages| == |run.windows| - 1 && AllKeptPaging(run.pages))
    && (var w := run.windows[|run.windows| - 1];
        (|run.pages| < |run.windows| && post(w).Success? && post(w).value.JObj?
         && !Truthy(Get(post(w).value.fields, "data", JNull))) ==> run.error == Some(Client(FirefliesError)))
  }

  /** `SeenIds` of the pages with one more appended. */
  lemma SeenIdsAppend(pages: seq<seq<Object>>, page: seq<Object>)
    ensures SeenIds(pages + [page]) == SeenIds(pages) + IdsOf(page)
    ensures (pages + [page])[..|pages|] == pages
  {
    assert (pages + [page])[..|pages|] == pages;
  }

  /** Requesting the next window extends the walk. */
  lemma WindowsAppendWindow(bookmark: int, now: int, windows: seq<TranscriptsWindow>, pages: seq<seq<Object>>, window: TranscriptsWindow)
    requires WindowsWalk(bookmark, now, windows, pages) && |pages| == |windows|
    requires window.fromDate == bookmark && window.limit == FirefliesMaxNumOfRecords && window.skip == 0
    requires pages == [] ==> window.toDate == now
    requires pages != [] ==> LowFrom(pages[|pages| - 1], JNull) == JInt(window.toDate)
    ensures WindowsWalk(bookmark, now, windows + [window], pages)
  {
    var windows' := windows + [window];
    assert forall i :: 0 <= i < |windows| ==> windows'[i] == windows[i];
  }

  /** Scanning the page of the last window extends the walk. */
  lemma WindowsAppendPage(bookmark: int, now: int, windows: seq<TranscriptsWindow>, pages: seq<seq<Object>>, page: seq<Object>)
    requires WindowsWalk(bookmark, now, windows, pages) && |pages| == |windows| - 1
    ensures WindowsWalk(bookmark, now, windows, pages + [page])
  {
    var pages' := pages + [page];
    assert forall i :: 0 <= i < |pages| ==> pages'[i] == pages[i];
  }

  /** After a request the windows are still a backward walk from `now` through the pages' low
      dates, and the next window ends at the low date of the page just scanned. */
  lemma StepWindowsMore(post: TranscriptsWindow -> Result<Json, Exception>, bookmark: int, now: int, w: Walk)
    requires Dedup(w.emitted, w.visited) && WindowsSoFar(bookmark, now, w)
    ensures Step(post, w).More? ==>
              var w' := Step(post, w).walk;
              && |w'.windows| == |w'.pages| && WindowsWalk(bookmark, now, w'.windows, w'.pages)
              && w'.window.fromDate == bookmark && w'.window.limit == FirefliesMaxNumOfRecords && w'.window.skip == 0
              && w'.pages != [] && LowFrom(w'.pages[|w'.pages| - 1], JNull) == JInt(w'.window.toDate)
  {
    var windows := w.windows + [w.window];
    WindowsAppendWindow(bookmark, now, w.windows, w.pages, w.window);
    var response := post(w.window);
    if response.Success? && PageRecords(response.value, "transcripts").Success? {
      var page := PageRecords(response.value, "transcripts").value;
      ScanPageSpec(page, Scan(w.emitted, w.visited, JNull, false));
      WindowsAppendPage(bookmark, now, windows, w.pages, page);
    }
  }

  /** The windows of an ended walk are a backward walk from `now`; every window's page was scanned
      unless an exception ended the walk at the last one. */
  lemma StepWindowsStop(post: TranscriptsWindow -> Result<Json, Exception>, bookmark: int, now: int, w: Walk)
    requires Dedup(w.emitted, w.visited) && WindowsSoFar(bookmark, now, w)
    ensures Step(post, w).Stop? ==>
              var run := Step(post, w).run;
              && WindowsWalk(bookmark, now, run.windows, run.pages) && |run.windows| >= 1
              && (run.error.None? ==> |run.pages| == |run.windows|)
              && (run.error.Some? ==> |run.pages| == |run.windows| - 1)
  {
    var windows := w.windows + [w.window];
    WindowsAppendWindow(bookmark, now, w.windows, w.pages, w.window);
    var response := post(w.window);
    if response.Success? && PageRecords(response.value, "transcripts").Success? {
      var page := PageRecords(response.value, "transcripts").value;
      ScanPageSpec(page, Scan(w.emitted, w.visited, JNull, false));
      WindowsAppendPage(bookmark, now, windows, w.pages, page);
    }
  }

  /** Yielded records and visited ids stay in step, within `universe`, and a further request is
      made only after the visited set grew. */
  lemma StepDedup(post: TranscriptsWindow -> Result<Json, Exception>, universe: set<Json>, bookmark: int, now: int, w: Walk)
    requires IdsWithin(post, universe) && WalkInv(post, universe, bookmark, now, w)
    ensures Step(post, w).More? ==>
              var w' := Step(post, w).walk;
              && Dedup(w'.emitted, w'.visited) && w'.visited == SeenIds(w'.pages) && w'.visited <= universe
              && w.visited < w'.visited
    ensures Step(post, w).Stop? ==>
              var run := Step(post, w).run;
              && NoDupIds(run.emitted)
              && (run.error.None? ==> IdsOf(run.emitted) == SeenIds(run.pages))
  {
    var response := post(w.window);
    if response.Success? && PageRecords(response.value, "transcripts").Success? {
      var page := PageRecords(response.value, "transcripts").value;
      ScanPageSpec(page, Scan(w.emitted, w.visited, JNull, false));
      SeenIdsAppend(w.pages, page);
      assert IdsOf(page) <= universe;
    }
  }

  /** A page that keeps paging extends a run of such pages. */
  lemma KeptPagingAppend(pages: seq<seq<Object>>, page: seq<Object>)
    requires AllKeptPaging(pages) && KeepsPaging(page, SeenIds(pages))
    ensures AllKeptPaging(pages + [page])
  {
    var pages' := pages + [page];
    assert pages'[..|pages|] == pages;
    forall i | 0 <= i < |pages| ensures pages'[..i] == pages[..i] && pages'[i] == pages[i] {
    }
  }

  /** Every page but the last kept paging, and the last did not unless an exception ended the walk. */
  lemma StepPaging(post: TranscriptsWindow -> Result<Json, Exception>, w: Walk)
    requires Dedup(w.emitted, w.visited) && w.visited == SeenIds(w.pages) && AllKeptPaging(w.pages)
    ensures Step(post, w).More? ==> AllKeptPaging(Step(post, w).walk.pages)
    ensures Step(post, w).Stop? ==>
              var run := Step(post, w).run;
              && (run.error.None? ==>
                    run.pages != []
                    && AllKeptPaging(run.pages[..|run.pages| - 1])
                    && !KeepsPaging(run.pages[|run.pages| - 1], SeenIds(run.pages[..|run.pages| - 1])))
              && (run.error.Some? ==> AllKeptPaging(run.pages))
  {
    var response := post(w.window);
    if response.Success? && PageRecords(response.value, "transcripts").Success? {
      var page := PageRecords(response.value, "transcripts").value;
      ScanPageSpec(page, Scan(w.emitted, w.visited, JNull, false));
      var e := ScanPage(page, Scan(w.emitted, w.visited, JNull, false));
      if e.Scanned? {
        SeenIdsAppend(w.pages, page);
        assert KeepsPaging(page, w.visited) <==> !(|page| < FirefliesMaxNumOfRecords || !e.scan.hasNew || !Truthy(e.scan.low));
        if KeepsPaging(page, w.visited) {
          KeptPagingAppend(w.pages, page);
        }
      }
    }
  }

  /** A reply whose `data` is falsy ends the walk with `FirefliesError`. */
  lemma StepFirefliesError(post: TranscriptsWindow -> Result<Json, Exception>, w: Walk)
    ensures Step(post, w).Stop? ==>
              var run := Step(post, w).run;
              var last := run.windows[|run.windows| - 1];
              (|run.pages| < |run.windows| && post(last).Success? && post(last).value.JObj?
               && !Truthy(Get(post(last).value.fields, "data", JNull))) ==> run.error == Some(Client(FirefliesError))
  {
  }

  /** Window `i` still has page `i` as its reply once another window is requested. */
  lemma RepliedAppendWindow(post: TranscriptsWindow -> Result<Json, Exception>, windows: seq<TranscriptsWindow>,
                            pages: seq<seq<Object>>, window: TranscriptsWindow)
    requires Replied(post, windows, pages)
    ensures Replied(post, windows + [window], pages)
  {
    assert forall i :: 0 <= i < |windows| ==> (windows + [window])[i] == windows[i];
  }

  /** The page of the last window, once read, extends the replies. */
  lemma RepliedAppendPage(post: TranscriptsWindow -> Result<Json, Exception>, windows: seq<TranscriptsWindow>,
                          pages: seq<seq<Object>>, page: seq<Object>)
    requires Replied(post, windows, pages) && |pages| == |windows| - 1
    requires post(windows[|pages|]).Success? && PageRecords(post(windows[|pages|]).value, "transcripts") == Success(page)
    ensures Replied(post, windows, pages + [page])
  {
    assert forall i :: 0 <= i < |pages| ==> (pages + [page])[i] == pages[i];
  }

  /** What the cursor knows of the replies between requests. */
  ghost predicate RepliedSoFar(post: TranscriptsWindow -> Result<Json, Exception>, w: Walk) {
    && Replied(post, w.windows, w.pages) && |w.windows| == |w.pages|
    && w.emitted == FirstSeen(Concat(w.pages)) && w.visited == SeenIds(w.pages) && ScansComplete(w.pages)
  }

  /** A request whose page is read and scanned to the end extends the replies, and the yielded
      records become `FirstSeen` of all pages. */
  lemma StepYieldsScanned(post: TranscriptsWindow -> Result<Json, Exception>, w: Walk)
    requires RepliedSoFar(post, w)
    requires post(w.window).Success? && PageRecords(post(w.window).value, "transcripts").Success?
    ensures var page := PageRecords(post(w.window).value, "transcripts").value;
            var e := ScanPage(page, Scan(w.emitted, w.visited, JNull, false));
            && Replied(post, w.windows + [w.window], w.pages + [page])
            && (e.Scanned? ==> e.scan.emitted == FirstSeen(Concat(w.pages + [page])))
            && (e.Broke? ==> FirstSeen(Concat(w.pages)) <= e.emitted <= FirstSeen(Concat(w.pages) + ReadPage(post, w.window)))
  {
    var page := PageRecords(post(w.window).value, "transcripts").value;
    RepliedAppendWindow(post, w.windows, w.pages, w.window);
    SeenIdsConcat(w.pages);
    ScanPageYields(Concat(w.pages), page, Scan(w.emitted, w.visited, JNull, false));
    ConcatAppend(w.pages, page);
    RepliedAppendPage(post, w.windows + [w.window], w.pages, page);
  }

  /** Each page is the reply to its window, and the yielded records are the pages' records with
      repeated ids dropped, up to the record at which an exception ended the walk. */
  lemma StepYields(post: TranscriptsWindow -> Result<Json, Exception>, w: Walk)
    requires RepliedSoFar(post, w)
    ensures Step(post, w).More? ==>
              var w' := Step(post, w).walk;
              Replied(post, w'.windows, w'.pages) && w'.emitted == FirstSeen(Concat(w'.pages)) && ScansComplete(w'.pages)
    ensures Step(post, w).Stop? ==> Yielded(post, Step(post, w).run)
  {
    var response := post(w.window);
    if response.Success? && PageRecords(response.value, "transcripts").Success? {
      StepYieldsScanned(post, w);
      var page := PageRecords(response.value, "transcripts").value;
      assert Scan(w.emitted, w.visited, JNull, false) == ScanBefore(w.pages);
      if ScanPage(page, ScanBefore(w.pages)).Scanned? {
        ScansCompleteAppend(w.pages, page);
      }
    } else {
      RepliedAppendWindow(post, w.windows, w.pages, w.window);
      assert Concat(w.pages) + ReadPage(post, w.window) == Concat(w.pages);
    }
  }

  /** Visiting more of `universe` leaves fewer of its ids unvisited. */
  lemma FewerUnvisited(universe: set<Json>, before: set<Json>, after: set<Json>)
    requires before < after && after <= universe
    ensures |universe - after| < |universe - before|
  {
    var x :| x in after && x !in before;
    var gained := after - before;
    assert universe - before == (universe - after) + gained;
    assert (universe - after) * gained == {};
    assert x in gained;
  }

  /** One request keeps the cursor's invariant and shrinks the unvisited part of `universe`, or
      ends the walk with everything `get_records` promises. */
  lemma StepKeeps(post: TranscriptsWindow -> Result<Json, Exception>, universe: set<Json>, bookmark: int, now: int, w: Walk)
    requires IdsWithin(post, universe) && WalkInv(post, universe, bookmark, now, w)
    ensures Step(post, w).More? ==>
              WalkInv(post, universe, bookmark, now, Step(post, w).walk)
              && |universe - Step(post, w).walk.visited| < |universe - w.visited|
    ensures Step(post, w).Stop? ==> RunFacts(post, bookmark, now, Step(post, w).run)
  {
    StepWindowsMore(post, bookmark, now, w);
    StepWindowsStop(post, bookmark, now, w);
    StepDedup(post, universe, bookmark, now, w);
    StepPaging(post, w);
    StepFirefliesError(post, w);
    StepYields(post, w);
    if Step(post, w).More? {
      FewerUnvisited(universe, w.visited, Step(post, w).walk.visited);
    }
  }

  /**
   * `Transcripts.get_records`: requests from `fromDate` = `bookmark` to `toDate` = `now`, 50 at a
   * time with `skip` 0, yields every record whose id it has not yet seen, and moves `toDate` back
   * to the earliest date of the page; it stops after a short page, a page with no new id or a page
   * without a date.  `universe` bounds the ids the server can return, which makes the walk finite.
   */
  method GetRecords(post: TranscriptsWindow -> Result<Json, Exception>, bookmark: int, now: int, ghost universe: set<Json>)
    returns (run: TranscriptsRun)
    requires IdsWithin(post, universe)
    ensures RunFacts(post, bookmark, now, run)
  {
    var w := StartWalk(bookmark, now);
    while true
      invariant WalkInv(post, universe, bookmark, now, w)
      decreases |universe - w.visited|
    {
      StepKeeps(post, universe, bookmark, now, w);
      match Step(post, w)
      case Stop(r) =>
        return r;
      case More(w') =>
        w := w';
    }
  }

  // ---------------------------------------------------------------------------------------------
  // Users.get_records and the sync loops
  // ---------------------------------------------------------------------------------------------

  /** `Users.get_records`: one request; the records under `data.users`. */
  function UsersGetRecords(response: Result<Json, Exception>): (r: Result<seq<Object>, Exception>)
    ensures response.Failure? ==> r == Failure(response.error)
    ensures response.Success? ==> r == PageRecords(response.value, "users")
  {
    var json :- response;
    PageRecords(json, "users")
  }

  /** What a stream's `sync` did: the records it wrote, then the state it returned or the
      exception that escaped it. */
  datatype SyncOutcome = SyncOutcome(written: seq<Object>, result: Result<Object, Exception>)

  /** `FullTableStream.sync` for the users stream: writes every record and returns the state as it
      was given. */
  function FullTableSync(state: Object, response: Result<Json, Exception>): (o: SyncOutcome)
    ensures UsersGetRecords(response).Success? ==> o == SyncOutcome(UsersGetRecords(response).value, Success(state))
    ensures UsersGetRecords(response).Failure? ==> o == SyncOutcome([], Failure(UsersGetRecords(response).error))
  {
    match UsersGetRecords(response)
    case Success(records) => SyncOutcome(records, Success(state))
    case Failure(e) => SyncOutcome([], Failure(e))
  }

  /** The records of a list dated at or after `bookmark`, in order: what incremental sync writes. */
  function AtOrAfter(records: seq<Object>, bookmark: int): seq<Object>
    requires forall i :: 0 <= i < |records| ==> DateOf(records[i]).JInt?
    decreases |records|
  {
    if records == [] then []
    else (if DateOf(records[0]).i >= bookmark then [records[0]] else []) + AtOrAfter(records[1..], bookmark)
  }

  /** The record loop of `IncrementalStream.sync`, from the running maximum `max`. */
  datatype Emission = Emission(written: seq<Object>, max: int, error: Option<Exception>)

  /**
   * For each record: `record[replication_key]` (a `KeyError` when absent, a `TypeError` when
   * `None`), written when at or after the starting bookmark, which also moves the maximum.
   */
  function Emit(records: seq<Object>, bookmark: int, max: int): (e: Emission)
    decreases |records|
  {
    if records == [] then Emission([], max, None)
    else if "date" !in records[0] then Emission([], max, Some(KeyError("date")))
    else if !records[0]["date"].JInt? then Emission([], max, Some(TypeError))
    else
      var d := records[0]["date"].i;
      var rest := Emit(records[1..], bookmark, if d >= bookmark && d > max then d else max);
      Emission((if d >= bookmark then [records[0]] else []) + rest.written, rest.max, rest.error)
  }

  /** The dates of records that all have one. */
  predicate AllDated(records: seq<Object>) {
    forall i :: 0 <= i < |records| ==> DateOf(records[i]).JInt?
  }

  /** The position of the first record without an integer date. */
  function FirstUndated(records: seq<Object>): (k: nat)
    requires !AllDated(records)
    ensures k < |records| && !DateOf(records[k]).JInt? && AllDated(records[..k])
    decreases |records|
  {
    if !DateOf(records[0]).JInt? then 0
    else
      assert !AllDated(records[1..]) by {
        var i :| 0 <= i < |records| && !DateOf(records[i]).JInt?;
        assert records[1..][i - 1] == records[i];
      }
      var k := FirstUndated(records[1..]);
      1 + k
  }

  /** A record without an integer date stops the loop: what was written is what the records before
      the first such record give, and the exception is `KeyError('date')` for a missing date and
      `TypeError` for one that is not an integer. */
  lemma {:induction false} EmitUndated(records: seq<Object>, bookmark: int, max: int)
    requires !AllDated(records)
    ensures var k := FirstUndated(records);
            var e := Emit(records, bookmark, max);
            && e.written == AtOrAfter(records[..k], bookmark)
            && e.error == Some(if "date" in records[k] then TypeError else KeyError("date"))
    decreases |records|
  {
    if DateOf(records[0]).JInt? {
      var d := records[0]["date"].i;
      var k := FirstUndated(records);
      var rest := records[1..];
      EmitUndated(rest, bookmark, if d >= bookmark && d > max then d else max);
      assert records[..k][1..] == rest[..k - 1];
      assert records[k] == rest[k - 1];
    }
  }

  /** Without error, which happens exactly when every record carries an integer date, the loop
      writes exactly the records at or after the bookmark. */
  lemma {:induction false} EmitWritten(records: seq<Object>, bookmark: int, max: int)
    ensures var e := Emit(records, bookmark, max);
            && (e.error.None? <==> AllDated(records))
            && (e.error.None? ==> e.written == AtOrAfter(records, bookmark))
    decreases |records|
  {
    if records != [] && "date" in records[0] && records[0]["date"].JInt? {
      var d := records[0]["date"].i;
      EmitWritten(records[1..], bookmark, if d >= bookmark && d > max then d else max);
      assert AllDated(records) <==> AllDated(records[1..]) by {
        assert forall i :: 1 <= i < |records| ==> records[i] == records[1..][i - 1];
      }
    } else if records != [] {
      assert !DateOf(records[0]).JInt?;
    }
  }

  /** The final maximum is never below the starting one, never below a written date, and is either
      the starting one or a written date. */
  lemma {:induction false} EmitMax(records: seq<Object>, bookmark: int, max: int)
    ensures var e := Emit(records, bookmark, max);
            && e.max >= max
            && (forall r :: r in e.written ==> DateOf(r).JInt? && DateOf(r).i <= e.max)
            && (e.max == max || exists r :: r in e.written && DateOf(r) == JInt(e.max))
    decreases |records|
  {
    if records != [] && "date" in records[0] && records[0]["date"].JInt? {
      var d := records[0]["date"].i;
      var max' := if d >= bookmark && d > max then d else max;
      EmitMax(records[1..], bookmark, max');
      var rest := Emit(records[1..], bookmark, max');
      var e := Emit(records, bookmark, max);
      var head: seq<Object> := if d >= bookmark then [records[0]] else [];
      assert e.written == head + rest.written;
      if e.max != max && e.max == max' {
        assert records[0] in e.written;
      }
    }
  }

  /** `write_intermediate_bookmark`: with the flag off, the state is left as it is. */
  function WriteIntermediateBookmark(state: Object, bookmarkValue: Json): (r: Object)
    ensures !ToWriteIntermediateBookmark ==> r == state
  {
    if !ToWriteIntermediateBookmark then state
    else match WriteBookmark(state, "transcripts", "date", bookmarkValue)
      case Success(s) => s
      case Failure(_) => state
  }

  /**
   * `singer.utils.strptime_to_utc` on a stored bookmark, in milliseconds: a string goes through
   * `parseDate`, whose `None` stands for the `ValueError` of an unparsable string; `dateutil`
   * rejects any other value with `TypeError`.
   */
  function BookmarkDate(bookmark: Json, parseDate: string -> Option<int>): (r: Result<int, Exception>)
    ensures r.Success? <==> bookmark.JStr? && parseDate(bookmark.s).Some?
    ensures r.Failure? ==> r.error == (if bookmark.JStr? then ValueError else TypeError)
  {
    if !bookmark.JStr? then Failure(TypeError)
    else match parseDate(bookmark.s)
      case None => Failure(ValueError)
      case Some(d) => Success(d)
  }

  /**
   * What the record loop and the final write of `IncrementalStream.sync` do with the records
   * `get_records` yielded from the parsed bookmark `d`, `error` being the exception that ended
   * `get_records`: only yielded records dated at or after `d` are written; with every record dated,
   * exactly those, and an exception of `get_records` surfaces after them; otherwise the first
   * record without an integer date raises `KeyError('date')` or `TypeError`, after the records
   * before it; with every record dated and `get_records` finished, the outcome is the write of the
   * formatted maximum of `d` and the written dates, and nothing else succeeds.
   */
  ghost predicate SyncedRecords(state: Object, d: int, emitted: seq<Object>, error: Option<Exception>,
                                formatDate: int -> string, o: SyncOutcome) {
    && (forall r :: r in o.written ==> r in emitted && DateOf(r).JInt? && DateOf(r).i >= d)
    && (AllDated(emitted) ==> o.written == AtOrAfter(emitted, d))
    && (AllDated(emitted) && error.Some? ==> o.result == Failure(error.value))
    && (!AllDated(emitted) ==>
          var k := FirstUndated(emitted);
          && o.written == AtOrAfter(emitted[..k], d)
          && o.result == Failure(if "date" in emitted[k] then TypeError else KeyError("date")))
    && (o.result.Success? ==> AllDated(emitted) && error.None?)
    && (AllDated(emitted) && error.None? ==>
          exists m: int :: BookmarkMax(o.written, d, m)
                           && o.result == WriteBookmark(state, "transcripts", "date", JStr(formatDate(m))))
  }

  /** `m` is the maximum of the bookmark `d` and the dates of the written records. */
  ghost predicate BookmarkMax(written: seq<Object>, d: int, m: int) {
    && m >= d
    && (forall r :: r in written ==> DateOf(r).JInt? && DateOf(r).i <= m)
    && (m == d || exists r :: r in written && DateOf(r) == JInt(m))
  }

  /** That maximum is one number. */
  lemma BookmarkMaxUnique(written: seq<Object>, d: int, m1: int, m2: int)
    requires BookmarkMax(written, d, m1) && BookmarkMax(written, d, m2)
    ensures m1 == m2
  {
    if m1 != d {
      var r :| r in written && DateOf(r) == JInt(m1);
    }
    if m2 != d {
      var r :| r in written && DateOf(r) == JInt(m2);
    }
  }

  /** The record loop and the final write are determined by what `get_records` yielded and how it
      ended: `SyncedRecords` admits one outcome. */
  lemma SyncedRecordsUnique(state: Object, d: int, emitted: seq<Object>, error: Option<Exception>,
                            formatDate: int -> string, o1: SyncOutcome, o2: SyncOutcome)
    requires SyncedRecords(state, d, emitted, error, formatDate, o1)
    requires SyncedRecords(state, d, emitted, error, formatDate, o2)
    ensures o1 == o2
  {
    if AllDated(emitted) && error.None? {
      var m1: int :| BookmarkMax(o1.written, d, m1)
                     && o1.result == WriteBookmark(state, "transcripts", "date", JStr(formatDate(m1)));
      var m2: int :| BookmarkMax(o2.written, d, m2)
                     && o2.result == WriteBookmark(state, "transcripts", "date", JStr(formatDate(m2)));
      BookmarkMaxUnique(o1.written, d, m1, m2);
    }
  }

  /** The record loop and the final write of `IncrementalStream.sync` over what `get_records`
      yielded. */
  function SyncRecords(state: Object, d: int, emitted: seq<Object>, error: Option<Exception>,
                       formatDate: int -> string): (o: SyncOutcome)
    ensures SyncedRecords(state, d, emitted, error, formatDate, o)
  {
    var e := Emit(emitted, d, d);
    EmitWritten(emitted, d, d);
    EmitMax(emitted, d, d);
    WrittenFromEmitted(emitted, d, d);
    if !AllDated(emitted) then
      EmitUndated(emitted, d, d);
      SyncOutcome(e.written, Failure(e.error.value))
    else if error.Some? then SyncOutcome(e.written, Failure(error.value))
    else
      var state' := WriteIntermediateBookmark(state, JStr(formatDate(e.max)));
      SyncOutcome(e.written, WriteBookmark(state', "transcripts", "date", JStr(formatDate(e.max))))
  }

  /** What `IncrementalStream.sync` does from `state`, given the run of `get_records` it made:
      `AttributeError` on an unreadable state, the parse error on an unparsable bookmark, and
      otherwise that run from the parsed bookmark and the record loop over it. */
  ghost predicate IncrementallySynced(state: Object, startDate: string, now: int, parseDate: string -> Option<int>,
                                      formatDate: int -> string, post: TranscriptsWindow -> Result<Json, Exception>,
                                      o: SyncOutcome, run: TranscriptsRun) {
    var b := GetBookmark(state, "transcripts", "date", JStr(startDate));
    && (b.Failure? ==> o == SyncOutcome([], Failure(AttributeError)))
    && (b.Success? && BookmarkDate(b.value, parseDate).Failure? ==>
          o == SyncOutcome([], Failure(BookmarkDate(b.value, parseDate).error)))
    && (b.Success? && BookmarkDate(b.value, parseDate).Success? ==>
          var d := BookmarkDate(b.value, parseDate).value;
          RunFacts(post, d, now, run) && SyncedRecords(state, d, run.emitted, run.error, formatDate, o))
  }

  /**
   * `IncrementalStream.sync` for the transcripts stream: the bookmark defaults to the configured
   * start date and is parsed with `parseDate`; the records come from `get_records` from that date;
   * the final bookmark, the maximum of the start date and the written dates, is formatted with
   * `formatDate` (`singer.utils.strftime`) and written back under `date`.
   */
  method IncrementalSync(state: Object, startDate: string, now: int,
                         parseDate: string -> Option<int>, formatDate: int -> string,
                         post: TranscriptsWindow -> Result<Json, Exception>, ghost universe: set<Json>)
    returns (o: SyncOutcome, run: TranscriptsRun)
    requires IdsWithin(post, universe)
    ensures GetBookmark(state, "transcripts", "date", JStr(startDate)).Failure? ==>
              o == SyncOutcome([], Failure(AttributeError))
    ensures var b := GetBookmark(state, "transcripts", "date", JStr(startDate));
            b.Success? && BookmarkDate(b.value, parseDate).Failure? ==>
              o == SyncOutcome([], Failure(BookmarkDate(b.value, parseDate).error))
    ensures var b := GetBookmark(state, "transcripts", "date", JStr(startDate));
            b.Success? && BookmarkDate(b.value, parseDate).Success? ==>
              var d := BookmarkDate(b.value, parseDate).value;
              RunFacts(post, d, now, run) && SyncedRecords(state, d, run.emitted, run.error, formatDate, o)
    ensures o.result.Success? ==>
              var b := GetBookmark(state, "transcripts", "date", JStr(startDate));
              b.Success? && BookmarkDate(b.value, parseDate).Success? && run.error.None?
    ensures IncrementallySynced(state, startDate, now, parseDate, formatDate, post, o, run)
  {
    run := TranscriptsRun([], [], [], None);
    var bookmark := GetBookmark(state, "transcripts", "date", JStr(startDate));
    if bookmark.Failure? {
      return SyncOutcome([], Failure(bookmark.error)), run;
    }
    var date := BookmarkDate(bookmark.value, parseDate);
    if date.Failure? {
      return SyncOutcome([], Failure(date.error)), run;
    }
    var d := date.value;
    run := GetRecords(post, d, now, universe);
    o := SyncRecords(state, d, run.emitted, run.error, formatDate);
  }

  /** Every written record is one of the records, dated at or after the bookmark. */
  lemma {:induction false} WrittenFromEmitted(records: seq<Object>, bookmark: int, max: int)
    ensures var e := Emit(records, bookmark, max);
            forall r :: r in e.written ==> r in records && DateOf(r).JInt? && DateOf(r).i >= bookmark
    decreases |records|
  {
    if records != [] && "date" in records[0] && records[0]["date"].JInt? {
      var d := records[0]["date"].i;
      var max' := if d >= bookmark && d > max then d else max;
      WrittenFromEmitted(records[1..], bookmark, max');
      var rest := Emit(records[1..], bookmark, max');
      var head: seq<Object> := if d >= bookmark then [records[0]] else [];
      assert Emit(records, bookmark, max).written == head + rest.written;
      forall r | r in rest.written ensures r in records {
        assert r in records[1..];
      }
    }
  }

  // ---------------------------------------------------------------------------------------------
  // generate_record_hash
  // ---------------------------------------------------------------------------------------------

  /** The string hashed: `str(record.get(key, ''))` for each key in order; `show` is `str`. */
  function HashInput(record: Object, fields: seq<string>, show: Json -> string): string
    decreases |fields|
  {
    if fields == [] then ""
    else HashInput(record, fields[..|fields| - 1], show)
         + (if fields[|fields| - 1] in record then show(record[fields[|fields| - 1]]) else "")
  }

  /** The hashed string of a concatenation of key lists is the concatenation of their strings. */
  lemma {:induction false} HashInputAppend(record: Object, f1: seq<string>, f2: seq<string>, show: Json -> string)
    ensures HashInput(record, f1 + f2, show) == HashInput(record, f1, show) + HashInput(record, f2, show)
    decreases |f2|
  {
    if f2 == [] {
      assert f1 + f2 == f1;
    } else {
      var init := f2[..|f2| - 1];
      HashInputAppend(record, f1, init, show);
      assert (f1 + f2)[..|f1 + f2| - 1] == f1 + init;
      assert (f1 + f2)[|f1 + f2| - 1] == f2[|f2| - 1];
    }
  }

  /** A key the record lacks adds nothing to the hashed string. */
  lemma HashInputSkipsMissing(record: Object, fields: seq<string>, key: string, show: Json -> string)
    requires key !in record
    ensures HashInput(record, fields + [key], show) == HashInput(record, fields, show)
  {
    assert (fields + [key])[..|fields|] == fields;
  }

  /** `generate_record_hash`: the record with `_sdc_record_hash` set to the digest of the hashed
      string; `sha` is the hex SHA-256 of its UTF-8 encoding. */
  function GenerateRecordHash(record: Object, fields: seq<string>, show: Json -> string, sha: string -> string): (r: Object)
    ensures r.Keys == record.Keys + {RecordHashKey}
    ensures r[RecordHashKey] == JStr(sha(HashInput(record, fields, show)))
    ensures forall k :: k in record && k != RecordHashKey ==> r[k] == record[k]
  {
    record[RecordHashKey := JStr(sha(HashInput(record, fields, show)))]
  }
}

=== FILE: sync.dfy ===
/**
 * The legacy sync driver of `sync.py`: `translate_state`, which rewrites bookmarks of the old
 * format, `get_streams_to_sync`, and `sync`, which runs each selected stream with the
 * `currently_syncing` marker set around it.
 *
 * The order in which Python iterates the bookmarks dictionary is the parameter `order`; it matters
 * only for which of several unknown streams is reported.
 */
module Sync {
  import opened Wrappers
  import opened Json
  import opened Exceptions
  import opened SingerState
  import opened Streams
  import opened Client

  /** `STREAMS[stream].replication_key`: a `KeyError` for a stream the registry lacks. */
  function ReplicationKeyOf(stream: string): (r: Result<string, Exception>)
    ensures r.Failure? <==> StreamOf(stream).None?
    ensures r.Failure? ==> r.error == KeyError(stream)
    ensures r.Success? ==> r.value == ReplicationKey(StreamOf(stream).value)
  {
    match StreamOf(stream)
    case None => Failure(KeyError(stream))
    case Some(k) => Success(ReplicationKey(k))
  }

  /** `order` lists the keys of `bookmarks`, each once: an iteration order of the dictionary. */
  ghost predicate IsKeyOrder(order: seq<string>, bookmarks: Object) {
    (forall i, j :: 0 <= i < j < |order| ==> order[i] != order[j])
    && (forall k :: k in bookmarks <==> k in order)
  }

  /** A bookmark in the old format: a bare string. */
  predicate Legacy(bookmark: Json) {
    bookmark.JStr?
  }

  /** The new-format bookmark of one stream: a bare string is wrapped under the stream's
      replication key. */
  function TranslateEntry(bookmarks: Object, stream: string): (r: Result<Object, Exception>)
    requires stream in bookmarks
  {
    if !Legacy(bookmarks[stream]) then Success(bookmarks)
    else
      var key :- ReplicationKeyOf(stream);
      Success(bookmarks[stream := JObj(map[key := bookmarks[stream]])])
  }

  /** The loop of `translate_state` over the streams, in iteration order. */
  function TranslateBookmarks(bookmarks: Object, order: seq<string>): Result<Object, Exception>
    requires forall i :: 0 <= i < |order| ==> order[i] in bookmarks
    decreases |order|
  {
    if order == [] then Success(bookmarks)
    else
      var next :- TranslateEntry(bookmarks, order[0]);
      TranslateBookmarks(next, order[1..])
  }

  /** Every string bookmark belongs to a known stream. */
  predicate Translatable(bookmarks: Object) {
    forall s :: s in bookmarks && Legacy(bookmarks[s]) ==> StreamOf(s).Some?
  }

  /** The bookmarks in the new format, written as one map: each string bookmark wrapped, every other
      bookmark as it was. */
  function Translated(bookmarks: Object): (r: Object)
    requires Translatable(bookmarks)
    ensures r.Keys == bookmarks.Keys
  {
    map s | s in bookmarks ::
      if Legacy(bookmarks[s]) then JObj(map[ReplicationKey(StreamOf(s).value) := bookmarks[s]]) else bookmarks[s]
  }

  /** `translate_state`: `.items()` on a `bookmarks` value that is not a dictionary raises
      `AttributeError`; a state without `bookmarks` comes back as it was. */
  function TranslateState(state: Object, order: seq<string>): (r: Result<Object, Exception>)
    requires "bookmarks" in state && state["bookmarks"].JObj? ==> IsKeyOrder(order, state["bookmarks"].fields)
    ensures "bookmarks" !in state ==> r == Success(state)
    ensures "bookmarks" in state && !state["bookmarks"].JObj? ==> r == Failure(AttributeError)
  {
    if "bookmarks" !in state then Success(state)
    else match state["bookmarks"]
      case JObj(bookmarks) =>
        var translated :- TranslateBookmarks(bookmarks, order);
        Success(state["bookmarks" := JObj(translated)])
      case _ => Failure(AttributeError)
  }

  /** One step of the loop keeps the bookmarks of the streams still to come and fixes the current one. */
  lemma TranslateEntryFrame(bookmarks: Object, stream: string)
    requires stream in bookmarks
    ensures TranslateEntry(bookmarks, stream).Failure? <==> Legacy(bookmarks[stream]) && StreamOf(stream).None?
    ensures TranslateEntry(bookmarks, stream).Failure? ==> TranslateEntry(bookmarks, stream).error == KeyError(stream)
    ensures TranslateEntry(bookmarks, stream).Success? ==>
              var b := TranslateEntry(bookmarks, stream).value;
              && b.Keys == bookmarks.Keys
              && (forall s :: s in bookmarks && s != stream ==> b[s] == bookmarks[s])
              && b[stream] == (if Legacy(bookmarks[stream]) then JObj(map[ReplicationKey(StreamOf(stream).value) := bookmarks[stream]])
                               else bookmarks[stream])
  {
  }

  /** The loop fails exactly when a visited string bookmark belongs to an unknown stream, and then
      with a `KeyError` for the first such. */
  lemma {:induction false} TranslateBookmarksFailure(bookmarks: Object, order: seq<string>)
    requires forall i, j :: 0 <= i < j < |order| ==> order[i] != order[j]
    requires forall i :: 0 <= i < |order| ==> order[i] in bookmarks
    ensures var r := TranslateBookmarks(bookmarks, order);
            && (r.Failure? <==> exists i :: 0 <= i < |order| && Legacy(bookmarks[order[i]]) && StreamOf(order[i]).None?)
            && (r.Failure? ==>
                  exists i :: && 0 <= i < |order| && Legacy(bookmarks[order[i]]) && StreamOf(order[i]).None?
                              && r.error == KeyError(order[i])
                              && forall j :: 0 <= j < i ==> !(Legacy(bookmarks[order[j]]) && StreamOf(order[j]).None?))
    decreases |order|
  {
    if order != [] {
      var stream := order[0];
      var tail := order[1..];
      TranslateEntryFrame(bookmarks, stream);
      assert forall i :: 1 <= i < |order| ==> order[i] == tail[i - 1];
      if TranslateEntry(bookmarks, stream).Success? {
        var next := TranslateEntry(bookmarks, stream).value;
        assert forall i :: 0 <= i < |tail| ==> tail[i] in next && tail[i] != stream && next[tail[i]] == bookmarks[tail[i]];
        TranslateBookmarksFailure(next, tail);
        var r := TranslateBookmarks(bookmarks, order);
        assert r == TranslateBookmarks(next, tail);
        if r.Failure? {
          var i :| && 0 <= i < |tail| && Legacy(next[tail[i]]) && StreamOf(tail[i]).None? && r.error == KeyError(tail[i])
                   && forall j :: 0 <= j < i ==> !(Legacy(next[tail[j]]) && StreamOf(tail[j]).None?);
          assert order[i + 1] == tail[i];
        }
      }
    }
  }

  /** Without failure the loop wraps each visited string bookmark and leaves everything else alone. */
  lemma {:induction false} TranslateBookmarksValues(bookmarks: Object, order: seq<string>)
    requires forall i, j :: 0 <= i < j < |order| ==> order[i] != order[j]
    requires forall i :: 0 <= i < |order| ==> order[i] in bookmarks
    ensures var r := TranslateBookmarks(bookmarks, order);
            r.Success? ==>
              && r.value.Keys == bookmarks.Keys
              && (forall s :: s in bookmarks && s !in order ==> r.value[s] == bookmarks[s])
              && (forall s :: s in order && !Legacy(bookmarks[s]) ==> r.value[s] == bookmarks[s])
              && (forall s :: s in order && Legacy(bookmarks[s]) ==>
                    StreamOf(s).Some? && r.value[s] == JObj(map[ReplicationKey(StreamOf(s).value) := bookmarks[s]]))
    decreases |order|
  {
    if order != [] {
      var stream := order[0];
      var tail := order[1..];
      TranslateEntryFrame(bookmarks, stream);
      if TranslateEntry(bookmarks, stream).Success? {
        var next := TranslateEntry(bookmarks, stream).value;
        assert forall i :: 0 <= i < |tail| ==> tail[i] in next && tail[i] != stream && next[tail[i]] == bookmarks[tail[i]];
        TranslateBookmarksValues(next, tail);
        assert forall x :: x in order <==> x == stream || x in tail;
      }
    }
  }

  /** Over a full iteration order, the loop yields the one-map definition when every string bookmark
      is of a known stream, and a `KeyError` for an unknown one otherwise. */
  lemma TranslateBookmarksIsTranslated(bookmarks: Object, order: seq<string>)
    requires IsKeyOrder(order, bookmarks)
    ensures Translatable(bookmarks) ==> TranslateBookmarks(bookmarks, order) == Success(Translated(bookmarks))
    ensures !Translatable(bookmarks) ==>
              TranslateBookmarks(bookmarks, order).Failure?
              && exists s :: s in bookmarks && Legacy(bookmarks[s]) && StreamOf(s).None?
                             && TranslateBookmarks(bookmarks, order).error == KeyError(s)
  {
    TranslateBookmarksFailure(bookmarks, order);
    TranslateBookmarksValues(bookmarks, order);
    var r := TranslateBookmarks(bookmarks, order);
    if Translatable(bookmarks) {
      assert r.Success? by {
        forall i | 0 <= i < |order| ensures !(Legacy(bookmarks[order[i]]) && StreamOf(order[i]).None?) {
          assert order[i] in bookmarks;
        }
      }
      assert r.value == Translated(bookmarks);
    } else {
      var s :| s in bookmarks && Legacy(bookmarks[s]) && StreamOf(s).None?;
      var i :| 0 <= i < |order| && order[i] == s;
      assert r.Failure?;
    }
  }

  /** No string bookmark is left once translated, so translating again changes nothing. */
  lemma TranslatedIsFixed(bookmarks: Object)
    requires Translatable(bookmarks)
    ensures Translatable(Translated(bookmarks)) && Translated(Translated(bookmarks)) == Translated(bookmarks)
  {
  }

  /** `translate_state` is idempotent: a translated state translates to itself. */
  lemma TranslateStateIdempotent(state: Object, order: seq<string>)
    requires "bookmarks" in state && state["bookmarks"].JObj? ==> IsKeyOrder(order, state["bookmarks"].fields)
    requires TranslateState(state, order).Success?
    ensures var once := TranslateState(state, order).value;
            && ("bookmarks" in once && once["bookmarks"].JObj? ==> IsKeyOrder(order, once["bookmarks"].fields))
            && TranslateState(once, order) == Success(once)
  {
    if "bookmarks" in state {
      var bookmarks := state["bookmarks"].fields;
      TranslateBookmarksIsTranslated(bookmarks, order);
      var t := Translated(bookmarks);
      TranslatedIsFixed(bookmarks);
      TranslateBookmarksIsTranslated(t, order);
      var once := TranslateState(state, order).value;
      assert once == state["bookmarks" := JObj(t)];
      assert once["bookmarks" := JObj(t)] == once;
    }
  }

  /** `translate_state` on a state with a bookmarks dictionary: the result is the one-map definition,
      with the rest of the state untouched; it fails exactly when a string bookmark is of an unknown
      stream. */
  lemma TranslateStateSpec(state: Object, order: seq<string>)
    requires "bookmarks" in state && state["bookmarks"].JObj? && IsKeyOrder(order, state["bookmarks"].fields)
    ensures var bookmarks := state["bookmarks"].fields;
            && (TranslateState(state, order).Success? <==> Translatable(bookmarks))
            && (Translatable(bookmarks) ==> TranslateState(state, order) == Success(state["bookmarks" := JObj(Translated(bookmarks))]))
            && (!Translatable(bookmarks) ==>
                  exists s :: s in bookmarks && Legacy(bookmarks[s]) && StreamOf(s).None?
                              && TranslateState(state, order) == Failure(KeyError(s)))
  {
    TranslateBookmarksIsTranslated(state["bookmarks"].fields, order);
  }

  /** `get_streams_to_sync`: every selected stream, in order (the registry lookup inside the loop is
      discarded). */
  method GetStreamsToSync(selected: seq<string>) returns (streams: seq<string>)
    ensures streams == selected
  {
    streams := [];
    var i := 0;
    while i < |selected|
      invariant 0 <= i <= |selected|
      invariant streams == selected[..i]
    {
      streams := streams + [selected[i]];
      i := i + 1;
      assert selected[..i] == selected[..i - 1] + [selected[i - 1]];
    }
    assert selected[..|selected|] == selected;
  }

  /** What `sync` did: every state it wrote, the records each stream wrote, and the final state or
      the exception that ended it. */
  datatype SyncRun = SyncRun(written: seq<Object>, records: seq<seq<Object>>, result: Result<Object, Exception>)

  /** The `currently_syncing` marker of a state. */
  function Marker(state: Object): Json {
    Get(state, "currently_syncing", JNull)
  }

  /** What the streams read besides the state: the configured start date, the clock, the date
      parsing and formatting of the transcripts sync, the users reply and the transcripts API. */
  datatype Sources = Sources(startDate: string, now: int, parseDate: string -> Option<int>, formatDate: int -> string,
                             usersReply: Result<Json, Exception>, post: TranscriptsWindow -> Result<Json, Exception>)

  /** What `sync_func(stream)` did from `current`: the full-table sync of `users`, or the
      incremental sync of `transcripts` with `run` the run of `get_records` it made. */
  ghost predicate StreamSynced(kind: Kind, current: Object, src: Sources, out: SyncOutcome, run: TranscriptsRun) {
    match kind
    case Users => out == FullTableSync(current, src.usersReply)
    case Transcripts =>
      IncrementallySynced(current, src.startDate, src.now, src.parseDate, src.formatDate, src.post, out, run)
  }

  /** `sync_func(stream)` for the stream's kind: a full-table sync of `users`, an incremental one of
      `transcripts`. */
  method SyncOne(kind: Kind, current: Object, startDate: string, now: int, parseDate: string -> Option<int>,
                 formatDate: int -> string, usersReply: Result<Json, Exception>,
                 post: TranscriptsWindow -> Result<Json, Exception>, ghost universe: set<Json>)
    returns (out: SyncOutcome, ghost run: TranscriptsRun)
    requires IdsWithin(post, universe)
    ensures kind == Users ==> out == FullTableSync(current, usersReply)
    ensures StreamSynced(kind, current, Sources(startDate, now, parseDate, formatDate, usersReply, post), out, run)
  {
    run := TranscriptsRun([], [], [], None);
    match kind {
      case Users =>
        out := FullTableSync(current, usersReply);
      case Transcripts =>
        out, run := IncrementalSync(current, startDate, now, parseDate, formatDate, post, universe);
    }
  }

  /** The state stream `i` starts from: the translated state, or the one written after stream
      `i - 1` returned. */
  function Before(translated: Object, written: seq<Object>, i: nat): Object
    requires i == 0 || 2 * i - 1 < |written|
  {
    if i == 0 then translated else written[2 * i - 1]
  }

  /** Stream `i` was started: it is in the registry, and the state written `2 i`-th is the one it
      starts from with `currently_syncing` set to it. */
  ghost predicate StreamStarted(translated: Object, selected: seq<string>, written: seq<Object>, i: nat) {
    && i < |selected| && 2 * i < |written|
    && StreamOf(selected[i]).Some?
    && written[2 * i] == SetCurrentlySyncing(Before(translated, written, i), Some(selected[i]))
  }

  /** Stream `i` was started and its sync returned the state written `2 i + 1`-th, having written
      `records[i]`. */
  ghost predicate StreamDone(translated: Object, selected: seq<string>, src: Sources, written: seq<Object>,
                             records: seq<seq<Object>>, runs: seq<TranscriptsRun>, i: nat) {
    && StreamStarted(translated, selected, written, i)
    && 2 * i + 1 < |written| && i < |records| && i < |runs|
    && StreamSynced(StreamOf(selected[i]).value, written[2 * i], src,
                    SyncOutcome(records[i], Success(written[2 * i + 1])), runs[i])
  }

  /** The first `k` streams are done. */
  ghost predicate StreamsDone(translated: Object, selected: seq<string>, src: Sources, written: seq<Object>,
                              records: seq<seq<Object>>, runs: seq<TranscriptsRun>, k: int) {
    forall i :: 0 <= i < k ==> StreamDone(translated, selected, src, written, records, runs, i)
  }

  /** The last stream was started and its sync raised the exception `result` carries. */
  ghost predicate StreamFailed(translated: Object, selected: seq<string>, src: Sources, written: seq<Object>,
                               records: seq<seq<Object>>, runs: seq<TranscriptsRun>, result: Result<Object, Exception>) {
    && 0 < |records| <= |runs|
    && var i := |records| - 1;
    && StreamStarted(translated, selected, written, i)
    && StreamSynced(StreamOf(selected[i]).value, written[2 * i], src, SyncOutcome(records[i], result), runs[i])
  }

  /** The number of streams whose sync returned: all of them after a success; otherwise those before
      the unknown stream or the failing sync that ended the run. */
  function Completed(o: SyncRun): int {
    if o.result.Success? then |o.records| else |o.written| - |o.records|
  }

  /** Appending to the written states, the records and the runs keeps the streams already done. */
  lemma {:induction false} StreamsDoneExtend(translated: Object, selected: seq<string>, src: Sources,
                                             written: seq<Object>, records: seq<seq<Object>>, runs: seq<TranscriptsRun>,
                                             written': seq<Object>, records': seq<seq<Object>>,
                                             runs': seq<TranscriptsRun>, k: nat)
    requires StreamsDone(translated, selected, src, written, records, runs, k)
    requires written <= written' && records <= records' && runs <= runs'
    ensures StreamsDone(translated, selected, src, written', records', runs', k)
  {
    forall i | 0 <= i < k ensures StreamDone(translated, selected, src, written', records', runs', i) {
      assert StreamDone(translated, selected, src, written, records, runs, i);
      assert written'[2 * i] == written[2 * i] && written'[2 * i + 1] == written[2 * i + 1];
      assert Before(translated, written', i) == Before(translated, written, i);
      assert records'[i] == records[i] && runs'[i] == runs[i];
    }
  }

  /**
   * One pass of the stream loop of `sync` for stream `i`, of kind `kind`: `currently_syncing` set
   * and written, the stream synced from that state, and the state it returned written.  The
   * stream's records and run are appended; a failing sync writes nothing more.
   */
  method RunStream(translated: Object, selected: seq<string>, src: Sources, ghost universe: set<Json>,
                   written: seq<Object>, records: seq<seq<Object>>, ghost runs: seq<TranscriptsRun>,
                   current: Object, i: nat, kind: Kind)
    returns (written': seq<Object>, records': seq<seq<Object>>, ghost runs': seq<TranscriptsRun>, out: SyncOutcome)
    requires IdsWithin(src.post, universe)
    requires i < |selected| && StreamOf(selected[i]) == Some(kind)
    requires |written| == 2 * i && |records| == i && |runs| == i
    requires current == Before(translated, written, i)
    requires StreamsDone(translated, selected, src, written, records, runs, i)
    ensures records' == records + [out.written] && |runs'| == i + 1
    ensures written <= written' && 2 * i < |written'|
    ensures written'[2 * i] == SetCurrentlySyncing(current, Some(selected[i]))
    ensures out.result.Failure? ==>
              && |written'| == 2 * i + 1
              && StreamsDone(translated, selected, src, written', records', runs', i)
              && StreamFailed(translated, selected, src, written', records', runs', out.result)
    ensures out.result.Success? ==>
              && written' == written + [written'[2 * i], out.result.value]
              && StreamsDone(translated, selected, src, written', records', runs', i + 1)
  {
    var marked := SetCurrentlySyncing(current, Some(selected[i]));
    written' := written + [marked];
    ghost var run;
    out, run := SyncOne(kind, marked, src.startDate, src.now, src.parseDate, src.formatDate, src.usersReply,
                        src.post, universe);
    records' := records + [out.written];
    runs' := runs + [run];
    assert StreamStarted(translated, selected, written', i);
    if out.result.Success? {
      written' := written' + [out.result.value];
      assert StreamDone(translated, selected, src, written', records', runs', i);
    }
    StreamsDoneExtend(translated, selected, src, written, records, runs, written', records', runs', i);
  }

  /**
   * How the stream loop of `sync` and the final clearing of `currently_syncing` ended, from the
   * translated state: one record list per stream started, two states written per stream synced
   * (the marked one and the returned one) and the cleared one at the end.  The run ends at an
   * unknown stream with its `KeyError`, at a failing sync, or with every stream synced and the
   * marker cleared.
   */
  predicate LoopEnded(translated: Object, selected: seq<string>, o: SyncRun) {
    && |o.records| <= |selected| && |o.written| <= 2 * |o.records| + 1
    && (forall i :: 0 <= i < |o.records| ==> 2 * i < |o.written| && Marker(o.written[2 * i]) == JStr(selected[i]))
    && (forall i :: 0 <= i < |o.records| ==> StreamOf(selected[i]).Some?)
    && (o.result.Success? ==>
          && |o.records| == |selected| && |o.written| == 2 * |selected| + 1
          && o.written[|o.written| - 1] == o.result.value
          && o.result.value == SetCurrentlySyncing(Before(translated, o.written, |selected|), None))
    && (o.result.Failure? ==> |o.written| == 2 * |o.records| || |o.written| == 2 * |o.records| - 1)
    && (o.result.Failure? && |o.written| == 2 * |o.records| ==>
          |o.records| < |selected| && StreamOf(selected[|o.records|]).None?
          && o.result.error == KeyError(selected[|o.records|]))
  }

  /** `LoopEnded`, with every stream before the end synced from its marked state to the next state
      written, and a failing sync's exception that sync's own. */
  ghost predicate StreamsRan(translated: Object, selected: seq<string>, src: Sources, o: SyncRun,
                             runs: seq<TranscriptsRun>) {
    && LoopEnded(translated, selected, o)
    && StreamsDone(translated, selected, src, o.written, o.records, runs, Completed(o))
    && (o.result.Failure? && |o.written| == 2 * |o.records| - 1 ==>
          StreamFailed(translated, selected, src, o.written, o.records, runs, o.result))
  }

  /** A started stream's marked state names it. */
  lemma StartedMarks(translated: Object, selected: seq<string>, written: seq<Object>, i: nat)
    requires StreamStarted(translated, selected, written, i)
    ensures Marker(written[2 * i]) == JStr(selected[i])
  {
  }

  /** The run that stops at unknown stream `i` after `i` streams synced. */
  lemma UnknownStreamRan(translated: Object, selected: seq<string>, src: Sources, written: seq<Object>,
                         records: seq<seq<Object>>, runs: seq<TranscriptsRun>, i: nat)
    requires i < |selected| && StreamOf(selected[i]).None?
    requires |written| == 2 * i && |records| == i && |runs| == i
    requires StreamsDone(translated, selected, src, written, records, runs, i)
    ensures StreamsRan(translated, selected, src, SyncRun(written, records, Failure(KeyError(selected[i]))), runs)
  {
    forall j | 0 <= j < i ensures Marker(written[2 * j]) == JStr(selected[j]) && StreamOf(selected[j]).Some? {
      assert StreamDone(translated, selected, src, written, records, runs, j);
      StartedMarks(translated, selected, written, j);
    }
  }

  /** The run that stops at stream `i`, whose sync raised, after `i` streams synced. */
  lemma FailedStreamRan(translated: Object, selected: seq<string>, src: Sources, written: seq<Object>,
                        records: seq<seq<Object>>, runs: seq<TranscriptsRun>, result: Result<Object, Exception>,
                        i: nat)
    requires result.Failure?
    requires |written| == 2 * i + 1 && |records| == i + 1 && |runs| == i + 1
    requires StreamsDone(translated, selected, src, written, records, runs, i)
    requires StreamFailed(translated, selected, src, written, records, runs, result)
    ensures StreamsRan(translated, selected, src, SyncRun(written, records, result), runs)
  {
    forall j | 0 <= j < i + 1 ensures Marker(written[2 * j]) == JStr(selected[j]) && StreamOf(selected[j]).Some? {
      if j < i {
        assert StreamDone(translated, selected, src, written, records, runs, j);
      }
      StartedMarks(translated, selected, written, j);
    }
  }

  /** The run in which every stream synced, ended by clearing the marker of the last state. */
  lemma AllStreamsRan(translated: Object, selected: seq<string>, src: Sources, written: seq<Object>,
                      records: seq<seq<Object>>, runs: seq<TranscriptsRun>, current: Object)
    requires |written| == 2 * |selected| && |records| == |selected| && |runs| == |selected|
    requires StreamsDone(translated, selected, src, written, records, runs, |selected|)
    requires current == Before(translated, written, |selected|)
    ensures var cleared := SetCurrentlySyncing(current, None);
            StreamsRan(translated, selected, src, SyncRun(written + [cleared], records, Success(cleared)), runs)
  {
    var cleared := SetCurrentlySyncing(current, None);
    var written' := written + [cleared];
    StreamsDoneExtend(translated, selected, src, written, records, runs, written', records, runs, |selected|);
    forall j | 0 <= j < |selected| ensures Marker(written'[2 * j]) == JStr(selected[j]) && StreamOf(selected[j]).Some? {
      assert StreamDone(translated, selected, src, written', records, runs, j);
      StartedMarks(translated, selected, written', j);
    }
  }

  /** The stream loop of `sync` and the final clearing of `currently_syncing`, from the translated
      state. */
  method SyncStreams(translated: Object, selected: seq<string>, src: Sources, ghost universe: set<Json>)
    returns (o: SyncRun, ghost runs: seq<TranscriptsRun>)
    requires IdsWithin(src.post, universe)
    ensures LoopEnded(translated, selected, o)
    ensures StreamsRan(translated, selected, src, o, runs)
  {
    runs := [];
    var current := translated;
    var streams := GetStreamsToSync(selected);
    var written: seq<Object> := [];
    var records: seq<seq<Object>> := [];
    var i := 0;
    while i < |streams|
      invariant 0 <= i <= |streams| && streams == selected
      invariant |records| == i && |written| == 2 * i && |runs| == i
      invariant current == Before(translated, written, i)
      invariant StreamsDone(translated, selected, src, written, records, runs, i)
    {
      var id := streams[i];
      var kind := StreamOf(id);
      if kind.None? {
        UnknownStreamRan(translated, selected, src, written, records, runs, i);
        return SyncRun(written, records, Failure(KeyError(id))), runs;
      }
      var written', records', out;
      ghost var runs';
      written', records', runs', out :=
        RunStream(translated, selected, src, universe, written, records, runs, current, i, kind.value);
      if out.result.Failure? {
        FailedStreamRan(translated, selected, src, written', records', runs', out.result, i);
        return SyncRun(written', records', out.result), runs';
      }
      written, records, runs := written', records', runs';
      current := out.result.value;
      i := i + 1;
    }
    AllStreamsRan(translated, selected, src, written, records, runs, current);
    current := SetCurrentlySyncing(current, None);
    o := SyncRun(written + [current], records, Success(current));
  }

  /**
   * `sync`: builds the client, whose timeout conversion is the first thing that can raise
   * (`requestTimeout` is `config.get('request_timeout')`, `parseFloat` is `float` on a string);
   * translates the state, then for each selected stream looks it up in `STREAMS` (a
   * `KeyError` for an unknown one), sets `currently_syncing` to it and writes the state, runs the
   * stream's `sync` and writes the state it returns; at the end clears `currently_syncing` and
   * writes the state once more.  The users reply and the transcripts oracle stand for the API;
   * `parseDate` and `formatDate` for the date parsing and formatting of the transcripts sync.
   */
  method Sync(state: Object, order: seq<string>, selected: seq<string>, startDate: string,
              requestTimeout: Json, parseFloat: string -> Option<real>,
              now: int, parseDate: string -> Option<int>, formatDate: int -> string,
              usersReply: Result<Json, Exception>, post: TranscriptsWindow -> Result<Json, Exception>,
              ghost universe: set<Json>)
    returns (o: SyncRun, ghost runs: seq<TranscriptsRun>)
    requires "bookmarks" in state && state["bookmarks"].JObj? ==> IsKeyOrder(order, state["bookmarks"].fields)
    requires IdsWithin(post, universe)
    ensures RequestTimeout(requestTimeout, parseFloat).Failure? ==>
              o == SyncRun([], [], Failure(RequestTimeout(requestTimeout, parseFloat).error))
    ensures RequestTimeout(requestTimeout, parseFloat).Success? && TranslateState(state, order).Failure? ==>
              o == SyncRun([], [], Failure(TranslateState(state, order).error))
    ensures |o.records| <= |selected| && |o.written| <= 2 * |o.records| + 1
    ensures forall i :: 0 <= i < |o.records| ==> 2 * i < |o.written| && Marker(o.written[2 * i]) == JStr(selected[i])
    ensures forall i :: 0 <= i < |o.records| ==> StreamOf(selected[i]).Some?
    ensures o.result.Success? ==>
              && |o.records| == |selected| && |o.written| == 2 * |selected| + 1
              && o.written[|o.written| - 1] == o.result.value
              && Marker(o.result.value) == JNull
    ensures RequestTimeout(requestTimeout, parseFloat).Success? && TranslateState(state, order).Success? && o.result.Failure? ==>
              |o.written| == 2 * |o.records| || |o.written| == 2 * |o.records| - 1
    ensures RequestTimeout(requestTimeout, parseFloat).Success? && TranslateState(state, order).Success? && o.result.Failure?
            && |o.written| == 2 * |o.records| ==>
              |o.records| < |selected| && StreamOf(selected[|o.records|]).None?
              && o.result.error == KeyError(selected[|o.records|])
    ensures var translated := TranslateState(state, order);
            RequestTimeout(requestTimeout, parseFloat).Success? && translated.Success? ==>
              var src := Sources(startDate, now, parseDate, formatDate, usersReply, post);
              && StreamsDone(translated.value, selected, src, o.written, o.records, runs, Completed(o))
              && (o.result.Failure? && |o.written| == 2 * |o.records| - 1 ==>
                    StreamFailed(translated.value, selected, src, o.written, o.records, runs, o.result))
              && (o.result.Success? ==>
                    o.result.value == SetCurrentlySyncing(Before(translated.value, o.written, |selected|), None))
  {
    runs := [];
    var timeout := RequestTimeout(requestTimeout, parseFloat);
    if timeout.Failure? {
      return SyncRun([], [], Failure(timeout.error)), runs;
    }
    var translated := TranslateState(state, order);
    if translated.Failure? {
      return SyncRun([], [], Failure(translated.error)), runs;
    }
    var src := Sources(startDate, now, parseDate, formatDate, usersReply, post);
    o, runs := SyncStreams(translated.value, selected, src, universe);
  }
}

=== FILE: tap.dfy ===
/**
 * The installed entry point, `sync` of `tap_fireflies/__init__.py`, over the `meeting_*` streams.
 *
 * `Context.state` is a process-wide dictionary, separate from the state the tap was started with.
 * For each selected stream the tap makes sure it holds a bookmarks map, creates the stream, hands
 * it its prior state, drains its rows, then stores the stream's final state under
 * `bookmarks[stream_id]` and writes `Context.state` out.  The prior state is read from the TOP
 * LEVEL of the incoming state while the final state is stored under `bookmarks`, so a state the
 * tap wrote is never read back; `Variant` selects that reading or the corrected one.
 */
module Tap {
  import opened Wrappers
  import opened Json
  import opened Exceptions
  import opened SingerState
  import opened Api
  import opened Pagination
  import opened MeetingAttendees

  /** The streams `create_stream` builds. */
  datatype Stream = Info | Attendees

  /** The `tap_stream_id` of a stream. */
  function StreamName(s: Stream): string {
    match s
    case Info => "meeting_info"
    case Attendees => "meeting_attendees"
  }

  /** `create_stream(stream_id)`: the two known ids, an `AssertionError` for any other. */
  function CreateStream(id: string): (r: Result<Stream, Exception>)
    ensures r.Success? <==> id == "meeting_info" || id == "meeting_attendees"
    ensures r.Failure? ==> r.error == AssertionError
  {
    if id == "meeting_info" then Success(Info)
    else if id == "meeting_attendees" then Success(Attendees)
    else Failure(AssertionError)
  }

  /** `create_stream` builds exactly the stream that carries the id asked for. */
  lemma CreateStreamRoundTrip(s: Stream, id: string)
    ensures CreateStream(StreamName(s)) == Success(s)
    ensures CreateStream(id).Success? ==> StreamName(CreateStream(id).value) == id
  {
  }

  /**
   * The prior state handed to a stream.  As written, `state.get(stream_id, {})` at the top level of
   * the incoming state; corrected, `state.get('bookmarks', {}).get(stream_id, {})`, where the tap
   * stores it.  A `bookmarks` value that is not a dictionary makes the corrected read raise
   * `AttributeError`.
   */
  function Prior(variant: Variant, state: Object, id: string): (r: Result<Json, Exception>)
    ensures variant == AsWritten ==> r == Success(Get(state, id, JObj(map[])))
    ensures variant == Corrected ==>
              (r.Success? <==> Get(state, "bookmarks", JObj(map[])).JObj?)
              && (r.Success? ==> r == Success(Get(Get(state, "bookmarks", JObj(map[])).fields, id, JObj(map[]))))
    ensures r.Failure? ==> r.error == AttributeError
  {
    match variant
    case AsWritten => Success(Get(state, id, JObj(map[])))
    case Corrected =>
      (match Get(state, "bookmarks", JObj(map[]))
       case JObj(bookmarks) => Success(Get(bookmarks, id, JObj(map[])))
       case _ => Failure(AttributeError))
  }

  /** `state.copy()` exists on a dictionary and on a list; on anything else it raises. */
  predicate Copyable(j: Json) {
    j.JObj? || j.JArr?
  }

  /** `if not Context.state.get('bookmarks'): Context.state['bookmarks'] = {}`. */
  function EnsureBookmarks(context: Object): (r: Object)
    ensures Truthy(Get(context, "bookmarks", JNull)) ==> r == context
    ensures "bookmarks" in r && Truthy(r["bookmarks"]) ==> r == context
    ensures "bookmarks" in r && r.Keys == context.Keys + {"bookmarks"}
    ensures !Truthy(r["bookmarks"]) ==> r["bookmarks"] == JObj(map[])
  {
    if Truthy(Get(context, "bookmarks", JNull)) then context else context["bookmarks" := JObj(map[])]
  }

  /** Making sure of the bookmarks map touches no other key, and twice is once. */
  lemma EnsureBookmarksFrame(context: Object)
    ensures forall k :: k in context && k != "bookmarks" ==> EnsureBookmarks(context)[k] == context[k]
    ensures EnsureBookmarks(EnsureBookmarks(context)) == EnsureBookmarks(context)
  {
  }

  /** `Context.state['bookmarks'].update({stream_id: data_stream.state})`: `AttributeError` when the
      bookmarks value is not a dictionary. */
  function StoreState(context: Object, id: string, final: Object): (r: Result<Object, Exception>)
    requires "bookmarks" in context
    ensures r.Success? <==> context["bookmarks"].JObj?
    ensures r.Failure? ==> r.error == AttributeError
  {
    match context["bookmarks"]
    case JObj(bookmarks) => Success(context["bookmarks" := JObj(bookmarks[id := JObj(final)])])
    case _ => Failure(AttributeError)
  }

  /** `after` is `before` with only the stream's bookmark entry set to `final`: the other top-level
      keys and the other streams' entries keep their values. */
  predicate Stored(before: Object, after: Object, id: string, final: Object) {
    && "bookmarks" in before && before["bookmarks"].JObj?
    && after.Keys == before.Keys
    && (forall k :: k in before && k != "bookmarks" ==> after[k] == before[k])
    && after["bookmarks"].JObj?
    && after["bookmarks"].fields.Keys == before["bookmarks"].fields.Keys + {id}
    && after["bookmarks"].fields[id] == JObj(final)
    && (forall other :: other in before["bookmarks"].fields && other != id ==>
          after["bookmarks"].fields[other] == before["bookmarks"].fields[other])
  }

  /** The bookmarks map of a state, `{}` when there is none. */
  function Bookmarks(context: Object): Object {
    if "bookmarks" in context && context["bookmarks"].JObj? then context["bookmarks"].fields else map[]
  }

  /** A successful store sets the stream's entry and nothing else. */
  lemma StoreStateFrame(context: Object, id: string, final: Object)
    requires "bookmarks" in context
    ensures StoreState(context, id, final).Success? ==> Stored(context, StoreState(context, id, final).value, id, final)
  {
  }

  /** The corrected read finds what the tap stored: a run resumed from a written state starts from
      the stream's final state. */
  lemma StoredIsRead(before: Object, after: Object, id: string, final: Object)
    requires Stored(before, after, id, final)
    ensures Prior(Corrected, after, id) == Success(JObj(final))
  {
  }

  /** The read as written never finds what the tap stored: for a stream id that is not a top-level
      key of the state (none is, when `Context.state` starts empty), a run resumed from a written
      state starts from `{}`. */
  lemma StoredIsForgotten(before: Object, after: Object, id: string, final: Object)
    requires Stored(before, after, id, final)
    requires id !in before && id != "bookmarks"
    ensures Prior(AsWritten, after, id) == Success(JObj(map[]))
    ensures final != map[] ==> Prior(AsWritten, after, id) != Prior(Corrected, after, id)
  {
    StoredIsRead(before, after, id, final);
  }

  /** The two readings part on a concrete resumed run: the stored `meeting_timestamp` 7 is lost as
      written, so a start date of 10 cuts at 10 instead of 7. */
  lemma ResumedCutoffDiffers()
    ensures var before := map["bookmarks" := JObj(map[])];
            var final := map[CutoffFieldName := JInt(7)];
            var after := StoreState(before, "meeting_attendees", final).value;
            && Prior(AsWritten, after, "meeting_attendees") == Success(JObj(map[]))
            && CutoffTime(Prior(AsWritten, after, "meeting_attendees").value.fields, 10) == Success(10)
            && Prior(Corrected, after, "meeting_attendees") == Success(JObj(final))
            && CutoffTime(Prior(Corrected, after, "meeting_attendees").value.fields, 10) == Success(7)
  {
    var before := map["bookmarks" := JObj(map[])];
    var final := map[CutoffFieldName := JInt(7)];
    StoreStateFrame(before, "meeting_attendees", final);
    var after := StoreState(before, "meeting_attendees", final).value;
    StoredIsForgotten(before, after, "meeting_attendees", final);
  }

  /** What one stream did: the rows it yielded and its final state, or the exception it raised. */
  datatype StreamRun = StreamRun(rows: seq<Object>, final: Result<Object, Exception>)

  /** A stream that finished: it is `meeting_attendees`, it started from a dictionary, and its final
      state is that dictionary with `meeting_timestamp` set at or above the cutoff. */
  predicate Finished(variant: Variant, state: Object, start: int, id: string, final: Object) {
    && id == "meeting_attendees"
    && Prior(variant, state, id).Success? && Prior(variant, state, id).value.JObj?
    && var prior := Prior(variant, state, id).value.fields;
    && CutoffTime(prior, start).Success?
    && CutoffFieldName in final && final[CutoffFieldName].JInt?
    && final[CutoffFieldName].i >= CutoffTime(prior, start).value
    && final == prior[CutoffFieldName := final[CutoffFieldName]]
  }

  /** The exception `meeting_info` raises: its `get_tap_data` returns `None`, which cannot be
      iterated, once its `state.copy()` has gone through. */
  function InfoError(variant: Variant, state: Object): Exception {
    var prior := Prior(variant, state, "meeting_info");
    if prior.Success? && Copyable(prior.value) then TypeError else AttributeError
  }

  /**
   * Lines 69-73 for one stream: create it, read its prior state, drain its rows.  `meeting_info`
   * never finishes; `meeting_attendees` runs `get_tap_data` on a dictionary (a list survives the
   * copy and then has no `.get`), and its rows and final state are that call's.
   */
  function StreamOutcome(variant: Variant, execute: Window -> Option<Response<Object>>, state: Object, start: int, id: string)
    : (r: StreamRun)
    ensures CreateStream(id).Failure? ==> r == StreamRun([], Failure(AssertionError))
    ensures id == "meeting_info" ==> r == StreamRun([], Failure(InfoError(variant, state)))
    ensures id == "meeting_attendees" && !(Prior(variant, state, id).Success? && Prior(variant, state, id).value.JObj?) ==>
              r == StreamRun([], Failure(AttributeError))
    ensures id == "meeting_attendees" && Prior(variant, state, id).Success? && Prior(variant, state, id).value.JObj? ==>
              var o := TapData(variant, execute, Prior(variant, state, id).value.fields, start);
              r == StreamRun(o.rows, o.state)
    ensures r.final.Success? ==> Finished(variant, state, start, id, r.final.value)
  {
    match CreateStream(id)
    case Failure(e) => StreamRun([], Failure(e))
    case Success(Info) => StreamRun([], Failure(InfoError(variant, state)))
    case Success(Attendees) =>
      var prior := Prior(variant, state, id);
      if prior.Failure? || !prior.value.JObj? then StreamRun([], Failure(AttributeError))
      else
        var o := TapData(variant, execute, prior.value.fields, start);
        StreamRun(o.rows, o.state)
  }

  /** The stream run as a method: what `StreamOutcome` states, computed through `GetTapData`. */
  method SyncStream(variant: Variant, execute: Window -> Option<Response<Object>>, state: Object, start: int, id: string)
    returns (run: StreamRun)
    ensures run == StreamOutcome(variant, execute, state, start, id)
    ensures run.final.Success? ==> Finished(variant, state, start, id, run.final.value)
  {
    var stream := CreateStream(id);
    if stream.Failure? {
      return StreamRun([], Failure(stream.error));
    }
    var prior := Prior(variant, state, id);
    match stream.value
    case Info =>
      run := StreamRun([], Failure(InfoError(variant, state)));
    case Attendees =>
      if prior.Failure? || !prior.value.JObj? {
        return StreamRun([], Failure(AttributeError));
      }
      var o := GetTapData(variant, execute, prior.value.fields, start);
      run := StreamRun(o.rows, o.state);
  }

  /** What `sync` did: the rows of each stream it started, every `Context.state` it wrote, the
      final `Context.state`, and the exception that ended it, if any. */
  datatype TapRun = TapRun(rows: seq<seq<Object>>, written: seq<Object>, context: Object, error: Option<Exception>)

  /** `after` is what the tap wrote once stream `id` finished, starting from `Context.state` as
      `before`: the bookmarks map made sure of, then the final state the stream itself returned
      stored in it. */
  predicate StreamWritten(variant: Variant, execute: Window -> Option<Response<Object>>, state: Object, start: int,
                          id: string, before: Object, after: Object) {
    && "bookmarks" in after && after["bookmarks"].JObj?
    && id in after["bookmarks"].fields && after["bookmarks"].fields[id].JObj?
    && var final := after["bookmarks"].fields[id].fields;
    && StreamOutcome(variant, execute, state, start, id).final == Success(final)
    && StoreState(EnsureBookmarks(before), id, final) == Success(after)
  }

  /** The `Context.state` that stream `i` starts from: the initial one, or the one written after
      stream `i - 1`. */
  function Previous(context: Object, written: seq<Object>, i: nat): Object
    requires i <= |written|
  {
    if i == 0 then context else written[i - 1]
  }

  /** `written` holds one state per stream of a prefix of `selected`: state `i` was written after
      stream `selected[i]` returned, from the state written before it. */
  predicate Wrote(variant: Variant, execute: Window -> Option<Response<Object>>, state: Object, start: int,
                  selected: seq<string>, context: Object, written: seq<Object>) {
    && |written| <= |selected|
    && forall i {:trigger StreamWritten(variant, execute, state, start, selected[i], Previous(context, written, i),
                                        written[i])}
         :: 0 <= i < |written| ==>
         StreamWritten(variant, execute, state, start, selected[i], Previous(context, written, i), written[i])
  }

  /** One more stream written keeps `Wrote`. */
  lemma WroteAppend(variant: Variant, execute: Window -> Option<Response<Object>>, state: Object, start: int,
                    selected: seq<string>, context: Object, written: seq<Object>, next: Object)
    requires Wrote(variant, execute, state, start, selected, context, written)
    requires |written| < |selected|
    requires StreamWritten(variant, execute, state, start, selected[|written|], Previous(context, written, |written|), next)
    ensures Wrote(variant, execute, state, start, selected, context, written + [next])
  {
    var w := written + [next];
    forall i | 0 <= i < |w|
      ensures StreamWritten(variant, execute, state, start, selected[i], Previous(context, w, i), w[i])
    {
      if i < |written| {
        assert w[i] == written[i];
        assert Previous(context, w, i) == Previous(context, written, i);
      }
    }
  }

  /** A stream that returned a final state, stored, is a stream written. */
  lemma StoredIsWritten(variant: Variant, execute: Window -> Option<Response<Object>>, state: Object, start: int,
                        id: string, before: Object, after: Object, final: Object)
    requires StreamOutcome(variant, execute, state, start, id).final == Success(final)
    requires StoreState(EnsureBookmarks(before), id, final) == Success(after)
    ensures StreamWritten(variant, execute, state, start, id, before, after)
  {
    StoreStateFrame(EnsureBookmarks(before), id, final);
  }

  /** The state written `i`-th is the one before it with exactly the final state stream
      `selected[i]` returned stored under its id. */
  lemma WroteAt(variant: Variant, execute: Window -> Option<Response<Object>>, state: Object, start: int,
                selected: seq<string>, context: Object, written: seq<Object>, i: nat)
    requires Wrote(variant, execute, state, start, selected, context, written)
    requires i < |written|
    ensures StreamWritten(variant, execute, state, start, selected[i], Previous(context, written, i), written[i])
    ensures var filed := written[i]["bookmarks"].fields[selected[i]].fields;
            && StreamOutcome(variant, execute, state, start, selected[i]).final == Success(filed)
            && StoreState(EnsureBookmarks(Previous(context, written, i)), selected[i], filed) == Success(written[i])
  {
  }

  /** The state written `i`-th keeps the initial `Context.state`'s keys plus `bookmarks`, and holds
      the bookmark of every stream finished up to it. */
  lemma {:induction false} WroteHas(variant: Variant, execute: Window -> Option<Response<Object>>, state: Object, start: int,
                                    selected: seq<string>, context: Object, written: seq<Object>, i: nat, j: nat)
    requires Wrote(variant, execute, state, start, selected, context, written)
    requires j <= i < |written|
    ensures written[i].Keys == context.Keys + {"bookmarks"}
    ensures selected[j] in Bookmarks(written[i])
    decreases i
  {
    WroteAt(variant, execute, state, start, selected, context, written, i);
    var before := EnsureBookmarks(Previous(context, written, i));
    StoreStateFrame(before, selected[i], written[i]["bookmarks"].fields[selected[i]].fields);
    if i > 0 {
      WroteHas(variant, execute, state, start, selected, context, written, i - 1, if j < i then j else 0);
      assert Truthy(written[i - 1]["bookmarks"]) by {
        assert selected[if j < i then j else 0] in Bookmarks(written[i - 1]);
      }
    }
  }

  /** `WroteHas` for every written state at once. */
  lemma WroteKeys(variant: Variant, execute: Window -> Option<Response<Object>>, state: Object, start: int,
                  selected: seq<string>, context: Object, written: seq<Object>)
    requires Wrote(variant, execute, state, start, selected, context, written)
    ensures forall i :: 0 <= i < |written| ==> written[i].Keys == context.Keys + {"bookmarks"}
    ensures forall i, j :: 0 <= j <= i < |written| ==> selected[j] in Bookmarks(written[i])
  {
    forall i | 0 <= i < |written| ensures written[i].Keys == context.Keys + {"bookmarks"} {
      WroteHas(variant, execute, state, start, selected, context, written, i, 0);
    }
    forall i, j | 0 <= j <= i < |written| ensures selected[j] in Bookmarks(written[i]) {
      WroteHas(variant, execute, state, start, selected, context, written, i, j);
    }
  }

  /** A run resumed from a state that a fresh process wrote (`Context.state` empty at the start)
      loses the stream's bookmark as written, since that state holds nothing but `bookmarks`; the
      corrected read finds the stored final state. */
  lemma ResumeFromWritten(variant: Variant, execute: Window -> Option<Response<Object>>, state: Object, start: int,
                          selected: seq<string>, written: seq<Object>, i: nat)
    requires Wrote(variant, execute, state, start, selected, map[], written)
    requires i < |written|
    ensures selected[i] in Bookmarks(written[i])
    ensures Prior(AsWritten, written[i], selected[i]) == Success(JObj(map[]))
    ensures Prior(Corrected, written[i], selected[i]) == Success(Bookmarks(written[i])[selected[i]])
  {
    WroteAt(variant, execute, state, start, selected, map[], written, i);
    WroteHas(variant, execute, state, start, selected, map[], written, i, i);
  }

  /** The exception that ends the run at stream `id`: the stream's own, or the `AttributeError` of
      storing its final state in a bookmarks value that is not a dictionary. */
  function StreamError(variant: Variant, execute: Window -> Option<Response<Object>>, state: Object, start: int, id: string)
    : (e: Exception)
    ensures CreateStream(id).Failure? ==> e == AssertionError
    ensures id == "meeting_info" ==> e == InfoError(variant, state)
  {
    var final := StreamOutcome(variant, execute, state, start, id).final;
    if final.Failure? then final.error else AttributeError
  }

  /** `rows` holds the rows of each stream of a prefix of `selected`, in order. */
  predicate RowsOf(variant: Variant, execute: Window -> Option<Response<Object>>, state: Object, start: int,
                   selected: seq<string>, rows: seq<seq<Object>>) {
    && |rows| <= |selected|
    && forall i :: 0 <= i < |rows| ==> rows[i] == StreamOutcome(variant, execute, state, start, selected[i]).rows
  }

  /** The next stream's rows extend `RowsOf`. */
  lemma RowsOfAppend(variant: Variant, execute: Window -> Option<Response<Object>>, state: Object, start: int,
                     selected: seq<string>, rows: seq<seq<Object>>, next: seq<Object>)
    requires RowsOf(variant, execute, state, start, selected, rows) && |rows| < |selected|
    requires next == StreamOutcome(variant, execute, state, start, selected[|rows|]).rows
    ensures RowsOf(variant, execute, state, start, selected, rows + [next])
  {
  }

  /** The next selected stream, run from `Context.state` as `current`: its rows, and the state
      written after it or the exception that ended the run. */
  method NextStream(variant: Variant, execute: Window -> Option<Response<Object>>, state: Object, selected: seq<string>,
                    start: int, context: Object, written: seq<Object>, current: Object)
    returns (rows: seq<Object>, out: Result<Object, Exception>)
    requires Wrote(variant, execute, state, start, selected, context, written)
    requires |written| < |selected| && current == Previous(context, written, |written|)
    ensures out.Success? ==> Wrote(variant, execute, state, start, selected, context, written + [out.value])
    ensures var stream := StreamOutcome(variant, execute, state, start, selected[|written|]);
            && rows == stream.rows
            && (stream.final.Failure? ==> out == Failure(stream.final.error))
            && (stream.final.Success? ==> out == StoreState(EnsureBookmarks(current), selected[|written|], stream.final.value))
    ensures out.Failure? ==> out.error == StreamError(variant, execute, state, start, selected[|written|])
    ensures CreateStream(selected[|written|]).Failure? ==> out == Failure(AssertionError)
    ensures selected[|written|] == "meeting_info" ==> out == Failure(InfoError(variant, state))
  {
    var id := selected[|written|];
    var bookmarked := EnsureBookmarks(current);
    var stream := SyncStream(variant, execute, state, start, id);
    rows := stream.rows;
    if stream.final.Failure? {
      return rows, Failure(stream.final.error);
    }
    out := StoreState(bookmarked, id, stream.final.value);
    if out.Success? {
      StoredIsWritten(variant, execute, state, start, id, current, out.value, stream.final.value);
      WroteAppend(variant, execute, state, start, selected, context, written, out.value);
    }
  }

  /** Where `sync` stands between streams: one row list and one written state per finished stream,
      and `Context.state` as the last stream left it. */
  predicate Progress(variant: Variant, execute: Window -> Option<Response<Object>>, state: Object, selected: seq<string>,
                     start: int, context: Object, written: seq<Object>, rows: seq<seq<Object>>, current: Object) {
    && |rows| == |written|
    && RowsOf(variant, execute, state, start, selected, rows)
    && Wrote(variant, execute, state, start, selected, context, written)
    && current == Previous(context, written, |written|)
  }

  /** One pass of the stream loop: the next stream runs, and either its state is written or its
      exception ends the run, with its rows recorded either way. */
  method SyncNext(variant: Variant, execute: Window -> Option<Response<Object>>, state: Object, selected: seq<string>,
                  start: int, context: Object, written: seq<Object>, rows: seq<seq<Object>>, current: Object)
    returns (rows': seq<seq<Object>>, out: Result<Object, Exception>)
    requires Progress(variant, execute, state, selected, start, context, written, rows, current)
    requires |written| < |selected|
    ensures RowsOf(variant, execute, state, start, selected, rows') && |rows'| == |written| + 1
    ensures out.Success? ==>
              Progress(variant, execute, state, selected, start, context, written + [out.value], rows', out.value)
    ensures var stream := StreamOutcome(variant, execute, state, start, selected[|written|]);
            && (stream.final.Failure? ==> out == Failure(stream.final.error))
            && (stream.final.Success? ==> out == StoreState(EnsureBookmarks(current), selected[|written|], stream.final.value))
    ensures out.Failure? ==> out.error == StreamError(variant, execute, state, start, selected[|written|])
  {
    var streamRows;
    streamRows, out := NextStream(variant, execute, state, selected, start, context, written, current);
    RowsOfAppend(variant, execute, state, start, selected, rows, streamRows);
    rows' := rows + [streamRows];
    if out.Success? {
      var w := written + [out.value];
      assert Previous(context, w, |w|) == out.value;
    }
  }

  /**
   * `sync` of the entry point.  `context` is `Context.state` when the call begins (empty in a fresh
   * process); `state` is the state the tap was started with; `execute` stands for the GraphQL API
   * and `start` for the configured start date in milliseconds.  Streams are processed in selection
   * order and `Context.state` is written once per stream, after its rows.
   */
  method Sync(variant: Variant, execute: Window -> Option<Response<Object>>, state: Object, selected: seq<string>,
              start: int, context: Object)
    returns (run: TapRun)
    ensures Wrote(variant, execute, state, start, selected, context, run.written)
    ensures run.error.None? <==> |run.written| == |selected|
    ensures |run.rows| == |run.written| + (if run.error.Some? then 1 else 0)
    ensures run.error.None? && selected != [] ==> run.context == run.written[|selected| - 1]
    ensures RowsOf(variant, execute, state, start, selected, run.rows)
    ensures run.error.Some? ==>
              var id := selected[|run.written|];
              && run.error == Some(StreamError(variant, execute, state, start, id))
              && (CreateStream(id).Failure? ==> run.error == Some(AssertionError))
              && (id == "meeting_info" ==> run.error == Some(InfoError(variant, state)))
    ensures run.error.Some? ==>
              var id := selected[|run.written|];
              var stream := StreamOutcome(variant, execute, state, start, id);
              stream.final.Failure?
              || StoreState(EnsureBookmarks(Previous(context, run.written, |run.written|)), id, stream.final.value).Failure?
  {
    var current := context;
    var written: seq<Object> := [];
    var rows: seq<seq<Object>> := [];
    while |written| < |selected|
      invariant Progress(variant, execute, state, selected, start, context, written, rows, current)
    {
      var out;
      rows, out := SyncNext(variant, execute, state, selected, start, context, written, rows, current);
      if out.Failure? {
        return TapRun(rows, written, EnsureBookmarks(current), Some(out.error));
      }
      current := out.value;
      written := written + [current];
    }
    run := TapRun(rows, written, current, None);
  }
}

=== FILE: wrappers.dfy ===
/** Failure-carrying wrappers shared by every module of the model. */
module Wrappers {

  /** A value that may be absent (Python's `None`). */
  datatype Option<+T> = None | Some(value: T) {

    /** The carried value, or `default` when absent (Python's `d.get(k, default)`). */
    function GetOr(default: T): T {
      match this
      case Some(v) => v
      case None => default
    }
  }

  /** The outcome of an operation that may raise. */
  datatype Result<+T, +E> = Success(value: T) | Failure(error: E) {

    predicate IsFailure() {
      Failure?
    }

    function PropagateFailure<U>(): Result<U, E>
      requires Failure?
    {
      Failure(error)
    }

    function Extract(): T
      requires Success?
    {
      value
    }
  }
}
